=== FILE: README.md ===
# iPhone storefront front end — a Dafny model of its core

This project models the decision logic of a Next.js/React storefront for
iPhones and accessories, together with its administration pages. The
customer side covers:

- the cart total and the per-line price display;
- the checkout hand-off and the sign-in redirects;
- the order history and its status labels;
- the account page;
- the rule-based chat assistant.

The administration side covers the product, order and user tables with
their search filters, the add/edit dialogs, and the `cn` class-name helper.
Beneath all of it sits the one HTTP helper every call goes through
(`apiFetch`).

The model keeps the program's own vocabulary and its loose data:

- Backend rows are JavaScript values (`Js.Value`: undefined, null,
  booleans, numbers, strings, arrays, objects).
- `Js.Truthy` and `Js.Coalesce` model `||` and falsiness.
- `Js.ToNumber` models `Number(...)`, with NaN as its own case.
- `Js.StrictEq` models `===`.

Every page handler is a pure function:

- its result is the state after the handler, or the ordered trace of
  effects it performs (loading flag, API call, toast, navigation, closing
  a dialog);
- every network call is an oracle parameter (`Api.Outcome`: the call
  returns a value or throws a message).

The proofs state what each handler promises:

- which effects happen on which outcome, and in which order;
- what a payload contains;
- which rows a filter keeps or a delete removes;
- that a status update is idempotent;
- that query strings round-trip;
- that the chat assistant's context remembers the last product named.

Where the code as written departs from what it evidently intends, both
versions are modelled and related (see Findings).

Modules, one per source file, plus shared helpers:

- `Optional`, `Text`, `Lists`, `Js`, `Toast`: Option, JavaScript string
  operations, filter/map, the dynamic value model, toast notices.
- `Api`: `lib/api.ts`.
- `Cart`: `app/cart/page.tsx`.
- `Checkout`: `app/checkout/page.tsx`.
- `Orders`: `app/orders/page.tsx`.
- `Profile`: `app/profile/page.tsx`.
- `Auth`: `app/auth/page.tsx`.
- `AdminProducts`, `AdminOrders`, `AdminUsers`: the three admin tables.
- `ClassNames`: `cn` in `app/admin/page.tsx`.
- `ProductModal`, `UserModal`: the two admin dialogs.
- `Chatbot`: the engine in `components/Chatbox.tsx`.

## Model

| member | source | states |
|---|---|---|
| Api.ApiUrl | lib/api.ts:1 | The base URL is the environment's value when it is set and non-empty, else the local default. |
| Api.RequestUrl | lib/api.ts:18 | The request URL is the base followed by the endpoint, with nothing added or lost between them. |
| Api.Headers | lib/api.ts:10-16 | Authorization is sent exactly when a non-empty token exists, as `Bearer <token>`. JSON content type and accept headers are sent exactly when the body is not form data. No other header is sent. |
| Api.SendBody | lib/api.ts:21 | Form data is sent raw. Otherwise the body is serialised as JSON exactly when it is truthy, and omitted when it is not. |
| Api.ServerMessage | lib/api.ts:35 | A failed JSON response throws the server's `message` when truthy, else the fixed "request failed" text, and never an empty message. |
| Api.NotJsonMessage | lib/api.ts:31 | The error for a failed non-JSON response quotes both the status code and the response text. |
| Api.Settle | lib/api.ts:24-38 | A call returns exactly when the response is OK and, if it is JSON, parses. An OK non-JSON response returns null. A failure throws the server message or the non-JSON message. A malformed JSON body throws the parse error. A transport failure throws its error. |
| Api.IsJson | lib/api.ts:24-27 | A response is read as JSON exactly when it has a content type in which `application/json` occurs, at any position. A content type shorter than that never qualifies. |
| Api.ErrorText | components/UserModal.tsx:111 | An error's message when it is non-empty, else the caller's fallback text. |
| Api.ListPayload | app/admin/orders/page.tsx:52 | An array payload is kept as is. An object payload gives its truthy `data`, else the empty list. Reading `data` of null or undefined throws, giving no list. |
| Api.HexDigit | lib/api.ts:54 | A percent-escape digit is an upper-case hexadecimal character. |
| Api.HexRoundTrip | lib/api.ts:54 | Reading back a hexadecimal digit gives the value written. |
| Api.EncodeChar | lib/api.ts:54 | An encoded character never contains the pair or key/value separators. |
| Api.Encode | lib/api.ts:54 | An encoded component never contains `&` or `=`. |
| Api.DecodeEncodeChar | lib/api.ts:54 | Decoding undoes the encoding of one character, whatever follows it. |
| Api.DecodeEncode | lib/api.ts:54 | Decoding an encoded component gives back the original string. |
| Api.EncodePair | lib/api.ts:54 | An encoded pair contains an `=` and no `&`. |
| Api.QueryString | lib/api.ts:54 | No parameters give the empty string. Otherwise the string splits on `&` into exactly one encoded pair per parameter, in order. |
| Api.ParseQuery | app/auth/page.tsx:33-34 | There is at most one entry per `&`-separated piece. The empty query has none. A query without `&` is one entry. |
| Api.AfterFirst | app/auth/page.tsx:33-34 | The query of a route is what follows its first `?`, and the route is the part before, the `?`, and the query. |
| Api.DecodePlain | app/auth/page.tsx:34 | A component without `+` or `%` decodes to itself. |
| Api.ParsePlainPair | app/auth/page.tsx:34 | A plain `name=value` query parses to exactly that one entry. |
| Api.QueryGet | app/auth/page.tsx:34 | `get(name)` finds a value exactly when some entry has that name, and the value is that of the first such entry. |
| Api.QueryGetAt | app/auth/page.tsx:34 | An entry with the name that no earlier entry shares is the one `get` reads. |
| Api.ParsePieceEncoded | lib/api.ts:54 | Parsing an encoded pair gives back the pair. |
| Api.ParseEncodedPieces | lib/api.ts:54 | Any pieces that are the encodings of given pairs, one for one, parse back to exactly those pairs. |
| Api.ParsePiecesEncoded | lib/api.ts:54 | Parsing the encoded pairs gives back every pair, in order. |
| Api.QueryRoundTrip | lib/api.ts:53-56 | The query string built from parameters parses back to exactly those parameters, in order. |
| Api.CallbackEndpoint | lib/api.ts:53-56 | The payment callback endpoint carries the parameters as a query string that parses back to them. |
| Api.RoleBodyAsWritten | lib/api.ts:77-81 | As written, the role update body is already a string before the request stringifies it again. |
| Api.RoleBodyAsWrittenHasNoRole | lib/api.ts:80 | The server receives a JSON string, not an object, so the payload it reads has no `Role` field. |
| Api.RoleBody | lib/api.ts:77-81 | Corrected: the body is the object `{Role}`, and the server reads the chosen role and nothing else. |
| Api.StatusBodyAsWritten | lib/api.ts:85-89 | As written, the status update body is already a string before it is stringified again. |
| Api.StatusBodyAsWrittenHasNoStatus | lib/api.ts:88 | The server reads no `status` field from the doubly encoded body. |
| Api.StatusBody | lib/api.ts:85-89 | Corrected: the body is the object `{status}`, and the server reads the chosen status and nothing else. |
| Cart.FindColor | app/cart/page.tsx:115-117 | `find(v => v.Color === color)`: the first variant whose colour is strictly equal, or none when no variant matches. |
| Cart.MatchingVariant | app/cart/page.tsx:115-117 | The variant used is one of the product's variants. It is the first colour match when there is one, else the first variant. |
| Cart.Display | app/cart/page.tsx:99-127 | A line's price, image, colour and stock come from the selected variant, else the matching variant, else the product. A non-numeric price shows as 0. |
| Cart.ProductId | app/cart/page.tsx:137 | The id a line's buttons act on is `id`, else `IdProduct`, else the empty string. |
| Cart.LinePriceAsWritten | app/cart/page.tsx:41-51 | The total's unit price, in precedence order: the selected variant's truthy price, else the product's, else the matching variant's, else 0. Each is read with `Number` and no zero fallback. |
| Cart.LinePrice | app/cart/page.tsx:41-51 | Corrected unit price: the written price when it is numeric, 0 when it is NaN. |
| Cart.TotalItemsAppend | app/cart/page.tsx:57 | The item count of two carts together is the sum of their counts. |
| Cart.TotalPriceAppend | app/cart/page.tsx:37-55 | The corrected total of two carts together is the sum of their totals. |
| Cart.TotalNaNFromAnyLine | app/cart/page.tsx:37-55 | As written, a single line with a NaN price makes the whole total NaN. |
| Cart.TotalAgreesWhenNumeric | app/cart/page.tsx:37-55 | When every line's price is numeric, the written total equals the corrected total. |
| Cart.FalsyNumberIsZero | app/cart/page.tsx:108 | `Number(v)` with the zero fallback is 0 for every falsy `v`. |
| Cart.TotalMatchesDisplay | app/cart/page.tsx:107-127 | On lines where the total and the display pick the same price source, the total's unit price equals the price displayed. |
| Cart.TotalMatchesSubtotals | app/cart/page.tsx:180 | On carts of such lines, the summary total equals the sum of the displayed line subtotals. |
| Cart.SelectedVariantWithoutPriceDiffers | app/cart/page.tsx:41-44 | A concrete line where the selected variant has no price: the total uses the product price, the display shows 0. |
| Cart.ProductPriceOverVariantDiffers | app/cart/page.tsx:43-50 | A concrete line without a selected variant: the total uses the product price, the display uses the variant's. |
| Cart.DecrementKeepsPositive | app/cart/page.tsx:191-194 | The minus button is enabled exactly when the decremented quantity is still at least 1. |
| Cart.IncrementRespectsStock | app/cart/page.tsx:203-206 | With a positive stock, an enabled plus button never takes the quantity above the stock. With no positive stock, the button is never disabled. |
| Cart.Decrement | app/cart/page.tsx:190-198 | No request when the quantity is at most 1. Otherwise the request sets the line's id to quantity − 1, which is at least 1. |
| Cart.Increment | app/cart/page.tsx:202-210 | No request exactly when the button is disabled by the displayed stock. Otherwise the request sets quantity + 1. |
| Cart.NonNumericPriceMakesTotalNaN | app/cart/page.tsx:43-44 | A concrete cart whose product price is the string "abc": the written total is NaN, so the checkout button stays enabled. |
| Cart.PositiveCartCanCheckOut | app/cart/page.tsx:262 | A non-empty cart whose lines all have positive price and quantity has a positive total, and checkout is enabled. |
| Cart.CheckoutRoute | app/cart/page.tsx:25-31 | Signed-in shoppers go to `/checkout`. Everyone else goes to sign-in with `from=/checkout`. |
| Cart.Subtotal | app/cart/page.tsx:180 | A line's subtotal is zero exactly when its displayed price or its quantity is zero. With both positive, it is at least the unit price. Cart.TotalMatchesSubtotals ties the subtotals to the summary total. |
| Cart.TotalPriceAsWritten | app/cart/page.tsx:37-55 | The summary total as written, folded line by line. TotalNaNFromAnyLine and TotalAgreesWhenNumeric state what it gives: NaN from any NaN line, else the corrected total. |
| Cart.TotalPrice | app/cart/page.tsx:37-55 | The corrected total is never negative when every line has a non-negative price and a quantity of at least 1. TotalPriceAppend and TotalMatchesSubtotals relate it to its parts and to the displayed subtotals. |
| Cart.TotalItems | app/cart/page.tsx:57 | The item count is at least the number of lines when every quantity is at least 1, as the minus button keeps it. |
| Cart.DecrementDisabled | app/cart/page.tsx:194 | The minus button is disabled at quantity 1 or less. DecrementKeepsPositive states that an enabled click never takes a quantity below 1. |
| Cart.IncrementDisabled | app/cart/page.tsx:206 | The plus button is disabled only with a positive numeric stock the quantity has reached. IncrementRespectsStock states both directions. |
| Cart.ShowsEmptyState | app/cart/page.tsx:59 | The empty state is shown exactly for a cart without lines. |
| Cart.CheckoutDisabledAsWritten | app/cart/page.tsx:262 | As written, checkout is disabled only by a total that is exactly 0, never by NaN. NonNumericPriceMakesTotalNaN exhibits a cart it leaves enabled. |
| Cart.CheckoutDisabled | app/cart/page.tsx:262 | Corrected: checkout is disabled when the corrected total is 0. PositiveCartCanCheckOut states that a cart of positive lines is never disabled. |
| Checkout.FullAddress | app/checkout/page.tsx:85 | The address line is the address, a comma and space, and the city, followed by ` (note)` only when a note was given. |
| Checkout.FullAddressKeepsNote | app/checkout/page.tsx:85 | For the same address and city, the address line determines the note. |
| Checkout.OrderPayload | app/checkout/page.tsx:88-97 | The order carries exactly the eight fields: the user id and e-mail, the cart items unchanged, the cart total, the address line, the phone, the payment method and the recipient name. |
| Checkout.MailOrderId | app/checkout/page.tsx:109 | The mailed order id is the result's truthy `order_id`, else its `id`, else "N/A". |
| Checkout.MailPayload | app/checkout/page.tsx:107-112 | The mail carries exactly the e-mail, the order id, the total and the items. |
| Checkout.Submit | app/checkout/page.tsx:78-129 | Without a user, nothing happens. When the order call throws: loading, the call, the error toast, loading off. When it succeeds: the mail is sent only if the result is present, then the cart is cleared, the success toast shown, and the shopper taken to `/profile`. |
| Checkout.ClearCartOnlyAfterOrder | app/checkout/page.tsx:102-118 | The cart is cleared if and only if the order call succeeded, and never before that call. |
| Checkout.SuccessGoesToProfile | app/checkout/page.tsx:118-125 | A successful order shows the success toast and navigates to `/profile` just before loading ends. A failed order shows no success and navigates nowhere. |
| Checkout.MailFailureDoesNotBlock | app/checkout/page.tsx:106-116 | The outcome of the mail call has no effect on the effects of checkout. |
| Checkout.NullResultSkipsMail | app/checkout/page.tsx:106-116 | An OK response without data skips the mail, since reading `order_id` of null throws inside the inner try. The cart is still cleared and the order still succeeds. |
| Checkout.LoadingBracketsSubmit | app/checkout/page.tsx:82-128 | For a signed-in user, loading is set once as the first effect and cleared once as the last, on every outcome. |
| Checkout.SubmitDisabled | app/checkout/page.tsx:391 | The order button is disabled right after loading is set and enabled right after it is cleared. Before loading was ever set, it is enabled. |
| Checkout.SubmitDisabledWhileInFlight | app/checkout/page.tsx:82-128 | For a signed-in user, the button stays disabled from the moment the order is sent until submission ends, and is enabled again afterwards. A second order cannot be sent while one is in flight. |
| Orders.FirstKey | app/orders/page.tsx:207-212 | The first key whose value passes the test, or none exactly when no key's value does. |
| Orders.FirstKeyAt | app/orders/page.tsx:207-212 | A key after only failing keys, itself passing, is the first key found. |
| Orders.FindKey | app/orders/page.tsx:207-216 | The loop over the keys that `getVal` runs finds the same key as the recursive definition `FirstKey`. |
| Orders.GetVal | app/orders/page.tsx:206-218 | `getVal` returns the number of the first present, non-empty, non-zero value. It returns 0 exactly when no key holds such a value. |
| Orders.FallbackIsZero | app/orders/page.tsx:213-216 | The second pass of `getVal` can only ever produce 0. |
| Orders.FilledIffTrimmed | app/orders/page.tsx:223 | The test `v && typeof v === 'string' && v.trim() !== ''` holds exactly for truthy strings that are not all white space. |
| Orders.GetStr | app/orders/page.tsx:221-226 | `getStr` returns the first value that is a string with non-space content. It returns '' exactly when there is none. |
| Orders.OrderTotal | app/orders/page.tsx:237 | The order total is `getVal` over the total's eight key variants. It is 0 exactly when none of them holds a non-zero value. |
| Orders.OrderId | app/orders/page.tsx:229 | The order id is `id`, else `IdOrder`, else `order_id`, else ''. |
| Orders.RecipientName | app/orders/page.tsx:232 | The name shown is never empty: the nested address's `FullName`, else `FullName`, else `fullname`, else `recipient_name`, else `RecipientName`, else the default customer label. |
| Orders.PhoneOf | app/orders/page.tsx:233 | The phone shown is the nested address's `Phone` when truthy; else the flat `Phone`; else `phone`; else `recipient_phone`; else `PhoneNumber` when truthy; else ''. Each step is taken only when every earlier key is falsy. |
| Orders.AddressOf | app/orders/page.tsx:234 | The nested `address.Address`, else `Address`, else `address` itself (so a bare address string is shown as it is), else `shipping_address`, else ''. |
| Orders.StatusValue | app/orders/page.tsx:239 | `Status` wins whenever it is not undefined, even when it is null, 0 or ''. Otherwise `status` wins when it is not undefined. Otherwise the value is 0. |
| Orders.FalsyStatusWins | app/orders/page.tsx:239-240 | Unlike an `or` chain, a `Status` of 0 or null shadows `status`, and the order shows as processing (entry 0). |
| Orders.StatusCode | app/orders/page.tsx:240 | A status value selects table entry c exactly when its property-key string is the numeral of c, for 0 ≤ c < 5. |
| Orders.StatusEntry | app/orders/page.tsx:240 | The status entry is the selected table entry, else entry 0. |
| Orders.StatusLabel | app/orders/page.tsx:263 | The label is the backend's truthy `status_text`, else the entry's text. |
| Orders.MissingStatusIsProcessing | app/orders/page.tsx:239-240 | An order with neither `Status` nor `status` shows entry 0. |
| Orders.NumberAndNumeralAgree | app/orders/page.tsx:62-68 | The number c and the string "c" select the same entry, c. |
| Orders.CompletedByCodeIsDone | app/orders/page.tsx:363 | Status 3 or '3' shows the completed badge together with the "completed" label. |
| Orders.DeliveredTextShowsBadgeWithProcessingLabel | app/orders/page.tsx:363 | A concrete order with textual status "delivered" shows the completed badge while its label reads entry 0, "processing". |
| Orders.ItemsList | app/orders/page.tsx:243 | The items are `items`, else `order_items`, else `Items`, else `order_details`, else the empty list. |
| Orders.ItemPrice | app/orders/page.tsx:273-275 | An item's unit price is its own price variants when truthy, else the product's price variants, else 0. |
| Orders.VisibleItems | app/orders/page.tsx:271-277 | The listed items are exactly the items with positive unit price, in order. |
| Orders.ItemQuantity | app/orders/page.tsx:280 | The quantity is `Number` of `quantity` when truthy; else of `Quantity` when truthy; else of `SL` when truthy; else 1. |
| Orders.QuantityIsFirstTruthyKey | app/orders/page.tsx:280 | The `or` chain reads the same key as a key-by-key search that tests truthiness, as `getVal` does. The quantity is that key's number, or 1 when no key is truthy. |
| Orders.LineAmount | app/orders/page.tsx:312 | The line amount is quantity × unit price, or NaN when the quantity is NaN. |
| Orders.FetchedOrders | app/orders/page.tsx:103 | Reading `data` fails exactly when the parsed result is null or undefined. Otherwise the kept list is the truthy `data`, else the empty list. |
| Orders.FetchedOrdersAgainstListPayload | app/orders/page.tsx:103 | On any reply but a bare array, the orders page keeps what the admin pages keep. A bare array, which the admin pages take as the list, gives no orders here. |
| Orders.FetchOrders | app/orders/page.tsx:78-112 | Nothing is requested without a token. A 401 goes back to sign-in with `/orders` as the return route. Every other failure shows the load error and its toast: a failed status, no response, a malformed body, or a null document. The list is shown exactly when the body parses and its `data` can be read. |
| Orders.Completed | app/orders/page.tsx:363 | The completed badge shows for status 3 or '3', or a `status` that upper-cases to DELIVERED. Its consequences are stated by CompletedByCodeIsDone and DeliveredTextShowsBadgeWithProcessingLabel. |
| Profile.StatusText | app/profile/page.tsx:147-156 | Known statuses get their own label and colour. Any other status is shown as it is, muted, and the muted colour marks exactly the unknown statuses. |
| Profile.StatusLabelsDistinct | app/profile/page.tsx:148-154 | The five known statuses have five different labels. |
| Profile.PaymentMethodText | app/profile/page.tsx:158-165 | The three checkout methods get a non-empty label of their own. Any other method is shown as it is. |
| Profile.CheckoutMethodsAreLabelled | app/profile/page.tsx:158-165 | Every method the checkout page can submit, the default included, is shown with a label, and the three labels differ. |
| Profile.OrderCode | app/profile/page.tsx:238 | The order code is the id's first eight characters, upper-cased. |
| Profile.OrderCodeOfPrefix | app/profile/page.tsx:238 | Only the first eight characters of an id matter, and taking the code again changes nothing. |
| Profile.Greeting | app/profile/page.tsx:184 | The greeting is the full name when set, else the e-mail up to its first `@` (containing no `@`), else nothing. |
| Profile.FetchProfile | app/profile/page.tsx:76-99 | The form is filled from the row only with a user, a row, and no error other than "no row". Each field becomes the row's truthy value, else ''. In every other case the form is unchanged. |
| Profile.FetchedProfileHasNoNulls | app/profile/page.tsx:87-93 | A fetched row never leaves null or undefined in the form. |
| Auth.FromParam | app/auth/page.tsx:34 | `from` is the query's non-empty `from` value, else `/iphone`, and is never empty. |
| Auth.QueryOfRoute | app/cart/page.tsx:27 | The query of `prefix?query` is `query` when the prefix has no `?`. |
| Auth.CheckoutRouteQuery | app/cart/page.tsx:27 | The cart's sign-in route carries the query `from=/checkout`. |
| Auth.CheckoutQueryFrom | app/auth/page.tsx:34 | That query names `/checkout` as `from`. |
| Auth.CartSignInReturnsToCheckout | app/auth/page.tsx:34-43 | A shopper sent to sign in from the cart is redirected to `/checkout` afterwards. |
| Auth.Redirect | app/auth/page.tsx:36-44 | There is a redirect exactly when signed in with a user. Administrators (`Role == '2'` or `=== 2`) go to `/admin`, everyone else to `from`. |
| Auth.AdminRoleCodes | app/auth/page.tsx:38 | '2' and 2 are administrator roles. The table's codes '01' and '02', undefined and null are not. |
| Auth.TableAdminIsNotRedirectedToDashboard | app/auth/page.tsx:38 | A user the user table labels "Admin" (role '01') is sent to `from`, not to the dashboard. |
| Auth.RegisterRejection | app/auth/page.tsx:60-68 | A mismatch is reported first, then a password shorter than 6. Registration proceeds exactly when the passwords match and have at least 6 characters. |
| Auth.Submit | app/auth/page.tsx:46-93 | Loading brackets every path. Login calls `login`, then shows its error or the success toast; a rejected login only clears loading. Registration shows the first rejection or calls `register`. |
| Auth.RegisterOnlyWhenValid | app/auth/page.tsx:60-77 | Registration is called if and only if the form passes the checks. A mismatch never reports the length error. |
| Auth.LoginErrorShowsNoSuccess | app/auth/page.tsx:52-58 | A login error shows that error and never the success toast. |
| Auth.LoadingClearedOnEveryPath | app/auth/page.tsx:48-92 | Loading is set only at the start and cleared only at the end, on every path. |
| AdminProducts.ProductId | app/admin/products/page.tsx:93 | The row id is the string of `IdProduct` when that string is non-empty, else of `id`, else ''. |
| AdminProducts.FirstVariant | app/admin/products/page.tsx:90 | The first variant when it is truthy, else the empty object, which has no fields. |
| AdminProducts.VariantStock | app/admin/products/page.tsx:98 | A variant's stock is `Number` of `Stock`, else of `stock`, else 0. |
| AdminProducts.StockTotalNaNIff | app/admin/products/page.tsx:98 | The stock sum is NaN if and only if some variant's stock is NaN. |
| AdminProducts.MissingStockCountsZero | app/admin/products/page.tsx:98 | Variants without a truthy stock sum to 0. |
| AdminProducts.MapVariant | app/admin/products/page.tsx:100-106 | The table's copy of a variant keeps the variant id, and each field takes the variant's truthy value or its default. |
| AdminProducts.RawVariants | app/admin/products/page.tsx:89 | The variants are `product_variants`, else `variants`, else the empty list. |
| AdminProducts.ImageOf | app/admin/products/page.tsx:99 | The image follows the written precedence of five sources and is never falsy other than ''. |
| AdminProducts.MapProduct | app/admin/products/page.tsx:88-107 | A fetched product maps exactly when reading its fields does not throw. The row's id, category, name, description, price, stock, image and variants are the documented defaults of its fields. |
| AdminProducts.NoVariantsMeansZero | app/admin/products/page.tsx:89-98 | A product without variants is priced 0, has stock 0, and carries an empty variant list. |
| AdminProducts.MapProducts | app/admin/products/page.tsx:88-108 | The list maps exactly when every product maps, one row per product, in order. |
| AdminProducts.MappedRowsHaveVariants | app/admin/products/page.tsx:100-106 | Every mapped row carries its variants. |
| AdminProducts.FetchProducts | app/admin/products/page.tsx:82-118 | Rows load exactly when the call returns, the payload is an array or `{ data }` with an array, and every product maps; the rows are then the mapped products, in order, each carrying its variants. Every other case shows the load error. |
| AdminProducts.DataPayloadLoadsLikeArray | app/admin/products/page.tsx:86 | A `{ data }` payload loads the same rows as its array on its own, and one without a truthy `data` loads an empty list. |
| AdminProducts.StockBadge | app/admin/products/page.tsx:160-166 | "In stock" exactly above 10, "running low" exactly from 1 to 10, "sold out" at 0 or below and for NaN. |
| AdminProducts.EditForm | app/admin/products/page.tsx:126-140 | The edit form copies id, name and variants. It defaults the category to '01' and the description to ''. Only a product without variants gets the single blank variant. |
| AdminProducts.LoadedProductsEditTheirOwnVariants | app/admin/products/page.tsx:133-139 | A loaded product is edited with exactly its own variants, even when it has none. |
| AdminProducts.HandleDelete | app/admin/products/page.tsx:146-155 | Without confirmation, nothing happens. On success, the rows with that id are removed. On failure, the list is kept and the failure shown. |
| AdminProducts.DeleteKeepsOthersInOrder | app/admin/products/page.tsx:150 | Deleting the one product with an id leaves the others in their order. |
| AdminProducts.FilterProducts | app/admin/products/page.tsx:168-170 | The filter throws (no rows) exactly when some product's name is not a string. Otherwise the shown rows are exactly those whose lower-cased name contains the lower-cased term. |
| AdminProducts.EmptySearchKeepsAll | app/admin/products/page.tsx:168-170 | An empty search shows every product, in order, when every name is a string. Otherwise it throws. |
| AdminOrders.SetStatusIfMatch | app/admin/orders/page.tsx:65 | The matching order gets the new status and keeps every other field. Any other order is unchanged. |
| AdminOrders.ApplyStatus | app/admin/orders/page.tsx:65 | The list keeps its length. Matching orders get the status, the others stay as they are. |
| AdminOrders.HandleUpdateStatus | app/admin/orders/page.tsx:62-70 | The update is always requested. The list changes only when it succeeds; on failure the list is kept and the error shown. |
| AdminOrders.ApplyStatusIdempotent | app/admin/orders/page.tsx:65 | Setting the same status twice is the same as setting it once. |
| AdminOrders.HandleDelete | app/admin/orders/page.tsx:72-81 | Without confirmation, nothing happens. On success, the orders with that id are removed. On failure, the list is kept. |
| AdminOrders.DeleteRemovesExactlyMatching | app/admin/orders/page.tsx:76 | After a delete, no order with that id remains, every other order remains, and the list never grows. |
| AdminOrders.DeleteKeepsOthersInOrder | app/admin/orders/page.tsx:76 | Deleting the one order with an id leaves the others in their order. |
| AdminOrders.FilterOrders | app/admin/orders/page.tsx:83-86 | The shown orders are exactly those whose id or recipient name contains the lower-cased term. |
| AdminOrders.EmptySearchKeepsNamedOrders | app/admin/orders/page.tsx:83-86 | An empty search shows every order that has an id or a recipient name. |
| AdminOrders.StatusBadge | app/admin/orders/page.tsx:88-97 | Only the numbers 0 to 4 get their own badge. Everything else, strings included, shows "awaiting confirmation". |
| AdminOrders.DropdownStatusesHaveBadges | app/admin/orders/page.tsx:183-197 | Every status the dropdown sets has its own badge, and the five badges differ. |
| AdminOrders.UpdatedOrderShowsChosenBadge | app/admin/orders/page.tsx:62-97 | After a successful update, the updated order shows the badge of the chosen status. |
| AdminUsers.SetRoleIfMatch | app/admin/users/page.tsx:63-67 | The matching user gets the new role and keeps every other field. Others are unchanged. |
| AdminUsers.ApplyRole | app/admin/users/page.tsx:63-67 | The list keeps its length, and only matching users change. |
| AdminUsers.HandleChangeRole | app/admin/users/page.tsx:57-74 | Asking for the current role does nothing. Otherwise the update is requested and the list changes only if it succeeds. |
| AdminUsers.ChangeRoleThenAgainIsNoOp | app/admin/users/page.tsx:58-67 | After a successful change, asking for the same role again changes nothing. |
| AdminUsers.RoleLabel | app/admin/users/page.tsx:142-152 | "Admin" exactly for role '01', "User" otherwise. |
| AdminUsers.DisabledItemIsNoOp | app/admin/users/page.tsx:165-175 | The disabled menu item, if clicked, would change nothing. |
| AdminUsers.MenuOffersTheOtherRole | app/admin/users/page.tsx:165-175 | An "Admin" user can only be made "User", and a '02' user only "Admin". |
| AdminUsers.FilterUsers | app/admin/users/page.tsx:76-79 | The shown users are exactly those whose name or e-mail contains the term. |
| AdminUsers.FetchedUsers | app/admin/users/page.tsx:47 | An array payload is kept. A null or undefined payload gives no list (the read throws). Any other payload gives its `data` when truthy, else the empty list. |
| ClassNames.Kept | app/admin/page.tsx:81-83 | `filter(Boolean)` keeps exactly the truthy inputs. |
| ClassNames.Cn | app/admin/page.tsx:81-83 | The kept inputs printed and joined with single spaces. CnCons, CnOfFalsy, CnSplitsBack and CnEmptyOnlyWhenAllFalsy state what the string contains. |
| ClassNames.CnOfFalsy | app/admin/page.tsx:81-83 | Only falsy inputs give ''. |
| ClassNames.CnCons | app/admin/page.tsx:81-83 | A falsy input adds nothing. A truthy one is printed in front of the rest, with exactly one space between. |
| ClassNames.CnSplitsBack | app/admin/page.tsx:81-83 | With space-free class names, splitting the result on spaces gives back the kept inputs, in order. |
| ClassNames.TruthyPrintsSomething | app/admin/page.tsx:82 | A truthy value other than an array never prints as ''. |
| ClassNames.CnEmptyOnlyWhenAllFalsy | app/admin/page.tsx:81-83 | Without arrays, `cn` is '' if and only if every input is falsy. |
| ProductModal.TextIfTruthy | components/ProductModal.tsx:56-57 | `v ? v.toString() : ''`. |
| ProductModal.Prefill | components/ProductModal.tsx:48-73 | As written, a product that is not truthy gives the blank form. With one, the fields are set as follows. The id is the string of `id` when present, else ''. Name, description and image keep a truthy value and are '' otherwise. Price and stock are the string of a truthy value, else ''. The colour is ''. The category is '1' exactly for the phone category, else '2'. |
| ProductModal.Open | components/ProductModal.tsx:48-73 | Opening shows step 1 with the prefilled form. |
| ProductModal.Next | components/ProductModal.tsx:84-90 | Step 2 only with a name that is not blank once trimmed. Otherwise the error is shown and nothing moves. The form is never touched. |
| ProductModal.Prev | components/ProductModal.tsx:92 | Back to step 1, form untouched. |
| ProductModal.NextThenPrev | components/ProductModal.tsx:84-92 | From step 1, next then previous returns to where the dialog was. A blank name stays on step 1. |
| ProductModal.Rejection | components/ProductModal.tsx:97-104 | The price is checked before the stock. The form is accepted exactly when neither check fails. |
| ProductModal.ZeroStockAccepted | components/ProductModal.tsx:101 | A stock of "0" passes. |
| ProductModal.BlankOrZeroPriceRejected | components/ProductModal.tsx:97 | A blank or zero price is refused with the price error. |
| ProductModal.OnWire | components/ProductModal.tsx:109-114 | A number travels as itself in JSON, and NaN as null. |
| ProductModal.Wire | components/ProductModal.tsx:111-113 | `Number(v)` as sent: the number, or null when NaN. |
| ProductModal.Payload | components/ProductModal.tsx:109-114 | The payload has exactly the form's eight keys, with price, stock and category converted by `Number`. |
| ProductModal.AcceptedPayloadIsInRange | components/ProductModal.tsx:97-114 | An accepted form sends a positive price and a non-negative stock (or null). |
| ProductModal.Call | components/ProductModal.tsx:116-122 | With a product, the form's id is updated; without one, the product is added. Both send the payload. |
| ProductModal.Submit | components/ProductModal.tsx:94-131 | Corrected: a rejected form shows its error only. An accepted one brackets the call with loading, then shows success, notifies and closes, or shows the error. |
| ProductModal.SubmitAsWritten | components/ProductModal.tsx:116-118 | As written: with a product, the missing update function throws before any call, so only the error is shown. Adding is as in the corrected version. |
| ProductModal.EditNeverSucceedsAsWritten | components/ProductModal.tsx:116-125 | As written, saving an edited product never succeeds and never requests an update. |
| ProductModal.SuccessOnlyAfterCall | components/ProductModal.tsx:116-125 | Success is reported and the dialog closes if and only if the form was accepted and the call succeeded. |
| ProductModal.VariantObject | app/admin/products/page.tsx:133-139 | The table's variant as the object the dialog receives. |
| ProductModal.EditedProduct | app/admin/products/page.tsx:128-140 | The object handed to the dialog carries `IdProduct`, `NameProduct`, `Decription` and `IdCategory`, and none of the keys the prefill reads. |
| ProductModal.EditPrefillIsBlankAsWritten | components/ProductModal.tsx:48-59 | As written, editing opens a blank form (category '2'), and "next" is refused for the missing name. |
| ProductModal.PrefillForEdit | components/ProductModal.tsx:49-59 | Corrected prefill: reads the keys the table actually hands over. |
| ProductModal.EditPrefillKeepsProduct | components/ProductModal.tsx:48-59 | With the corrected prefill, a product with an id and a name keeps both, and "next" moves to step 2. |
| UserModal.Prefill | components/UserModal.tsx:43-63 | Never a password. Without a user, the blank form. With one, the name and e-mail, each '' when falsy, and the role and status with defaults 'user' and 'active'. |
| UserModal.EditPayload | components/UserModal.tsx:84-92 | The update sends name, e-mail, role and status, plus the password exactly when one was typed. |
| UserModal.RegisterPayload | components/UserModal.tsx:98-103 | Registration sends exactly the name, e-mail and both passwords. |
| UserModal.RegisterIgnoresRoleAndStatus | components/UserModal.tsx:98-103 | The role and status chosen while adding a user are not sent. |
| UserModal.Submit | components/UserModal.tsx:78-115 | Loading brackets the call: an update with a user, a registration without. Then the success toast, notify and close, or the error toast. |
| UserModal.SuccessOnlyAfterCall | components/UserModal.tsx:108-111 | Notify and close happen if and only if the call succeeded, and only after it. |
| UserModal.EditWithoutPasswordKeepsIt | components/UserModal.tsx:90-92 | Editing without typing a password never sends one. |
| Chatbot.FirstMatch | components/Chatbox.tsx:117-122 | The first pattern at or after a position that matches, or none exactly when none does. |
| Chatbot.Classify | components/Chatbox.tsx:116-122 | The intent is that of the first matching pattern, with its confidence. It is 'general' at 50% exactly when no pattern matches. |
| Chatbot.ClassifyFirst | components/Chatbox.tsx:116-122 | A message matching pattern k and no earlier one gets pattern k's intent and confidence. |
| Chatbot.PricePhraseWins | components/Chatbox.tsx:101 | Any phrase of the price pattern makes the intent price, at 95%. |
| Chatbot.GiaChotReadsAsPrice | components/Chatbox.tsx:101-113 | The purchase phrase "giá chốt" is always read as a price question, since the price pattern comes first. |
| Chatbot.Phone | components/Chatbox.tsx:87-89 | At most one phone model is named, the Pro phrases first, then 16/plus, then 15. |
| Chatbot.Entities | components/Chatbox.tsx:86-92 | The phone model, if any, comes first and is the only phone. AirPods and Watch are named exactly when their phrases occur. |
| Chatbot.Analyze | components/Chatbox.tsx:82-128 | The entities of the trimmed message, else the remembered one. The intent is the classification. The context remembers the intent and the first entity. |
| Chatbot.Answer | components/Chatbox.tsx:132-275 | One rule per branch, each applying only when the earlier tests fail. Purchase, price and colour first ask about the Pro Max (entity or phrase), then the iPhone 16. Battery asks about the Pro Max, else answers for all models. Features and camera answer the Pro Max only. Advice answers gaming words first, then filming words. The four knowledge topics have fixed replies. Every case left over falls through to the greeting check. |
| Chatbot.Fallback | components/Chatbox.tsx:265-275 | A greeting back exactly when the message starts with a greeting, else the not-understood reply. |
| Chatbot.KnowledgeAnswersQuoteTheBase | components/Chatbox.tsx:157-186 | Delivery, warranty, trade-in and instalment questions answer with the knowledge base's text for that topic. |
| Chatbot.FallbackReply | components/Chatbox.tsx:272-275 | A message no branch applies to gets the "not understood" text. |
| Chatbot.FallbackSuggestions | components/Chatbox.tsx:272-275 | That reply carries its three suggestions. |
| Chatbot.FollowUpKeepsProduct | components/Chatbox.tsx:94-97 | A follow-up that names no product is about the product named before. |
| Chatbot.PriceWithoutModelIsNotAnswered | components/Chatbox.tsx:189-203 | A price question naming no model, at the start of a conversation, falls through to the greeting or the fallback. |
| Chatbot.Converse | components/Chatbox.tsx:310-339 | A message that is blank once trimmed is skipped. There is one reply per other message, the first in the starting context. The context left is the fold of the analyses over the messages that are not blank. |
| Chatbot.BlankMessageIgnored | components/Chatbox.tsx:313 | A blank message anywhere in a conversation changes neither the replies nor the context. |
| Chatbot.ConverseRemembersLastIntent | components/Chatbox.tsx:126 | After a conversation, the remembered intent is that of its last message that is not blank. |
| Chatbot.RememberedLastIntent | components/Chatbox.tsx:126 | The same for the context fold, which is left unchanged when every message is blank. |
| Chatbot.AnalyzeSetsIntent | components/Chatbox.tsx:126 | One message leaves the context remembering its intent. |
| Chatbot.BlankNamesNothing | components/Chatbox.tsx:83-92 | A blank message names no product. |
| Chatbot.LastNamedCons | components/Chatbox.tsx:125 | The remembered entity can be computed one message at a time. |
| Chatbot.AnalyzeRemembers | components/Chatbox.tsx:125 | One message leaves the context remembering the entity it names, or the one before. |
| Chatbot.ContextRemembersLastNamed | components/Chatbox.tsx:124-126 | After a conversation, the remembered entity is the last one any message named, else the initial one. |
| Chatbot.RememberedLastNamed | components/Chatbox.tsx:124-126 | The same for the context fold. |
| Js.Coalesce | app/orders/page.tsx:232 | A chain of logical-or operators gives the first truthy operand, else the last. |
| Js.Access | app/orders/page.tsx:232 | Optional chaining gives nothing exactly on null or undefined, else the field. |
| Js.With | app/admin/orders/page.tsx:65 | A spread with one field set: that field is the new value, the rest unchanged, and the keys are the old ones plus it. |
| Js.ToStringOpt | app/admin/products/page.tsx:93 | `v?.toString()`: undefined on null or undefined, else the string. |
| Js.Get | app/orders/page.tsx:232 | Optional property read: the field's value on an object that has the key, undefined everywhere else. Js.Access states where a plain read throws instead. |
| Js.ToNumber | app/cart/page.tsx:108 | `Number(undefined)` is NaN; null and '' are 0. NumberOfPrintedInt and NumberOfStringOfNum state that an integer's numeral reads back as that integer. |
| Js.ToStr | app/admin/products/page.tsx:93 | `String(v)`. NumberOfStringOfNum states that a number's string reads back as the number. |
| Js.NumberOfPrintedInt | app/orders/page.tsx:240 | `Number` of an integer's decimal numeral is that integer. |
| Text.ContainsIffOccurs | app/admin/products/page.tsx:169 | `includes` holds exactly when the text occurs at some index. |
| Text.Contains | app/admin/products/page.tsx:169 | `includes`, searched left to right. ContainsIffOccurs states that it holds exactly when the text occurs at some index. |
| Text.TrimStart | components/ProductModal.tsx:85 | What `trim` cuts from the front is a blank prefix. The rest is a suffix of the input that starts with a non-space, and it is empty exactly for a blank input. |
| Text.TrimEnd | components/ProductModal.tsx:85 | What `trim` cuts from the back is a blank suffix. The rest is a prefix of the input that ends with a non-space. |
| Text.Trim | components/ProductModal.tsx:85 | `trim`, the back cut after the front cut. TrimEmptyIffBlank states that it gives '' exactly for blank strings. |
| Text.Lower | app/admin/products/page.tsx:169 | ASCII lower-casing keeps the length and maps each character on its own. LowerIdempotent states that doing it twice is doing it once. |
| Text.TrimEmptyIffBlank | components/ProductModal.tsx:85 | `trim()` gives '' exactly for strings made only of white space. |
| Text.LowerIdempotent | app/admin/products/page.tsx:169 | Lower-casing twice is lower-casing once. |
| Text.JoinSplit | app/profile/page.tsx:184 | Joining the parts of a split restores the string. |
| Text.SplitJoin | app/admin/page.tsx:82 | Splitting a join restores the parts when none contains the separator. |
| Text.BeforeFirst | app/profile/page.tsx:184 | `split(c)[0]` is the longest prefix free of `c`, ending right before the first `c`. |
| Text.Take | app/profile/page.tsx:238 | `slice(0, n)` is the prefix of length min(n, length). |
| Lists.Filter | app/admin/products/page.tsx:168-170 | `filter` keeps exactly the elements that pass, and only elements of the input. |
| Lists.FilterDropsOne | app/admin/products/page.tsx:150 | Filtering out one failing element among passing ones leaves the others in order. |

## Left out

- I/O is not modelled: fetch, Supabase, `localStorage`, the router and
  the toast library. Every call becomes an oracle parameter or an effect
  in a trace. The cart store (`CartContext`) and the auth context are not
  part of this model; their `updateQuantity`, `clearCart`, `login` and
  `register` appear only as requested effects.
- Timing is not modelled: the chat assistant's thinking delay, the
  suggestion auto-send timer, scrolling, and markdown rendering of replies.
- `Intl.NumberFormat` and date formatting are display-only and not
  modelled.
- Pages outside the core are not modelled: the product detail page, the
  landing pages, the header, the footer, the e-mail verification page and
  the auth callback page.
- Js.ToNumber: models `Number(...)` on integers only. Decimals,
  exponents, hexadecimal, `Infinity` and objects read as NaN. Prices and
  stocks in this shop are whole đồng and counts.
- Text.Lower: `toLowerCase`/`toUpperCase` are mapped on ASCII letters
  only. Vietnamese capitals are not folded. String lengths count
  characters, not UTF-16 code units.
- Chatbot.Analyze: the message is taken as already lower-cased, so the
  patterns' `/i` flag and the `toLowerCase` in `analyzeIntent` and
  `generateResponse` are assumed, not performed.
- Chatbot.Answer: replies are identified by their constructor. Their
  texts are the fields of a `Chatbot.Script`, so the knowledge-base facts
  are stated for any script. The unused `userPreferences` part of the
  context is left out.
- Auth.Submit: the page's second `register` call, its inner `try` with
  the success or failure toast and the `/verify-email` navigation, and
  the toasts after it (app/auth/page.tsx:76-88) are left out by design.
  The auth context of this repository resolves `register` to undefined,
  so `const { error } = await register(...)` at line 70 throws before any
  of them runs: what runs is the one call and the cleared loading flag,
  `[LoadingOn, CallRegister, LoadingOff]`, which is the trace modelled.
  The context's `register` also takes a single argument, so it receives
  only the name. The login reply is taken to be an object with an `error`
  field; the same context resolves `login` to undefined too, whose
  destructuring throws, and that outcome is the `Rejected` reply (loading
  cleared, no toast).
- Api.Settle: `res.json()` and `res.text()` are results given in the
  response, not parsers. `JSON.stringify` is modelled only for the scalar
  bodies of the role and status updates.
- AdminUsers.FilterUsers: a user whose name or e-mail is present but not a
  string makes the original filter throw. The model treats such a user as
  not matching.
- AdminOrders.FilterOrders: likewise, a recipient name that is present but
  not a string throws in the original. The model treats it as not matching.
- Orders.StatusCode: `Record` lookups by prototype keys such as
  `toString` are not modelled. Only the five entries exist. The same holds
  for Profile.StatusText and Profile.PaymentMethodText: a status or method
  named like an `Object.prototype` member (`constructor`, say) reads that
  member from the lookup table in the original, and the model treats it
  as an unknown key shown as it is.
- ProductModal.SubmitAsWritten: the `TypeError` text thrown by calling the
  missing function is a parameter, since it is engine-defined.
- Chatbot.Converse: a message that is blank once trimmed is skipped, as
  the send handler returns before doing anything. The assistant's greeting
  bubble, message ids and loading bubble are UI state and not modelled.
  The fold answers messages in the order they were sent. In the original
  each reply waits a random 800 to 1200 ms (components/Chatbox.tsx:336),
  so two messages sent close together can be answered, and can update
  the engine's context, in the reverse order.
- Api.EncodeChar: characters beyond ASCII are written as themselves, not
  as the percent-escapes of their UTF-8 bytes. `Api.Decode` reads `%XX` as
  one character of code XX, not as a UTF-8 byte. `Api.Encode`,
  `Api.QueryString` and `Api.CallbackEndpoint` inherit this. The round
  trip still holds, but the exact text differs from `URLSearchParams` for
  non-ASCII input (Vietnamese letters among them).
- Js.Get: it models the optional read `v?.k`, which never throws. A plain
  `v.k` throws on null or undefined. Where that throw changes what a page
  does, the model makes it an error case. `Api.ListPayload` and
  `Orders.FetchedOrders` read with `Js.Access`. `AdminProducts.MapProduct`
  fails through `AdminProducts.Mappable`. `AdminProducts.FilterProducts`
  fails on a name that is not a string. The cart page's
  plain `item.product.*` reads are modelled with `Get`. They assume the
  cart store always holds a product object, since that store is not part
  of this model.

## Findings

| source | as written | input that shows it | evidently intended | confidence | as-written member | corrected member |
|---|---|---|---|---|---|---|
| app/cart/page.tsx:41-51 | The summary total reads `Number(price)` with no zero fallback, unlike the line display, so one non-numeric price makes the total NaN. | one item, product price "abc", quantity 1 | a line whose price is not a number counts 0, as the display shows it | not executed | Cart.NonNumericPriceMakesTotalNaN | Cart.LinePrice |
| lib/api.ts:77-81 | `updateUserRoleApi` passes `JSON.stringify({Role})` as the body, which `apiFetch` stringifies again. | role "01" | the server receives the object `{Role: "01"}` | not executed | Api.RoleBodyAsWrittenHasNoRole | Api.RoleBody |
| lib/api.ts:85-89 | `updateOrderStatusApi` stringifies `{status}` before `apiFetch` stringifies it again. | status 3 | the server receives `{status: 3}` | not executed | Api.StatusBodyAsWrittenHasNoStatus | Api.StatusBody |
| components/ProductModal.tsx:25 | The dialog imports `updateProductApi`, which the API module does not export, so saving an edit throws. | any accepted form with a product | editing sends the update and reports success | not executed | ProductModal.EditNeverSucceedsAsWritten | ProductModal.SuccessOnlyAfterCall |
| components/ProductModal.tsx:48-59 | The prefill reads `id`, `name`, `price`, but the product table hands over `IdProduct`, `NameProduct`, `Decription`. | any edited product, e.g. IdProduct "7", NameProduct "iPhone 16" | the edit form opens with the product's own id and name | not executed | ProductModal.EditPrefillIsBlankAsWritten | ProductModal.EditPrefillKeepsProduct |

=== FILE: admin_orders.dfy ===
/** The admin order table (`app/admin/orders/page.tsx`): status updates and
    deletions applied to the local list once the API call succeeds, the
    search filter, and the status badge. Orders stay dynamic values, as the
    page keeps them. */
module AdminOrders {
  import opened Optional
  import opened Text
  import opened Lists
  import opened Js
  import opened Api
  import opened Toast

  /** An API call the page makes. */
  datatype Call = UpdateStatus(id: Value, status: int) | DeleteOrder(id: Value)

  /** The list after a handler ran, the call it made and the toast it showed. */
  datatype Handled = Handled(orders: seq<Value>, call: Option<Call>, notice: Option<Notice>)

  const StatusUpdated: string := "\U{110}\U{E3} c\U{1EAD}p nh\U{1EAD}t tr\U{1EA1}ng th\U{E1}i \U{111}\U{1A1}n h\U{E0}ng"
  const StatusUpdateFailed: string := "Kh\U{F4}ng th\U{1EC3} c\U{1EAD}p nh\U{1EAD}t tr\U{1EA1}ng th\U{E1}i"
  const OrderDeleted: string := "\U{110}\U{E3} x\U{F3}a \U{111}\U{1A1}n h\U{E0}ng"
  const DeleteFailed: string := "Kh\U{F4}ng th\U{1EC3} x\U{F3}a \U{111}\U{1A1}n h\U{E0}ng"

  /** The order with the new status when its id is `id`, else unchanged. */
  function SetStatusIfMatch(o: Value, id: Value, status: int): (r: Value)
    ensures StrictEq(Get(o, "id"), id) ==> Get(r, "status") == Num(status)
    ensures StrictEq(Get(o, "id"), id) ==> forall k :: k != "status" ==> Get(r, k) == Get(o, k)
    ensures !StrictEq(Get(o, "id"), id) ==> r == o
  {
    if StrictEq(Get(o, "id"), id) then With(o, "status", Num(status)) else o
  }

  /** `orders.map(o => o.id === id ? { ...o, status } : o)`. */
  function ApplyStatus(orders: seq<Value>, id: Value, status: int): (r: seq<Value>)
    ensures |r| == |orders|
    ensures forall i :: 0 <= i < |orders| && !StrictEq(Get(orders[i], "id"), id) ==> r[i] == orders[i]
    ensures forall i :: 0 <= i < |orders| && StrictEq(Get(orders[i], "id"), id) ==>
      Get(r[i], "status") == Num(status) && Get(r[i], "id") == Get(orders[i], "id")
  {
    Map(orders, (o: Value) => SetStatusIfMatch(o, id, status))
  }

  /** `handleUpdateStatus`: the list changes only after the call succeeds. */
  function HandleUpdateStatus(orders: seq<Value>, id: Value, status: int, outcome: Outcome): (h: Handled)
    ensures h.call == Some(UpdateStatus(id, status))
    ensures outcome.Returns? ==> h.orders == ApplyStatus(orders, id, status) && h.notice == Some(Success(StatusUpdated))
    ensures outcome.Throws? ==>
      h.orders == orders && h.notice == Some(Failure(ErrorText(outcome.message, StatusUpdateFailed)))
  {
    match outcome
    case Returns(_) => Handled(ApplyStatus(orders, id, status), Some(UpdateStatus(id, status)), Some(Success(StatusUpdated)))
    case Throws(m) => Handled(orders, Some(UpdateStatus(id, status)), Some(Failure(ErrorText(m, StatusUpdateFailed))))
  }

  /** Setting the same status twice is the same as setting it once. */
  lemma {:induction false} ApplyStatusIdempotent(orders: seq<Value>, id: Value, status: int)
    ensures ApplyStatus(ApplyStatus(orders, id, status), id, status) == ApplyStatus(orders, id, status)
  {
    var once := ApplyStatus(orders, id, status);
    var twice := ApplyStatus(once, id, status);
    forall i | 0 <= i < |orders|
      ensures twice[i] == once[i]
    {
      if StrictEq(Get(orders[i], "id"), id) {
        assert Get(once[i], "id") == Get(orders[i], "id");
        assert once[i] == With(orders[i], "status", Num(status));
        assert once[i].Obj?;
        assert twice[i] == With(once[i], "status", Num(status));
        assert once[i].fields[ "status" := Num(status)] == once[i].fields;
      }
    }
  }

  /** Whether an order survives deleting `id`. */
  predicate Keeps(o: Value, id: Value) {
    !StrictEq(Get(o, "id"), id)
  }

  /** `o => o.id !== id`. */
  function KeepTest(id: Value): Value -> bool {
    (o: Value) => Keeps(o, id)
  }

  /** `handleDelete`: nothing without confirmation; the order leaves the
      list only after the call succeeds. */
  function HandleDelete(orders: seq<Value>, id: Value, confirmed: bool, outcome: Outcome): (h: Handled)
    ensures !confirmed ==> h == Handled(orders, None, None)
    ensures confirmed ==> h.call == Some(DeleteOrder(id))
    ensures confirmed && outcome.Returns? ==>
      h.orders == Filter(orders, KeepTest(id)) && h.notice == Some(Success(OrderDeleted))
    ensures confirmed && outcome.Throws? ==> h.orders == orders && h.notice == Some(Failure(DeleteFailed))
  {
    if !confirmed then Handled(orders, None, None)
    else match outcome
      case Returns(_) => Handled(Filter(orders, KeepTest(id)), Some(DeleteOrder(id)), Some(Success(OrderDeleted)))
      case Throws(_) => Handled(orders, Some(DeleteOrder(id)), Some(Failure(DeleteFailed)))
  }

  /** After a successful delete no order with that id is left, every other
      order is still there, and the list never grows. */
  lemma DeleteRemovesExactlyMatching(orders: seq<Value>, id: Value, outcome: Outcome)
    requires outcome.Returns?
    ensures var r := HandleDelete(orders, id, true, outcome).orders;
      && |r| <= |orders|
      && (forall i :: 0 <= i < |r| ==> !StrictEq(Get(r[i], "id"), id))
      && (forall i :: 0 <= i < |orders| && !StrictEq(Get(orders[i], "id"), id) ==> orders[i] in r)
  {
    var r := HandleDelete(orders, id, true, outcome).orders;
    assert r == Filter(orders, KeepTest(id));
  }

  /** Deleting the one order with an id leaves the orders before and after
      it, in their order. */
  lemma DeleteKeepsOthersInOrder(before: seq<Value>, o: Value, after: seq<Value>, outcome: Outcome)
    requires outcome.Returns? && !Get(o, "id").Arr? && !Get(o, "id").Obj?
    requires forall i :: 0 <= i < |before| ==> Get(before[i], "id") != Get(o, "id")
    requires forall i :: 0 <= i < |after| ==> Get(after[i], "id") != Get(o, "id")
    ensures HandleDelete(before + [o] + after, Get(o, "id"), true, outcome).orders == before + after
  {
    var keep := KeepTest(Get(o, "id"));
    assert forall i :: 0 <= i < |before| ==> keep(before[i]);
    assert forall i :: 0 <= i < |after| ==> keep(after[i]);
    FilterDropsOne(before, o, after, keep);
  }

  /** The search filter: the id's string form, or a string recipient name,
      contains the term, ignoring case. */
  predicate MatchesSearch(o: Value, term: string) {
    var id := Get(o, "id");
    var name := Get(o, "recipient_name");
    (Present(id) && Contains(Lower(ToStr(id)), Lower(term)))
    || (name.Str? && Contains(Lower(name.s), Lower(term)))
  }

  /** `filteredOrders`. */
  function FilterOrders(orders: seq<Value>, term: string): (r: seq<Value>)
    ensures forall i :: 0 <= i < |r| ==> MatchesSearch(r[i], term) && r[i] in orders
    ensures forall i :: 0 <= i < |orders| && MatchesSearch(orders[i], term) ==> orders[i] in r
  {
    Filter(orders, (o: Value) => MatchesSearch(o, term))
  }

  /** An empty search keeps every order that has an id or a recipient name. */
  lemma EmptySearchKeepsNamedOrders(orders: seq<Value>)
    requires forall i :: 0 <= i < |orders| ==> Present(Get(orders[i], "id")) || Get(orders[i], "recipient_name").Str?
    ensures FilterOrders(orders, "") == orders
  {
    forall i | 0 <= i < |orders|
      ensures MatchesSearch(orders[i], "")
    {
      ContainsEmpty(Lower(ToStr(Get(orders[i], "id"))));
      if Get(orders[i], "recipient_name").Str? {
        ContainsEmpty(Lower(Get(orders[i], "recipient_name").s));
      }
    }
    FilterAll(orders, (o: Value) => MatchesSearch(o, ""));
  }

  /** A status badge. */
  datatype Badge = Badge(caption: string, className: string)

  /** `getStatusInfo`: `switch` compares strictly, so only the numbers 0 to 4
      have their own badge; everything else, the string `'3'` included,
      shows "Chờ xác nhận". */
  function StatusBadge(status: Value): (b: Badge)
    ensures status.Num? && 0 <= status.n < 5 ==> b.caption != "Ch\U{1EDD} x\U{E1}c nh\U{1EAD}n"
    ensures !(status.Num? && 0 <= status.n < 5) ==> b == Badge("Ch\U{1EDD} x\U{E1}c nh\U{1EAD}n", "bg-secondary text-muted-foreground")
  {
    match status
    case Num(0) => Badge("\U{110}ang x\U{1EED} l\U{FD}", "bg-yellow-500/10 text-yellow-500")
    case Num(1) => Badge("\U{110}ang giao", "bg-blue-500/10 text-blue-500")
    case Num(2) => Badge("\U{110}\U{E3} giao", "bg-purple-500/10 text-purple-500")
    case Num(3) => Badge("Ho\U{E0}n th\U{E0}nh", "bg-green-500/10 text-green-500")
    case Num(4) => Badge("\U{110}\U{E3} h\U{1EE7}y", "bg-red-500/10 text-red-500")
    case _ => Badge("Ch\U{1EDD} x\U{E1}c nh\U{1EAD}n", "bg-secondary text-muted-foreground")
  }

  /** The status codes the dropdown offers. */
  const DropdownStatuses: seq<int> := [0, 1, 2, 3, 4]

  /** Every status the dropdown can set has its own badge, and the five
      badges are different, so after a successful update the badge shows
      exactly the chosen status. */
  lemma DropdownStatusesHaveBadges()
    ensures forall i :: 0 <= i < |DropdownStatuses| ==>
      StatusBadge(Num(DropdownStatuses[i])).caption != StatusBadge(Undefined).caption
    ensures forall i, j :: 0 <= i < j < |DropdownStatuses| ==>
      StatusBadge(Num(DropdownStatuses[i])).caption != StatusBadge(Num(DropdownStatuses[j])).caption
  {
  }

  /** After a successful update the updated orders show the badge of the
      status that was chosen. */
  lemma UpdatedOrderShowsChosenBadge(orders: seq<Value>, id: Value, status: int, outcome: Outcome, i: nat)
    requires outcome.Returns? && i < |orders| && StrictEq(Get(orders[i], "id"), id)
    ensures StatusBadge(Get(HandleUpdateStatus(orders, id, status, outcome).orders[i], "status")) == StatusBadge(Num(status))
  {
  }
}

=== FILE: admin_products.dfy ===
/** The admin product table (`app/admin/products/page.tsx`): how a fetched
    payload becomes the table's products, the stock badge, the form handed
    to the edit modal, deletion and the name search. */
module AdminProducts {
  import opened Optional
  import opened Text
  import opened Lists
  import opened Js
  import opened Api
  import opened Toast

  /** A variant as the table keeps it. */
  datatype Variant = Variant(idVar: Value, color: Value, price: Value, stock: Value, imgPath: Value)

  /** A product row. `variants` is optional in the page's type; products
      built from a payload always have them. */
  datatype Product = Product(
    id: string,
    category: Value,
    name: Value,
    description: Value,
    price: Numeric,
    stock: Numeric,
    image: Value,
    variants: Option<seq<Variant>>)

  /** What the edit modal receives. */
  datatype ProductForm = ProductForm(id: string, category: Value, name: Value, description: Value, variants: seq<Variant>)

  /** The table after loading: the products, or the error banner. */
  datatype Loaded = Products(products: seq<Product>) | LoadError(message: string)

  const LoadFailed: string := "Kh\U{F4}ng th\U{1EC3} t\U{1EA3}i danh s\U{E1}ch s\U{1EA3}n ph\U{1EA9}m"
  const ProductDeleted: string := "\U{110}\U{E3} x\U{F3}a s\U{1EA3}n ph\U{1EA9}m"
  const DeleteFailed: string := "X\U{F3}a s\U{1EA3}n ph\U{1EA9}m th\U{1EA5}t b\U{1EA1}i"

  /** `p.IdProduct?.toString() || p.id?.toString() || ''`. A numeric id 0
      still gives `"0"`, which is truthy. */
  function ProductId(p: Value): (r: string)
    ensures Present(Get(p, "IdProduct")) && ToStr(Get(p, "IdProduct")) != "" ==> r == ToStr(Get(p, "IdProduct"))
    ensures !(Present(Get(p, "IdProduct")) && ToStr(Get(p, "IdProduct")) != "") ==>
      r == (if Present(Get(p, "id")) then ToStr(Get(p, "id")) else "")
  {
    var vs := [ToStringOpt(Get(p, "IdProduct")), ToStringOpt(Get(p, "id"))];
    assert vs[0] == ToStringOpt(Get(p, "IdProduct")) && vs[1] == ToStringOpt(Get(p, "id"));
    var c := Coalesce(vs, Str(""));
    if c.Str? then c.s else assert false; ""
  }

  /** `variants[0] || {}`. */
  function FirstVariant(vs: seq<Value>): (r: Value)
    ensures |vs| > 0 && Truthy(vs[0]) ==> r == vs[0]
    ensures !(|vs| > 0 && Truthy(vs[0])) ==> forall k :: Get(r, k) == Undefined
  {
    if |vs| > 0 && Truthy(vs[0]) then vs[0] else Obj(map[])
  }

  /** `Number(v.Stock || v.stock || 0)`. */
  function VariantStock(v: Value): (r: Numeric)
    ensures !Truthy(Get(v, "Stock")) && !Truthy(Get(v, "stock")) ==> r == Finite(0)
    ensures Truthy(Get(v, "Stock")) ==> r == ToNumber(Get(v, "Stock"))
  {
    var vs := [Get(v, "Stock"), Get(v, "stock")];
    assert vs[0] == Get(v, "Stock") && vs[1] == Get(v, "stock");
    ToNumber(Coalesce(vs, Num(0)))
  }

  /** The variant's stock is not a number. */
  predicate StockNaN(v: Value) {
    VariantStock(v).NaN?
  }

  /** `variants.reduce((t, v) => t + Number(v.Stock || v.stock || 0), 0)`. */
  function StockTotal(vs: seq<Value>): Numeric
    decreases |vs|
  {
    if |vs| == 0 then Finite(0)
    else Add(StockTotal(vs[..|vs| - 1]), VariantStock(vs[|vs| - 1]))
  }

  /** One variant whose stock is not a number makes the whole sum NaN, and
      only then is the sum NaN. */
  lemma {:induction false} StockTotalNaNIff(vs: seq<Value>)
    ensures StockTotal(vs).NaN? <==> Any(vs, StockNaN)
    decreases |vs|
  {
    if |vs| > 0 {
      StockTotalNaNIff(vs[..|vs| - 1]);
      AnySnoc(vs, StockNaN);
    }
  }

  /** Variants with no stock field, or a falsy one, count as 0. */
  lemma {:induction false} MissingStockCountsZero(vs: seq<Value>)
    requires forall i :: 0 <= i < |vs| ==> !Truthy(Get(vs[i], "Stock")) && !Truthy(Get(vs[i], "stock"))
    ensures StockTotal(vs) == Finite(0)
    decreases |vs|
  {
    if |vs| > 0 {
      MissingStockCountsZero(vs[..|vs| - 1]);
    }
  }

  /** The table's copy of one variant, with its defaults. */
  function MapVariant(v: Value): (r: Variant)
    ensures r.idVar == Get(v, "IdProductVar")
    ensures Truthy(Get(v, "Color")) ==> r.color == Get(v, "Color")
    ensures !Truthy(Get(v, "Color")) ==> r.color == Str("")
    ensures Truthy(Get(v, "Price")) ==> r.price == Get(v, "Price")
    ensures !Truthy(Get(v, "Price")) ==> r.price == Num(0)
    ensures Truthy(Get(v, "Stock")) ==> r.stock == Get(v, "Stock")
    ensures !Truthy(Get(v, "Stock")) ==> r.stock == Num(0)
    ensures Truthy(Get(v, "ImgPath")) ==> r.imgPath == Get(v, "ImgPath")
    ensures !Truthy(Get(v, "ImgPath")) ==> r.imgPath == Str("")
  {
    Variant(
      Get(v, "IdProductVar"),
      Or(Get(v, "Color"), Str("")),
      Or(Get(v, "Price"), Num(0)),
      Or(Get(v, "Stock"), Num(0)),
      Or(Get(v, "ImgPath"), Str("")))
  }

  /** `p.product_variants || p.variants || []`. */
  function RawVariants(p: Value): (r: Value)
    ensures Truthy(Get(p, "product_variants")) ==> r == Get(p, "product_variants")
    ensures !Truthy(Get(p, "product_variants")) && Truthy(Get(p, "variants")) ==> r == Get(p, "variants")
    ensures !Truthy(Get(p, "product_variants")) && !Truthy(Get(p, "variants")) ==> r == Arr([])
  {
    var vs := [Get(p, "product_variants"), Get(p, "variants")];
    assert vs[0] == Get(p, "product_variants") && vs[1] == Get(p, "variants");
    Coalesce(vs, Arr([]))
  }

  /** The image: `first.ImgPath || first.image || p.ImageProduct || p.image || ''`. */
  function ImageOf(p: Value, first: Value): (r: Value)
    ensures Truthy(r) || r == Str("")
    ensures Truthy(Get(first, "ImgPath")) ==> r == Get(first, "ImgPath")
    ensures !Truthy(Get(first, "ImgPath")) && Truthy(Get(first, "image")) ==> r == Get(first, "image")
    ensures !Truthy(Get(first, "ImgPath")) && !Truthy(Get(first, "image")) && Truthy(Get(p, "ImageProduct")) ==>
      r == Get(p, "ImageProduct")
    ensures !Truthy(Get(first, "ImgPath")) && !Truthy(Get(first, "image")) && !Truthy(Get(p, "ImageProduct")) ==>
      r == Or(Get(p, "image"), Str(""))
  {
    var vs := [Get(first, "ImgPath"), Get(first, "image"), Get(p, "ImageProduct"), Get(p, "image")];
    assert vs[0] == Get(first, "ImgPath") && vs[1] == Get(first, "image");
    assert vs[2] == Get(p, "ImageProduct") && vs[3] == Get(p, "image");
    Coalesce(vs, Str(""))
  }

  /** Whether a fetched product can be mapped. Reading a field of a null
      product or of a null variant throws, and so does `reduce` on variants
      that are not an array; the whole load then fails. */
  predicate Mappable(p: Value) {
    Present(p) && RawVariants(p).Arr? && forall i :: 0 <= i < |RawVariants(p).elems| ==> Present(RawVariants(p).elems[i])
  }

  /** The row built from one fetched product, None when mapping it throws. */
  function MapProduct(p: Value): (r: Option<Product>)
    ensures r.Some? <==> Mappable(p)
    ensures r.Some? ==> r.value.id == ProductId(p)
    ensures r.Some? ==> r.value.category == Or(Get(p, "IdCategory"), Str("01"))
    ensures r.Some? ==> r.value.name == Coalesce([Get(p, "NameProduct"), Get(p, "name")], Str(""))
    ensures r.Some? ==> r.value.description == Or(Get(p, "Decription"), Str(""))
    ensures r.Some? ==> r.value.price == ToNumber(Coalesce(
      [Get(FirstVariant(RawVariants(p).elems), "Price"), Get(FirstVariant(RawVariants(p).elems), "price")], Num(0)))
    ensures r.Some? ==> r.value.stock == StockTotal(RawVariants(p).elems)
    ensures r.Some? ==> r.value.image == ImageOf(p, FirstVariant(RawVariants(p).elems))
    ensures r.Some? ==> r.value.variants == Some(Map(RawVariants(p).elems, MapVariant))
  {
    if !Present(p) then None
    else
      var raw := RawVariants(p);
      if !Mappable(p) then None
      else
        var vs := raw.elems;
        var first := FirstVariant(vs);
        Some(Product(
          ProductId(p),
          Or(Get(p, "IdCategory"), Str("01")),
          Coalesce([Get(p, "NameProduct"), Get(p, "name")], Str("")),
          Or(Get(p, "Decription"), Str("")),
          ToNumber(Coalesce([Get(first, "Price"), Get(first, "price")], Num(0))),
          StockTotal(vs),
          ImageOf(p, first),
          Some(Map(vs, MapVariant))))
  }

  /** A product without variants is priced 0 and has no stock. */
  lemma NoVariantsMeansZero(p: Value)
    requires Present(p) && RawVariants(p) == Arr([])
    ensures MapProduct(p).Some?
    ensures MapProduct(p).value.price == Finite(0) && MapProduct(p).value.stock == Finite(0)
    ensures MapProduct(p).value.variants == Some([])
  {
    var first := FirstVariant([]);
    var vs := [Get(first, "Price"), Get(first, "price")];
    assert vs[0] == Undefined && vs[1] == Undefined;
  }

  /** Every product in the list, or None as soon as one of them fails. */
  function MapProducts(list: seq<Value>): (r: Option<seq<Product>>)
    ensures r.Some? <==> forall i :: 0 <= i < |list| ==> Mappable(list[i])
    ensures r.Some? ==> |r.value| == |list|
    ensures r.Some? ==> forall i :: 0 <= i < |list| ==> Some(r.value[i]) == MapProduct(list[i])
  {
    var mapped := Map(list, MapProduct);
    assert forall i :: 0 <= i < |list| ==> (mapped[i].Some? <==> Mappable(list[i]));
    AllSome(mapped)
  }

  /** Every mapped row carries its variants. */
  lemma MappedRowsHaveVariants(list: seq<Value>)
    requires MapProducts(list).Some?
    ensures forall i :: 0 <= i < |list| ==> MapProducts(list).value[i].variants.Some?
  {
    var ps := MapProducts(list).value;
    forall i | 0 <= i < |list|
      ensures ps[i].variants.Some?
    {
      assert Some(ps[i]) == MapProduct(list[i]);
    }
  }

  /** The fetched list as `fetchProducts` reads it: the payload an array
      or `{ data }` with an array in it, and every product in it mappable. */
  predicate LoadsRows(outcome: Outcome) {
    outcome.Returns? && ListPayload(outcome.data).Some? && ListPayload(outcome.data).value.Arr?
    && MapProducts(ListPayload(outcome.data).value.elems).Some?
  }

  /** `fetchProducts`: the API call's outcome, then the payload accepted as
      an array or as `{ data }`. A thrown call, a null payload, a list that
      is not an array (`map` throws) or a product that cannot be mapped all
      land in the `catch`. */
  function FetchProducts(outcome: Outcome): (r: Loaded)
    ensures outcome.Throws? ==> r == LoadError(LoadFailed)
    ensures outcome.Returns? && outcome.data.Arr? ==>
      (r.Products? <==> MapProducts(outcome.data.elems).Some?)
    ensures r.Products? <==> LoadsRows(outcome)
    ensures r.Products? ==> r.products == MapProducts(ListPayload(outcome.data).value.elems).value
    ensures !r.Products? ==> r == LoadError(LoadFailed)
    ensures r.Products? ==> forall i :: 0 <= i < |r.products| ==> r.products[i].variants.Some?
  {
    match outcome
    case Throws(_) => LoadError(LoadFailed)
    case Returns(data) =>
      match ListPayload(data)
      case Some(Arr(list)) =>
        (match MapProducts(list)
         case Some(ps) =>
           MappedRowsHaveVariants(list);
           Products(ps)
         case None => LoadError(LoadFailed))
      case _ => LoadError(LoadFailed)
  }

  /** A `{ data }` payload loads exactly the rows its array would load on
      its own, and a `{ data }` payload without a truthy `data` loads no
      rows at all. */
  lemma DataPayloadLoadsLikeArray(fields: map<string, Value>, list: seq<Value>)
    ensures "data" in fields && fields["data"] == Arr(list) ==>
      FetchProducts(Returns(Obj(fields))) == FetchProducts(Returns(Arr(list)))
    ensures !Truthy(Get(Obj(fields), "data")) ==> FetchProducts(Returns(Obj(fields))) == Products([])
  {
    assert MapProducts([]) == Some([]);
  }

  /** A stock badge. */
  datatype Badge = Badge(caption: string, className: string)

  /** `getStockBadge`: a NaN stock compares false both times and shows
      "Hết hàng". */
  function StockBadge(stock: Numeric): (b: Badge)
    ensures b.caption == "C\U{F2}n h\U{E0}ng" <==> stock.Finite? && stock.n > 10
    ensures b.caption == "S\U{1EAF}p h\U{1EBF}t" <==> stock.Finite? && 0 < stock.n <= 10
    ensures b.caption == "H\U{1EBF}t h\U{E0}ng" <==> stock.NaN? || stock.n <= 0
  {
    if stock.Finite? && stock.n > 10 then Badge("C\U{F2}n h\U{E0}ng", "bg-green-500/10 text-green-500")
    else if stock.Finite? && stock.n > 0 then Badge("S\U{1EAF}p h\U{1EBF}t", "bg-yellow-500/10 text-yellow-500")
    else Badge("H\U{1EBF}t h\U{E0}ng", "bg-red-500/10 text-red-500")
  }

  /** The variant the edit form starts from when a product has none. */
  const BlankVariant: Variant := Variant(Undefined, Str(""), Num(0), Num(0), Str(""))

  /** `handleEdit`: the variants are copied as they are; the single blank
      variant replaces them only when the product has no variant list at
      all, since an empty list is truthy. */
  function EditForm(product: Product): (f: ProductForm)
    ensures f.id == product.id && f.name == product.name
    ensures Truthy(product.category) ==> f.category == product.category
    ensures !Truthy(product.category) ==> f.category == Str("01")
    ensures Truthy(product.description) ==> f.description == product.description
    ensures !Truthy(product.description) ==> f.description == Str("")
    ensures product.variants.Some? ==> f.variants == product.variants.value
    ensures product.variants.None? ==> f.variants == [BlankVariant]
  {
    ProductForm(
      product.id,
      Or(product.category, Str("01")),
      product.name,
      Or(product.description, Str("")),
      match product.variants
      case Some(vs) => vs
      case None => [BlankVariant])
  }

  /** A loaded product is edited with exactly its own variants, even when
      it has none. */
  lemma LoadedProductsEditTheirOwnVariants(outcome: Outcome, i: nat)
    requires FetchProducts(outcome).Products? && i < |FetchProducts(outcome).products|
    ensures var p := FetchProducts(outcome).products[i];
      p.variants.Some? && EditForm(p).variants == p.variants.value
  {
  }

  /** The list after `handleDelete`, the id it asked the API to delete, and
      the toast it showed. */
  datatype Handled = Handled(products: seq<Product>, call: Option<string>, notice: Option<Notice>)

  /** Whether a product survives deleting `id`. */
  predicate Keeps(p: Product, id: string) {
    p.id != id
  }

  /** `p => p.IdProduct !== id`. */
  function KeepTest(id: string): Product -> bool {
    (p: Product) => Keeps(p, id)
  }

  /** `handleDelete`: nothing without confirmation; the products with that
      id leave the list only after the call succeeds. */
  function HandleDelete(products: seq<Product>, id: string, confirmed: bool, outcome: Outcome): (h: Handled)
    ensures !confirmed ==> h == Handled(products, None, None)
    ensures confirmed ==> h.call == Some(id)
    ensures confirmed && outcome.Returns? ==>
      h.products == Filter(products, KeepTest(id)) && h.notice == Some(Success(ProductDeleted))
    ensures confirmed && outcome.Throws? ==> h.products == products && h.notice == Some(Failure(DeleteFailed))
  {
    if !confirmed then Handled(products, None, None)
    else match outcome
      case Returns(_) => Handled(Filter(products, KeepTest(id)), Some(id), Some(Success(ProductDeleted)))
      case Throws(_) => Handled(products, Some(id), Some(Failure(DeleteFailed)))
  }

  /** Deleting the one product with an id leaves the products before and
      after it, in their order. */
  lemma DeleteKeepsOthersInOrder(before: seq<Product>, p: Product, after: seq<Product>, outcome: Outcome)
    requires outcome.Returns?
    requires forall i :: 0 <= i < |before| ==> before[i].id != p.id
    requires forall i :: 0 <= i < |after| ==> after[i].id != p.id
    ensures HandleDelete(before + [p] + after, p.id, true, outcome).products == before + after
  {
    var keep := KeepTest(p.id);
    assert forall i :: 0 <= i < |before| ==> keep(before[i]);
    assert forall i :: 0 <= i < |after| ==> keep(after[i]);
    FilterDropsOne(before, p, after, keep);
  }

  /** The search filter: the lower-cased name contains the lower-cased
      term. */
  predicate MatchesSearch(p: Product, term: string) {
    p.name.Str? && Contains(Lower(p.name.s), Lower(term))
  }

  /** Every product's name is a string, so `NameProduct.toLowerCase()`
      can be called on it. */
  predicate NamesAreStrings(products: seq<Product>) {
    forall i :: 0 <= i < |products| ==> products[i].name.Str?
  }

  /** `filteredProducts`: `None` when the filter throws, which it does as
      soon as it reaches a product whose name is not a string (there is no
      `toLowerCase` to call on it); otherwise the matching products. */
  function FilterProducts(products: seq<Product>, term: string): (r: Option<seq<Product>>)
    ensures r.None? <==> exists i :: 0 <= i < |products| && !products[i].name.Str?
    ensures r.Some? ==> forall i :: 0 <= i < |r.value| ==> MatchesSearch(r.value[i], term) && r.value[i] in products
    ensures r.Some? ==> forall i :: 0 <= i < |products| && MatchesSearch(products[i], term) ==> products[i] in r.value
  {
    if NamesAreStrings(products) then Some(Filter(products, (p: Product) => MatchesSearch(p, term))) else None
  }

  /** An empty search keeps every product, in order, unless a name that is
      not a string makes the filter throw. */
  lemma EmptySearchKeepsAll(products: seq<Product>)
    ensures NamesAreStrings(products) ==> FilterProducts(products, "") == Some(products)
    ensures !NamesAreStrings(products) ==> FilterProducts(products, "") == None
  {
    if NamesAreStrings(products) {
      forall i | 0 <= i < |products|
        ensures MatchesSearch(products[i], "")
      {
        ContainsEmpty(Lower(products[i].name.s));
      }
      FilterAll(products, (p: Product) => MatchesSearch(p, ""));
    }
  }
}

=== FILE: admin_users.dfy ===
/** The admin user table (`app/admin/users/page.tsx`): role changes applied
    to the local list once the API call succeeds, the search filter, and
    how a role is shown and offered. Users stay dynamic values. */
module AdminUsers {
  import opened Optional
  import opened Text
  import opened Lists
  import opened Js
  import opened Api
  import opened Toast

  /** The role code of administrators. */
  const AdminRole: string := "01"

  /** The role code of ordinary users. */
  const UserRole: string := "02"

  const RoleUpdated: string := "\U{110}\U{E3} c\U{1EAD}p nh\U{1EAD}t vai tr\U{F2}"
  const RoleUpdateFailed: string := "Kh\U{F4}ng th\U{1EC3} c\U{1EAD}p nh\U{1EAD}t vai tr\U{F2}"

  /** The list after `handleChangeRole`, the role update it requested (user
      id and role), and the toast it showed. */
  datatype Handled = Handled(users: seq<Value>, call: Option<(Value, string)>, notice: Option<Notice>)

  /** The user with the new role when their id matches, else unchanged. */
  function SetRoleIfMatch(u: Value, id: Value, role: string): (r: Value)
    ensures StrictEq(Get(u, "IdUser"), id) ==> Get(r, "Role") == Str(role)
    ensures StrictEq(Get(u, "IdUser"), id) ==> forall k :: k != "Role" ==> Get(r, k) == Get(u, k)
    ensures !StrictEq(Get(u, "IdUser"), id) ==> r == u
  {
    if StrictEq(Get(u, "IdUser"), id) then With(u, "Role", Str(role)) else u
  }

  /** `prev.map(u => u.IdUser === user.IdUser ? { ...u, Role: newRole } : u)`. */
  function ApplyRole(users: seq<Value>, id: Value, role: string): (r: seq<Value>)
    ensures |r| == |users|
    ensures forall i :: 0 <= i < |users| && !StrictEq(Get(users[i], "IdUser"), id) ==> r[i] == users[i]
    ensures forall i :: 0 <= i < |users| && StrictEq(Get(users[i], "IdUser"), id) ==>
      Get(r[i], "Role") == Str(role) && Get(r[i], "IdUser") == Get(users[i], "IdUser")
  {
    Map(users, (u: Value) => SetRoleIfMatch(u, id, role))
  }

  /** `handleChangeRole`: asking for the role the user already has does
      nothing at all; otherwise the list changes only once the call succeeds. */
  function HandleChangeRole(users: seq<Value>, user: Value, role: string, outcome: Outcome): (h: Handled)
    ensures StrictEq(Get(user, "Role"), Str(role)) ==> h == Handled(users, None, None)
    ensures !StrictEq(Get(user, "Role"), Str(role)) ==> h.call == Some((Get(user, "IdUser"), role))
    ensures !StrictEq(Get(user, "Role"), Str(role)) && outcome.Returns? ==>
      h.users == ApplyRole(users, Get(user, "IdUser"), role) && h.notice == Some(Success(RoleUpdated))
    ensures !StrictEq(Get(user, "Role"), Str(role)) && outcome.Throws? ==>
      h.users == users && h.notice == Some(Failure(RoleUpdateFailed))
  {
    if StrictEq(Get(user, "Role"), Str(role)) then Handled(users, None, None)
    else
      var call := Some((Get(user, "IdUser"), role));
      match outcome
      case Returns(_) => Handled(ApplyRole(users, Get(user, "IdUser"), role), call, Some(Success(RoleUpdated)))
      case Throws(_) => Handled(users, call, Some(Failure(RoleUpdateFailed)))
  }

  /** After a successful change the user now has the new role, so asking
      for it again does nothing. */
  lemma ChangeRoleThenAgainIsNoOp(users: seq<Value>, i: nat, role: string, outcome: Outcome)
    requires i < |users| && outcome.Returns?
    requires !StrictEq(Get(users[i], "Role"), Str(role))
    requires !Get(users[i], "IdUser").Arr? && !Get(users[i], "IdUser").Obj?
    ensures var after := HandleChangeRole(users, users[i], role, outcome).users;
      |after| == |users| && HandleChangeRole(after, after[i], role, outcome) == Handled(after, None, None)
  {
  }

  /** The role as displayed: "Admin" for `'01'`, "User" for anything else. */
  function RoleLabel(user: Value): (r: string)
    ensures r == "Admin" <==> Get(user, "Role") == Str(AdminRole)
    ensures r == "Admin" || r == "User"
  {
    if StrictEq(Get(user, "Role"), Str(AdminRole)) then "Admin" else "User"
  }

  /** The menu offers a role only when the user does not already have it. */
  predicate MenuItemDisabled(user: Value, role: string) {
    StrictEq(Get(user, "Role"), Str(role))
  }

  /** Both menu items call `handleChangeRole`; the one for the current role
      is disabled, and clicking it anyway would do nothing. */
  lemma DisabledItemIsNoOp(users: seq<Value>, user: Value, role: string, outcome: Outcome)
    requires MenuItemDisabled(user, role)
    ensures HandleChangeRole(users, user, role, outcome) == Handled(users, None, None)
  {
  }

  /** A user shown as "Admin" can only be offered "User", and the other way
      round for a user whose role is `'02'`. */
  lemma MenuOffersTheOtherRole(user: Value)
    ensures RoleLabel(user) == "Admin" ==> MenuItemDisabled(user, AdminRole) && !MenuItemDisabled(user, UserRole)
    ensures Get(user, "Role") == Str(UserRole) ==> RoleLabel(user) == "User" && MenuItemDisabled(user, UserRole)
  {
  }

  /** The search filter: a string user name or e-mail contains the term,
      ignoring case. */
  predicate MatchesSearch(user: Value, term: string) {
    var name := Get(user, "UserName");
    var email := Get(user, "Email");
    (name.Str? && Contains(Lower(name.s), Lower(term)))
    || (email.Str? && Contains(Lower(email.s), Lower(term)))
  }

  /** `filteredUsers`. */
  function FilterUsers(users: seq<Value>, term: string): (r: seq<Value>)
    ensures forall i :: 0 <= i < |r| ==> MatchesSearch(r[i], term) && r[i] in users
    ensures forall i :: 0 <= i < |users| && MatchesSearch(users[i], term) ==> users[i] in r
  {
    Filter(users, (u: Value) => MatchesSearch(u, term))
  }

  /** The user list kept from the fetched payload:
      `Array.isArray(res) ? res : res.data || []`. */
  function FetchedUsers(payload: Value): (r: Option<Value>)
    ensures payload.Arr? ==> r == Some(payload)
    ensures r.None? <==> payload == Null || payload == Undefined
    ensures r.Some? && !payload.Arr? && Truthy(Get(payload, "data")) ==> r == Some(Get(payload, "data"))
    ensures r.Some? && !payload.Arr? && !Truthy(Get(payload, "data")) ==> r == Some(Arr([]))
  {
    ListPayload(payload)
  }
}

=== FILE: api.dfy ===
/** The HTTP client of `lib/api.ts`: how `apiFetch` builds a request (URL,
    headers, body) and how it turns the response into either the returned
    data or a thrown error; the URL query string that `paymentCallbackApi`
    builds and that pages read back with `URLSearchParams`; and the
    "array or `{ data }`" list payload the admin pages accept. */
module Api {
  import opened Optional
  import opened Text
  import opened Js

  /** The base URL used when `NEXT_PUBLIC_API_URL` is unset or empty. */
  const DefaultApiUrl: string := "http://127.0.0.1:8000/api"

  /** `API_URL`: the configured base when it is a non-empty string. */
  function ApiUrl(env: Option<string>): (r: string)
    ensures env.Some? && env.value != "" ==> r == env.value
    ensures env.None? || env.value == "" ==> r == DefaultApiUrl
  {
    if env.Some? && env.value != "" then env.value else DefaultApiUrl
  }

  /** The URL `apiFetch` requests: the base followed directly by the endpoint. */
  function RequestUrl(base: string, endpoint: string): (r: string)
    ensures |r| == |base| + |endpoint|
    ensures r[..|base|] == base && r[|base|..] == endpoint
  {
    base + endpoint
  }

  /** The request headers. A stored token (a non-empty string) adds
      `Authorization: Bearer <token>`; JSON requests also declare
      `application/json` as content type and accepted type, while form-data
      requests leave the content type to the browser. */
  function Headers(isFormData: bool, token: Option<string>): (h: map<string, string>)
    ensures "Authorization" in h <==> token.Some? && token.value != ""
    ensures "Authorization" in h ==> h["Authorization"] == "Bearer " + token.value
    ensures "Content-Type" in h <==> !isFormData
    ensures "Accept" in h <==> !isFormData
    ensures !isFormData ==> h["Content-Type"] == "application/json" && h["Accept"] == "application/json"
    ensures forall k :: k in h ==> k == "Authorization" || k == "Content-Type" || k == "Accept"
  {
    var auth: map<string, string> :=
      if token.Some? && token.value != "" then map["Authorization" := "Bearer " + token.value] else map[];
    if isFormData then auth
    else map["Content-Type" := "application/json", "Accept" := "application/json"] + auth
  }

  /** What travels as the request body. `Json(v)` is the text
      `JSON.stringify(v)`; the serialiser itself is not modelled. */
  datatype Body = NoBody | Raw(v: Value) | Json(v: Value)

  /** The body `apiFetch` sends for the caller's `options.body` (Undefined
      when the caller gave none): form data passes through untouched, any
      other truthy body is JSON-encoded, and a falsy one is dropped. */
  function SendBody(isFormData: bool, body: Value): (r: Body)
    ensures isFormData ==> r == Raw(body)
    ensures !isFormData ==> (r.Json? <==> Truthy(body))
    ensures r.Json? || r.Raw? ==> r.v == body
    ensures !r.Raw? ==> !isFormData
  {
    if isFormData then Raw(body)
    else if Truthy(body) then Json(body)
    else NoBody
  }

  /** The result of `res.json()`: the parsed document, or the parser's
      `SyntaxError` message. */
  datatype JsonBody = Parsed(doc: Value) | Malformed(error: string)

  /** What the server sent back. */
  datatype Response = Response(
    ok: bool,
    status: int,
    contentType: Option<string>,
    text: string,
    json: JsonBody)

  /** One exchange: either `fetch` rejected (network failure, with its
      error message) or a response arrived. */
  datatype Exchange = NoResponse(error: string) | Got(res: Response)

  /** How an `apiFetch` call settles. Every error is thrown as an `Error`,
      so callers only ever see its message. */
  datatype Outcome =
    | Returns(data: Value)
    | Throws(message: string)

  const RequestFailed: string := "Request th\U{1EA5}t b\U{1EA1}i"

  const JsonType: string := "application/json"

  /** The response is read as JSON when its content type mentions
      `application/json` anywhere (case-sensitive, as `includes` is), so a
      `charset` parameter after it does not matter. */
  function IsJson(res: Response): (r: bool)
    ensures r <==> res.contentType.Some? && exists i :: OccursAt(res.contentType.value, JsonType, i)
    ensures res.contentType.Some? && |res.contentType.value| < |JsonType| ==> !r
  {
    if res.contentType.Some? then
      ContainsIffOccurs(res.contentType.value, JsonType);
      Contains(res.contentType.value, JsonType)
    else false
  }

  /** The message thrown for a non-OK JSON response: `data?.message`, or the
      generic text when that is falsy. Unless the server sends an array
      (`[""]` prints as the empty string), the message is never empty, so a
      page's own fallback text is not shown for it. */
  function ServerMessage(doc: Value): (r: string)
    ensures Truthy(Get(doc, "message")) ==> r == ToStr(Get(doc, "message"))
    ensures !Truthy(Get(doc, "message")) ==> r == RequestFailed
    ensures !Get(doc, "message").Arr? ==> r != ""
  {
    ToStr(Or(Get(doc, "message"), Str(RequestFailed)))
  }

  /** The message thrown for a non-OK response that is not JSON. */
  function NotJsonMessage(status: int, text: string): (r: string)
    ensures Contains(r, IntToString(status)) && Contains(r, text)
  {
    var prefix := "API kh\U{F4}ng tr\U{1EA3} JSON. Status ";
    var code := IntToString(status);
    var middle := ". Response: ";
    ContainsBoth(prefix, code, middle, text);
    prefix + code + middle + text
  }

  /** `apiFetch` after the request is sent. */
  function Settle(x: Exchange): (r: Outcome)
    ensures x.NoResponse? ==> r == Throws(x.error)
    ensures x.Got? ==> (r.Returns? <==> x.res.ok && (IsJson(x.res) ==> x.res.json.Parsed?))
    ensures x.Got? && x.res.ok && IsJson(x.res) && x.res.json.Parsed? ==> r == Returns(x.res.json.doc)
    ensures x.Got? && x.res.ok && !IsJson(x.res) ==> r == Returns(Null)
    ensures x.Got? && !x.res.ok && IsJson(x.res) && x.res.json.Parsed? ==> r == Throws(ServerMessage(x.res.json.doc))
    ensures x.Got? && !x.res.ok && !IsJson(x.res) ==> r == Throws(NotJsonMessage(x.res.status, x.res.text))
    ensures x.Got? && IsJson(x.res) && x.res.json.Malformed? ==> r == Throws(x.res.json.error)
  {
    match x
    case NoResponse(e) => Throws(e)
    case Got(res) =>
      if IsJson(res) then
        match res.json
        case Malformed(e) => Throws(e)
        case Parsed(doc) => if res.ok then Returns(doc) else Throws(ServerMessage(doc))
      else if res.ok then Returns(Null)
      else Throws(NotJsonMessage(res.status, res.text))
  }

  /** A thrown error as the pages report it: `err.message || fallback`. */
  function ErrorText(message: string, fallback: string): (r: string)
    ensures message != "" ==> r == message
    ensures message == "" ==> r == fallback
  {
    if message != "" then message else fallback
  }

  /** `Array.isArray(data) ? data : data.data || []`, the list payload the
      admin pages accept. Reading `.data` of null or undefined throws (None). */
  function ListPayload(data: Value): (r: Option<Value>)
    ensures data.Arr? ==> r == Some(data)
    ensures r.None? <==> data == Null || data == Undefined
    ensures r.Some? && !data.Arr? ==> (Truthy(Get(data, "data")) ==> r.value == Get(data, "data"))
    ensures r.Some? && !data.Arr? ==> (!Truthy(Get(data, "data")) ==> r.value == Arr([]))
  {
    if data.Arr? then Some(data)
    else match Access(data, "data")
      case None => None
      case Some(d) => Some(Or(d, Arr([])))
  }

  // ---------------------------------------------------------------------
  // application/x-www-form-urlencoded, as URLSearchParams writes and reads it
  // ---------------------------------------------------------------------

  /** The characters the serialiser writes as themselves. */
  predicate Unreserved(c: char) {
    ('a' <= c <= 'z') || ('A' <= c <= 'Z') || ('0' <= c <= '9')
    || c == '*' || c == '-' || c == '.' || c == '_'
  }

  /** Upper-case hexadecimal digit of `n`. */
  function HexDigit(n: nat): (c: char)
    requires n < 16
    ensures ('0' <= c <= '9') || ('A' <= c <= 'F')
  {
    if n < 10 then ('0' as int + n) as char else ('A' as int + n - 10) as char
  }

  /** Value of a hexadecimal digit, either case. */
  function HexValue(c: char): Option<nat> {
    if '0' <= c <= '9' then Some(c as int - '0' as int)
    else if 'A' <= c <= 'F' then Some(c as int - 'A' as int + 10)
    else if 'a' <= c <= 'f' then Some(c as int - 'a' as int + 10)
    else None
  }

  lemma HexRoundTrip(n: nat)
    requires n < 16
    ensures HexValue(HexDigit(n)) == Some(n)
  {
  }

  /** One character encoded: unreserved characters as themselves, space as
      `+`, any other ASCII character (`&` and `=` among them) as `%XX`.
      Characters beyond ASCII are written as themselves rather than as the
      percent-escapes of their UTF-8 bytes. */
  function EncodeChar(c: char): (r: string)
    ensures '&' !in r && '=' !in r
    ensures |r| >= 1
  {
    if Unreserved(c) then [c]
    else if c == ' ' then "+"
    else if c as int < 128 then ['%', HexDigit(c as int / 16), HexDigit(c as int % 16)]
    else [c]
  }

  /** A whole string encoded. */
  function Encode(s: string): (r: string)
    ensures '&' !in r && '=' !in r
    decreases |s|
  {
    if |s| == 0 then "" else EncodeChar(s[0]) + Encode(s[1..])
  }

  /** The decoder: `+` is a space, `%XX` with two hex digits is that
      character, and everything else stands for itself. */
  function Decode(s: string): string
    decreases |s|
  {
    if |s| == 0 then ""
    else if s[0] == '+' then " " + Decode(s[1..])
    else if s[0] == '%' && |s| >= 3 && HexValue(s[1]).Some? && HexValue(s[2]).Some? then
      [(HexValue(s[1]).value * 16 + HexValue(s[2]).value) as char] + Decode(s[3..])
    else [s[0]] + Decode(s[1..])
  }

  /** Decoding an encoded character, then the rest. */
  lemma DecodeEncodeChar(c: char, rest: string)
    ensures Decode(EncodeChar(c) + rest) == [c] + Decode(rest)
  {
    var e := EncodeChar(c);
    if Unreserved(c) || c == ' ' {
      assert (e + rest)[1..] == rest;
    } else if c as int < 128 {
      HexRoundTrip(c as int / 16);
      HexRoundTrip(c as int % 16);
      assert (e + rest)[3..] == rest;
    } else {
      assert (e + rest)[1..] == rest;
    }
  }

  /** Decoding undoes encoding. */
  lemma {:induction false} DecodeEncode(s: string)
    ensures Decode(Encode(s)) == s
    decreases |s|
  {
    if |s| > 0 {
      DecodeEncodeChar(s[0], Encode(s[1..]));
      DecodeEncode(s[1..]);
      assert [s[0]] + s[1..] == s;
    }
  }

  /** `name=value`, both encoded. */
  function EncodePair(p: (string, string)): (r: string)
    ensures '&' !in r && '=' in r
  {
    var r := Encode(p.0) + "=" + Encode(p.1);
    assert r[|Encode(p.0)|] == '=';
    r
  }

  /** `new URLSearchParams(params).toString()` for the entries of `params`
      in insertion order: no entries give the empty string, and otherwise
      the string splits on `&` into exactly one encoded pair per entry. */
  function QueryString(params: seq<(string, string)>): (r: string)
    ensures params == [] <==> r == ""
    ensures params != [] ==> |Split(r, '&')| == |params|
    ensures params != [] ==> forall i :: 0 <= i < |params| ==> Split(r, '&')[i] == EncodePair(params[i])
  {
    var pieces := seq(|params|, i requires 0 <= i < |params| => EncodePair(params[i]));
    if params == [] then Join(pieces, "&")
    else
      assert "&" == ['&'];
      SplitJoin(pieces, '&');
      assert '=' in pieces[0];
      assert Split("", '&') == [""];
      Join(pieces, "&")
  }

  /** The part of `s` after the first `c`, or "" when there is none. */
  function AfterFirst(s: string, c: char): (r: string)
    ensures c in s ==> s == BeforeFirst(s, c) + [c] + r
  {
    match IndexOf(s, c)
    case None => ""
    case Some(i) =>
      assert s[..i] == BeforeFirst(s, c) by {
        var b := BeforeFirst(s, c);
        assert s[|b|] == c;
        assert |b| >= i;
        assert |b| <= i;
      }
      assert s == s[..i] + [c] + s[i + 1..];
      s[i + 1..]
  }

  /** One `name=value` piece read back; a piece without `=` has an empty value. */
  function ParsePiece(piece: string): (string, string) {
    (Decode(BeforeFirst(piece, '=')), Decode(AfterFirst(piece, '=')))
  }

  /** The pieces of a query read back, skipping empty ones. */
  function ParsePieces(pieces: seq<string>): (r: seq<(string, string)>)
    ensures |r| <= |pieces|
    ensures (forall i :: 0 <= i < |pieces| ==> pieces[i] != "") ==> |r| == |pieces|
    decreases |pieces|
  {
    if |pieces| == 0 then []
    else (if pieces[0] == "" then [] else [ParsePiece(pieces[0])]) + ParsePieces(pieces[1..])
  }

  /** `new URLSearchParams(query)` as a list of entries: one per non-empty
      `&`-separated piece, so the empty query has none and a query without
      `&` has at most one. */
  function ParseQuery(query: string): (r: seq<(string, string)>)
    ensures |r| <= |Split(query, '&')|
    ensures query == "" ==> r == []
    ensures '&' !in query && query != "" ==> r == [ParsePiece(query)]
  {
    ParsePieces(Split(query, '&'))
  }

  /** A string with no `+` and no `%` decodes to itself. */
  lemma {:induction false} DecodePlain(s: string)
    requires '+' !in s && '%' !in s
    ensures Decode(s) == s
    decreases |s|
  {
    if |s| > 0 {
      DecodePlain(s[1..]);
      assert [s[0]] + s[1..] == s;
    }
  }

  /** A query holding one plain `name=value` pair, with no `&`, `=`, `+`
      or `%` in either part, reads back as that pair. */
  lemma ParsePlainPair(name: string, value: string)
    requires name != ""
    requires '&' !in name && '=' !in name && '+' !in name && '%' !in name
    requires '&' !in value && '+' !in value && '%' !in value
    ensures ParseQuery(name + "=" + value) == [(name, value)]
  {
    var q := name + "=" + value;
    assert '&' !in q by {
      assert forall i :: 0 <= i < |q| ==> q[i] == (if i < |name| then name[i] else if i == |name| then '=' else value[i - |name| - 1]);
    }
    assert Split(q, '&') == [q];
    IndexOfAfterFreePrefix(name, '=', value);
    assert q == name + ['='] + value;
    assert BeforeFirst(q, '=') == name;
    assert AfterFirst(q, '=') == value;
    DecodePlain(name);
    DecodePlain(value);
    assert ParsePiece(q) == (name, value);
    assert ParsePieces([q]) == [ParsePiece(q)] + ParsePieces([]);
  }

  /** `URLSearchParams.get(name)`: the value of the first entry with that name. */
  function QueryGet(entries: seq<(string, string)>, name: string): (r: Option<string>)
    ensures r.None? <==> forall i :: 0 <= i < |entries| ==> entries[i].0 != name
    ensures r.Some? ==> exists i :: 0 <= i < |entries| && entries[i] == (name, r.value)
                                   && forall j :: 0 <= j < i ==> entries[j].0 != name
    decreases |entries|
  {
    if |entries| == 0 then None
    else if entries[0].0 == name then Some(entries[0].1)
    else
      var rest := QueryGet(entries[1..], name);
      assert rest.Some? ==> exists i :: 1 <= i < |entries| && entries[i] == (name, rest.value)
                                       && forall j :: 0 <= j < i ==> entries[j].0 != name by {
        if rest.Some? {
          var k :| 0 <= k < |entries[1..]| && entries[1..][k] == (name, rest.value)
            && forall j :: 0 <= j < k ==> entries[1..][j].0 != name;
          assert entries[k + 1] == (name, rest.value);
          assert forall j :: 0 <= j < k + 1 ==> entries[j].0 != name by {
            forall j | 0 <= j < k + 1 ensures entries[j].0 != name {
              if j > 0 { assert entries[j] == entries[1..][j - 1]; }
            }
          }
        }
      }
      rest
  }

  /** The entry `get` returns is pinned by its position: an entry with the
      name that no earlier entry shares is the one read. */
  lemma {:induction false} QueryGetAt(entries: seq<(string, string)>, name: string, i: nat)
    requires i < |entries| && entries[i].0 == name
    requires forall j :: 0 <= j < i ==> entries[j].0 != name
    ensures QueryGet(entries, name) == Some(entries[i].1)
    decreases i
  {
    if i > 0 {
      assert entries[0].0 != name;
      assert forall j :: 0 <= j < i - 1 ==> entries[1..][j].0 != name by {
        forall j | 0 <= j < i - 1 ensures entries[1..][j].0 != name { assert entries[1..][j] == entries[j + 1]; }
      }
      QueryGetAt(entries[1..], name, i - 1);
    }
  }

  /** A single encoded pair reads back as itself. */
  lemma ParsePieceEncoded(p: (string, string))
    ensures ParsePiece(EncodePair(p)) == p
  {
    var k := Encode(p.0);
    var v := Encode(p.1);
    var piece := EncodePair(p);
    assert piece == k + ['='] + v;
    IndexOfAfterFreePrefix(k, '=', v);
    assert piece[..|k|] == k && piece[|k| + 1..] == v;
    assert Split(piece, '=')[0] == k;
    assert AfterFirst(piece, '=') == v;
    DecodeEncode(p.0);
    DecodeEncode(p.1);
  }

  /** A non-empty first piece reads back as the first entry. */
  lemma ParsePiecesCons(pieces: seq<string>)
    requires |pieces| > 0 && pieces[0] != ""
    ensures ParsePieces(pieces) == [ParsePiece(pieces[0])] + ParsePieces(pieces[1..])
  {
  }

  /** Pieces that are the encodings of the entries, one for one, read back
      as those entries. */
  lemma {:induction false} ParseEncodedPieces(params: seq<(string, string)>, pieces: seq<string>)
    requires |pieces| == |params|
    requires forall i :: 0 <= i < |params| ==> pieces[i] == EncodePair(params[i])
    ensures ParsePieces(pieces) == params
    decreases |params|
  {
    if |params| > 0 {
      assert pieces[0] == EncodePair(params[0]) && pieces[0] != "";
      ParsePieceEncoded(params[0]);
      assert forall i :: 0 <= i < |params| - 1 ==> pieces[1..][i] == EncodePair(params[1..][i]) by {
        forall i | 0 <= i < |params| - 1 ensures pieces[1..][i] == EncodePair(params[1..][i]) {
          assert pieces[1..][i] == pieces[i + 1] && params[1..][i] == params[i + 1];
        }
      }
      ParseEncodedPieces(params[1..], pieces[1..]);
      ParsePiecesCons(pieces);
      assert [params[0]] + params[1..] == params;
    }
  }

  /** Reading back encoded pieces gives the original entries. */
  lemma ParsePiecesEncoded(params: seq<(string, string)>)
    ensures ParsePieces(seq(|params|, i requires 0 <= i < |params| => EncodePair(params[i]))) == params
  {
    ParseEncodedPieces(params, seq(|params|, i requires 0 <= i < |params| => EncodePair(params[i])));
  }

  /** Reading a serialised query string gives back exactly its entries, in order. */
  lemma QueryRoundTrip(params: seq<(string, string)>)
    ensures ParseQuery(QueryString(params)) == params
  {
    var pieces := seq(|params|, i requires 0 <= i < |params| => EncodePair(params[i]));
    if |params| == 0 {
      assert pieces == [];
      assert QueryString(params) == "";
      assert Split("", '&') == [""];
    } else {
      SplitJoin(pieces, '&');
      ParsePiecesEncoded(params);
    }
  }

  /** The endpoint `paymentCallbackApi` requests. */
  function CallbackEndpoint(params: seq<(string, string)>): (r: string)
    ensures r == "/payment/callback?" + QueryString(params)
    ensures ParseQuery(r[|"/payment/callback?"|..]) == params
  {
    QueryRoundTrip(params);
    var r := "/payment/callback?" + QueryString(params);
    assert r[|"/payment/callback?"|..] == QueryString(params);
    r
  }

  // ---------------------------------------------------------------------
  // Request bodies that the exported wrappers build themselves
  // ---------------------------------------------------------------------

  /** The characters of `s` with `"` and `\` escaped, as in a JSON string.
      Control characters are not escaped, so this is `JSON.stringify`'s
      text only for strings without them, which is all the bodies here
      carry. */
  function JsonEscape(s: string): string
    decreases |s|
  {
    if |s| == 0 then ""
    else (if s[0] == '"' || s[0] == '\\' then ['\\', s[0]] else [s[0]]) + JsonEscape(s[1..])
  }

  /** `JSON.stringify` of a string or integer, the only values the role
      and status bodies carry. Any other value is written `null`, which
      differs from `JSON.stringify` for booleans (`true`) and for an
      undefined field (dropped). */
  function JsonScalar(v: Value): string {
    match v
    case Num(n) => IntToString(n)
    case Str(s) => "\"" + JsonEscape(s) + "\""
    case _ => "null"
  }

  /** `JSON.stringify({ [key]: v })`. */
  function JsonObjectText(key: string, v: Value): string {
    "{" + JsonScalar(Str(key)) + ":" + JsonScalar(v) + "}"
  }

  /** The body `updateUserRoleApi` hands to `apiFetch` as written: an
      object that is already stringified. */
  function RoleBodyAsWritten(role: string): (r: Value)
    ensures r.Str?
  {
    Str(JsonObjectText("Role", Str(role)))
  }

  /** As written, `apiFetch` stringifies the role body a second time, so
      the server receives a JSON string literal and the document it parses
      has no `Role` field. */
  lemma RoleBodyAsWrittenHasNoRole(role: string)
    ensures SendBody(false, RoleBodyAsWritten(role)).Json?
    ensures Get(SendBody(false, RoleBodyAsWritten(role)).v, "Role") == Undefined
  {
  }

  /** The role body as intended: the object itself, which `apiFetch`
      encodes once, so the server's document carries the new role. */
  function RoleBody(role: string): (r: Value)
    ensures SendBody(false, r) == Json(r)
    ensures Get(SendBody(false, r).v, "Role") == Str(role)
    ensures forall k :: k != "Role" ==> Get(r, k) == Undefined
  {
    Obj(map["Role" := Str(role)])
  }

  /** The body `updateOrderStatusApi` hands to `apiFetch` as written. */
  function StatusBodyAsWritten(status: Value): (r: Value)
    ensures r.Str?
  {
    Str(JsonObjectText("status", status))
  }

  /** As written, the order status body is stringified twice too, and the
      server's document has no `status` field. */
  lemma StatusBodyAsWrittenHasNoStatus(status: Value)
    ensures SendBody(false, StatusBodyAsWritten(status)).Json?
    ensures Get(SendBody(false, StatusBodyAsWritten(status)).v, "status") == Undefined
  {
  }

  /** The status body as intended: `{ status }`, encoded once. */
  function StatusBody(status: Value): (r: Value)
    ensures SendBody(false, r) == Json(r)
    ensures Get(SendBody(false, r).v, "status") == status
    ensures forall k :: k != "status" ==> Get(r, k) == Undefined
  {
    Obj(map["status" := status])
  }
}

=== FILE: auth.dfy ===
/** The sign-in page (`app/auth/page.tsx`): where a signed-in user is sent,
    the checks on registration, and the loading flag around submitting. The
    `login` and `register` calls of the auth context are oracles. */
module Auth {
  import opened Optional
  import opened Text
  import opened Js
  import opened Api
  import opened Toast
  import Cart
  import AdminUsers

  /** Where a user goes when the query names no page. */
  const DefaultFrom: string := "/iphone"

  const LoggedIn: string := "\U{110}\U{103}ng nh\U{1EAD}p th\U{E0}nh c\U{F4}ng!"
  const PasswordMismatch: string := "M\U{1EAD}t kh\U{1EA9}u x\U{E1}c nh\U{1EAD}n kh\U{F4}ng kh\U{1EDB}p"
  const PasswordTooShort: string := "M\U{1EAD}t kh\U{1EA9}u ph\U{1EA3}i c\U{F3} \U{ED}t nh\U{1EA5}t 6 k\U{FD} t\U{1EF1}"

  /** The shortest password registration accepts. */
  const MinPasswordLength: nat := 6

  /** `searchParams.get('from') || '/iphone'` for the page's query string. */
  function FromParam(query: string): (r: string)
    ensures r != ""
    ensures QueryGet(ParseQuery(query), "from").None? ==> r == DefaultFrom
    ensures QueryGet(ParseQuery(query), "from") == Some("") ==> r == DefaultFrom
    ensures QueryGet(ParseQuery(query), "from").Some? && QueryGet(ParseQuery(query), "from").value != "" ==>
      r == QueryGet(ParseQuery(query), "from").value
  {
    match QueryGet(ParseQuery(query), "from")
    case Some(v) => if v != "" then v else DefaultFrom
    case None => DefaultFrom
  }

  /** The query of `prefix?query`, for a prefix with no `?`. */
  lemma QueryOfRoute(prefix: string, query: string)
    requires '?' !in prefix
    ensures AfterFirst(prefix + ['?'] + query, '?') == query
  {
    IndexOfAfterFreePrefix(prefix, '?', query);
    var route := prefix + ['?'] + query;
    assert route[|prefix| + 1..] == query;
  }

  /** The query of the cart's sign-in route. */
  lemma CheckoutRouteQuery()
    ensures AfterFirst(Cart.CheckoutRoute(false), '?') == "from=/checkout"
  {
    assert Cart.CheckoutRoute(false) == "/auth" + ['?'] + "from=/checkout";
    QueryOfRoute("/auth", "from=/checkout");
  }

  /** That query names `/checkout` as `from`. */
  lemma CheckoutQueryFrom()
    ensures QueryGet(ParseQuery("from=/checkout"), "from") == Some("/checkout")
  {
    assert "from=/checkout" == "from" + "=" + "/checkout";
    ParsePlainPair("from", "/checkout");
  }

  /** A shopper sent to sign in from the cart comes back to checkout. */
  lemma CartSignInReturnsToCheckout()
    ensures FromParam(AfterFirst(Cart.CheckoutRoute(false), '?')) == "/checkout"
  {
    CheckoutRouteQuery();
    CheckoutQueryFrom();
  }

  /** `user.Role == '2' || user.Role === 2`. */
  predicate IsAdminRole(role: Value) {
    LooseEqString(role, "2") || StrictEq(role, Num(2))
  }

  /** The redirect effect: nothing until the user is signed in; then
      administrators go to the dashboard and everyone else to `from`. */
  function Redirect(isAuthenticated: bool, user: Value, from: string): (r: Option<string>)
    ensures r.Some? <==> isAuthenticated && Truthy(user)
    ensures r.Some? && IsAdminRole(Get(user, "Role")) ==> r.value == "/admin"
    ensures r.Some? && !IsAdminRole(Get(user, "Role")) ==> r.value == from
  {
    if isAuthenticated && Truthy(user) then
      Some(if IsAdminRole(Get(user, "Role")) then "/admin" else from)
    else None
  }

  /** The string `'2'` and the number 2 both count as the administrator
      role; the role codes of the user table, `'01'` and `'02'`, do not. */
  lemma AdminRoleCodes()
    ensures IsAdminRole(Str("2")) && IsAdminRole(Num(2))
    ensures !IsAdminRole(Str(AdminUsers.AdminRole)) && !IsAdminRole(Str(AdminUsers.UserRole))
    ensures !IsAdminRole(Undefined) && !IsAdminRole(Null)
  {
  }

  /** A user the user table lists as "Admin" (role `'01'`) is sent to `from`
      after signing in, not to the dashboard. */
  lemma TableAdminIsNotRedirectedToDashboard(user: Value, from: string)
    requires Truthy(user) && Get(user, "Role") == Str(AdminUsers.AdminRole)
    ensures AdminUsers.RoleLabel(user) == "Admin"
    ensures Redirect(true, user, from) == Some(from)
  {
  }

  /** The form. */
  datatype Form = Form(name: string, email: string, password: string, confirmPassword: string)

  /** How a `login` or `register` call of the auth context settles: it
      resolves to `{ error }` (undefined when all went well) or rejects. */
  datatype Reply = Resolved(error: Value) | Rejected(message: string)

  /** What `handleSubmit` does, in order. The effects of the registration
      calls themselves are summarised as one `CallRegister`. */
  datatype Event =
    | LoadingOn
    | CallLogin(email: string, password: string)
    | CallRegister(name: string, email: string, password: string)
    | Show(notice: Notice)
    | LoadingOff

  /** The registration checks, the mismatch first. */
  function RegisterRejection(f: Form): (r: Option<string>)
    ensures f.password != f.confirmPassword ==> r == Some(PasswordMismatch)
    ensures f.password == f.confirmPassword && |f.password| < MinPasswordLength ==> r == Some(PasswordTooShort)
    ensures r.None? <==> f.password == f.confirmPassword && |f.password| >= MinPasswordLength
  {
    if f.password != f.confirmPassword then Some(PasswordMismatch)
    else if |f.password| < MinPasswordLength then Some(PasswordTooShort)
    else None
  }

  /** `handleSubmit`; `login` is how the login call settles. A rejected
      login propagates after the loading flag is cleared. */
  function Submit(isLogin: bool, f: Form, login: Reply): (t: seq<Event>)
    ensures |t| >= 3 && t[0] == LoadingOn && t[|t| - 1] == LoadingOff
    ensures isLogin ==> t[1] == CallLogin(f.email, f.password)
    ensures isLogin && login.Resolved? && Truthy(login.error) ==> t[2..] == [Show(Failure(ToStr(login.error))), LoadingOff]
    ensures isLogin && login.Resolved? && !Truthy(login.error) ==> t[2..] == [Show(Success(LoggedIn)), LoadingOff]
    ensures isLogin && login.Rejected? ==> t == [LoadingOn, CallLogin(f.email, f.password), LoadingOff]
    ensures !isLogin && RegisterRejection(f).Some? ==> t == [LoadingOn, Show(Failure(RegisterRejection(f).value)), LoadingOff]
    ensures !isLogin && RegisterRejection(f).None? ==> t == [LoadingOn, CallRegister(f.name, f.email, f.password), LoadingOff]
  {
    var middle :=
      if isLogin then
        [CallLogin(f.email, f.password)] +
        match login
        case Rejected(_) => []
        case Resolved(e) => if Truthy(e) then [Show(Failure(ToStr(e)))] else [Show(Success(LoggedIn))]
      else
        match RegisterRejection(f)
        case Some(msg) => [Show(Failure(msg))]
        case None => [CallRegister(f.name, f.email, f.password)];
    [LoadingOn] + middle + [LoadingOff]
  }

  /** Registration is attempted exactly when the passwords match and are
      long enough; with a mismatch the shown error is the mismatch, however
      short the password. */
  lemma RegisterOnlyWhenValid(f: Form, login: Reply)
    ensures (exists n, e, p :: CallRegister(n, e, p) in Submit(false, f, login)) <==> RegisterRejection(f).None?
    ensures f.password != f.confirmPassword ==> Show(Failure(PasswordTooShort)) !in Submit(false, f, login)
  {
    if RegisterRejection(f).None? {
      assert CallRegister(f.name, f.email, f.password) in Submit(false, f, login);
    }
  }

  /** A failed login shows its error and never the success toast. */
  lemma LoginErrorShowsNoSuccess(f: Form, login: Reply)
    requires login.Resolved? && Truthy(login.error)
    ensures Show(Success(LoggedIn)) !in Submit(true, f, login)
    ensures Show(Failure(ToStr(login.error))) in Submit(true, f, login)
  {
    var t := Submit(true, f, login);
    assert t == [LoadingOn, CallLogin(f.email, f.password), Show(Failure(ToStr(login.error))), LoadingOff];
  }

  /** The loading flag is cleared exactly once, as the last step, on every
      path. */
  lemma LoadingClearedOnEveryPath(isLogin: bool, f: Form, login: Reply)
    ensures var t := Submit(isLogin, f, login);
      forall i :: 0 <= i < |t| ==> (t[i] == LoadingOff <==> i == |t| - 1) && (t[i] == LoadingOn <==> i == 0)
  {
  }
}

=== FILE: cart.dfy ===
/** The cart page (`app/cart/page.tsx`): how each line resolves the price,
    image, colour and stock it shows; the totals in the order summary; the
    quantity buttons' guards; and where the checkout button leads.

    The page computes a line's price twice, with different precedences: the
    summary total prefers a truthy selected-variant price, then a truthy
    product price, then a matching-or-first variant; the line display
    prefers the selected variant, then a matching-or-first variant, then
    the product price. `TotalMatchesDisplay` says where the two agree. */
module Cart {
  import opened Optional
  import opened Js

  /** One cart entry. The product and the selected variant are backend
      objects whose fields are read loosely, so they stay dynamic values. */
  datatype Item = Item(
    product: Value,
    quantity: int,
    selectedColor: Value,
    selectedVariant: Value)

  /** `item.product.variants` when it is an array, else no variants. */
  function Variants(item: Item): seq<Value> {
    var v := Get(item.product, "variants");
    if v.Arr? then v.elems else []
  }

  /** `variants.find(v => v.Color === color)`, as an index. */
  function FindColor(vs: seq<Value>, color: Value): (r: Option<nat>)
    ensures r.Some? ==> r.value < |vs| && StrictEq(Get(vs[r.value], "Color"), color)
    ensures r.Some? ==> forall j :: 0 <= j < r.value ==> !StrictEq(Get(vs[j], "Color"), color)
    ensures r.None? ==> forall j :: 0 <= j < |vs| ==> !StrictEq(Get(vs[j], "Color"), color)
    decreases |vs|
  {
    if |vs| == 0 then None
    else if StrictEq(Get(vs[0], "Color"), color) then Some(0)
    else match FindColor(vs[1..], color)
      case None => None
      case Some(i) => Some(i + 1)
  }

  /** `variants.find(v => v.Color === selectedColor) || variants[0]`. */
  function MatchingVariant(item: Item): (r: Value)
    requires |Variants(item)| > 0
    ensures r in Variants(item)
    ensures FindColor(Variants(item), item.selectedColor).None? ==> r == Variants(item)[0]
    ensures FindColor(Variants(item), item.selectedColor).Some?
      && Truthy(Variants(item)[FindColor(Variants(item), item.selectedColor).value])
      ==> r == Variants(item)[FindColor(Variants(item), item.selectedColor).value]
  {
    var vs := Variants(item);
    match FindColor(vs, item.selectedColor)
    case None => vs[0]
    case Some(i) => Or(vs[i], vs[0])
  }

  /** The variant a line is displayed from: the selected one, else the
      colour-matching or first variant, else none (the product itself). */
  function DisplayVariant(item: Item): Option<Value> {
    if Truthy(item.selectedVariant) then Some(item.selectedVariant)
    else if |Variants(item)| > 0 then Some(MatchingVariant(item))
    else None
  }

  /** What a line shows. `stock` stays a dynamic value: the page compares
      it with `>`, which coerces it to a number. */
  datatype Line = Line(price: int, image: Value, color: Value, stock: Value)

  /** `item.selectedColor || ''`. */
  function BaseColor(item: Item): Value {
    Or(item.selectedColor, Str(""))
  }

  /** The resolved line. Price, image, colour and stock all come from the
      same displayed variant; a non-numeric price shows as 0, a missing image
      falls back to the product's image, a missing colour to the selected
      colour, and a missing stock to 0. Without a variant the line shows the
      product's own price and image and no stock. */
  function Display(item: Item): (l: Line)
    ensures DisplayVariant(item).Some? ==>
      var v := DisplayVariant(item).value;
      && l.price == ToNumber(Get(v, "Price")).OrZero()
      && l.image == Or(Get(v, "ImgPath"), Get(item.product, "image"))
      && l.color == Or(Get(v, "Color"), BaseColor(item))
      && l.stock == Or(Get(v, "Stock"), Num(0))
    ensures DisplayVariant(item).None? ==>
      l == Line(ToNumber(Get(item.product, "price")).OrZero(), Get(item.product, "image"), BaseColor(item), Num(0))
    ensures Truthy(item.selectedVariant) ==> l.price == ToNumber(Get(item.selectedVariant, "Price")).OrZero()
  {
    match DisplayVariant(item)
    case Some(v) =>
      Line(ToNumber(Get(v, "Price")).OrZero(),
           Or(Get(v, "ImgPath"), Get(item.product, "image")),
           Or(Get(v, "Color"), BaseColor(item)),
           Or(Get(v, "Stock"), Num(0)))
    case None =>
      Line(ToNumber(Get(item.product, "price")).OrZero(), Get(item.product, "image"), BaseColor(item), Num(0))
  }

  /** The line's subtotal, `price * item.quantity`: zero exactly when the
      displayed price or the quantity is. */
  function Subtotal(item: Item): (r: int)
    ensures r == 0 <==> Display(item).price == 0 || item.quantity == 0
    ensures Display(item).price > 0 && item.quantity > 0 ==> r >= Display(item).price
  {
    Display(item).price * item.quantity
  }

  /** `item.product.id || item.product.IdProduct || ''`: the id the
      quantity and remove buttons pass to the cart store. */
  function ProductId(item: Item): (r: Value)
    ensures Truthy(Get(item.product, "id")) ==> r == Get(item.product, "id")
    ensures !Truthy(Get(item.product, "id")) && Truthy(Get(item.product, "IdProduct")) ==> r == Get(item.product, "IdProduct")
    ensures !Truthy(Get(item.product, "id")) && !Truthy(Get(item.product, "IdProduct")) ==> r == Str("")
  {
    var vs := [Get(item.product, "id"), Get(item.product, "IdProduct")];
    assert vs[0] == Get(item.product, "id") && vs[1] == Get(item.product, "IdProduct");
    Coalesce(vs, Str(""))
  }

  /** The unit price the summary total uses for a line, as written: no
      `|| 0`, so a non-numeric price is NaN. */
  function LinePriceAsWritten(item: Item): (r: Numeric)
    ensures Truthy(Get(item.selectedVariant, "Price")) ==> r == ToNumber(Get(item.selectedVariant, "Price"))
    ensures !Truthy(Get(item.selectedVariant, "Price")) && Truthy(Get(item.product, "price"))
      ==> r == ToNumber(Get(item.product, "price"))
    ensures !Truthy(Get(item.selectedVariant, "Price")) && !Truthy(Get(item.product, "price"))
      ==> r == if |Variants(item)| > 0 then ToNumber(Get(MatchingVariant(item), "Price")) else Finite(0)
  {
    if Truthy(Get(item.selectedVariant, "Price")) then ToNumber(Get(item.selectedVariant, "Price"))
    else if Truthy(Get(item.product, "price")) then ToNumber(Get(item.product, "price"))
    else if |Variants(item)| > 0 then ToNumber(Get(MatchingVariant(item), "Price"))
    else Finite(0)
  }

  /** The summary total as written: `items.reduce((sum, item) => sum + price * quantity, 0)`. */
  function TotalPriceAsWritten(items: seq<Item>): Numeric
    decreases |items|
  {
    if |items| == 0 then Finite(0)
    else
      var last := items[|items| - 1];
      Add(TotalPriceAsWritten(items[..|items| - 1]), Mul(LinePriceAsWritten(last), Finite(last.quantity)))
  }

  /** The unit price the summary total uses for a line, with a non-numeric
      price counted as 0, as the line display already does. */
  function LinePrice(item: Item): (r: int)
    ensures LinePriceAsWritten(item).Finite? ==> r == LinePriceAsWritten(item).n
    ensures LinePriceAsWritten(item).NaN? ==> r == 0
  {
    LinePriceAsWritten(item).OrZero()
  }

  /** The summary total with every line's price resolved by `LinePrice`. */
  function TotalPrice(items: seq<Item>): (r: int)
    ensures (forall i :: 0 <= i < |items| ==> LinePrice(items[i]) >= 0 && items[i].quantity >= 1) ==> r >= 0
    decreases |items|
  {
    if |items| == 0 then 0
    else
      var last := items[|items| - 1];
      TotalPrice(items[..|items| - 1]) + LinePrice(last) * last.quantity
  }

  /** `items.reduce((sum, item) => sum + item.quantity, 0)`: at least one
      per line when every quantity is at least 1, as the buttons keep it. */
  function TotalItems(items: seq<Item>): (r: int)
    ensures (forall i :: 0 <= i < |items| ==> items[i].quantity >= 1) ==> r >= |items|
    decreases |items|
  {
    if |items| == 0 then 0 else TotalItems(items[..|items| - 1]) + items[|items| - 1].quantity
  }

  /** The sum of the displayed line subtotals. */
  function SubtotalSum(items: seq<Item>): int
    decreases |items|
  {
    if |items| == 0 then 0 else SubtotalSum(items[..|items| - 1]) + Subtotal(items[|items| - 1])
  }

  /** The item count of two carts put together is the sum of their counts. */
  lemma {:induction false} TotalItemsAppend(a: seq<Item>, b: seq<Item>)
    ensures TotalItems(a + b) == TotalItems(a) + TotalItems(b)
    decreases |b|
  {
    if |b| == 0 {
      assert a + b == a;
    } else {
      assert (a + b)[..|a + b| - 1] == a + b[..|b| - 1];
      TotalItemsAppend(a, b[..|b| - 1]);
    }
  }

  /** The total of two carts put together is the sum of their totals. */
  lemma {:induction false} TotalPriceAppend(a: seq<Item>, b: seq<Item>)
    ensures TotalPrice(a + b) == TotalPrice(a) + TotalPrice(b)
    decreases |b|
  {
    if |b| == 0 {
      assert a + b == a;
    } else {
      var front := b[..|b| - 1];
      var last := b[|b| - 1];
      assert (a + b)[..|a + b| - 1] == a + front;
      assert (a + b)[|a + b| - 1] == last;
      TotalPriceAppend(a, front);
      var line := LinePrice(last) * last.quantity;
      assert TotalPrice(a + b) == TotalPrice(a + front) + line;
      assert TotalPrice(b) == TotalPrice(front) + line;
    }
  }

  /** As written, one line whose price is NaN makes the whole total NaN. */
  lemma {:induction false} TotalNaNFromAnyLine(items: seq<Item>, k: nat)
    requires k < |items| && LinePriceAsWritten(items[k]).NaN?
    ensures TotalPriceAsWritten(items).NaN?
    decreases |items|
  {
    if k < |items| - 1 {
      TotalNaNFromAnyLine(items[..|items| - 1], k);
    }
  }

  /** When every line's price is numeric, the written total and the
      corrected total are the same number. */
  lemma {:induction false} TotalAgreesWhenNumeric(items: seq<Item>)
    requires forall i :: 0 <= i < |items| ==> LinePriceAsWritten(items[i]).Finite?
    ensures TotalPriceAsWritten(items) == Finite(TotalPrice(items))
    decreases |items|
  {
    if |items| > 0 {
      TotalAgreesWhenNumeric(items[..|items| - 1]);
    }
  }

  /** The lines where the total's precedence and the display's precedence
      pick the same price: a selected variant with a truthy price, or no
      selected variant and either no truthy product price or no variants. */
  predicate SamePrecedence(item: Item) {
    if Truthy(item.selectedVariant) then Truthy(Get(item.selectedVariant, "Price"))
    else !Truthy(Get(item.product, "price")) || |Variants(item)| == 0
  }

  /** Falsy values are read by `Number` as 0 or NaN, both of which `|| 0`
      turns into 0. */
  lemma FalsyNumberIsZero(v: Value)
    requires !Truthy(v)
    ensures ToNumber(v).OrZero() == 0
  {
  }

  /** On the lines of `SamePrecedence`, the unit price inside the total is
      the unit price the line displays. */
  lemma TotalMatchesDisplay(item: Item)
    requires SamePrecedence(item)
    ensures LinePrice(item) == Display(item).price
  {
    if !Truthy(item.selectedVariant) {
      assert Get(item.selectedVariant, "Price") == Undefined;
      if !Truthy(Get(item.product, "price")) && |Variants(item)| == 0 {
        FalsyNumberIsZero(Get(item.product, "price"));
      }
    }
  }

  /** Summed over a cart of such lines, the total is the sum of the
      displayed subtotals. */
  lemma {:induction false} TotalMatchesSubtotals(items: seq<Item>)
    requires forall i :: 0 <= i < |items| ==> SamePrecedence(items[i])
    ensures TotalPrice(items) == SubtotalSum(items)
    decreases |items|
  {
    if |items| > 0 {
      TotalMatchesDisplay(items[|items| - 1]);
      TotalMatchesSubtotals(items[..|items| - 1]);
    }
  }

  /** Outside `SamePrecedence` the two prices can differ: a selected
      variant whose price is 0 shows 0, while the total charges the
      product's price. */
  lemma SelectedVariantWithoutPriceDiffers()
    ensures var item := Item(Obj(map["price" := Num(5)]), 1, Undefined, Obj(map["Price" := Num(0)]));
      LinePrice(item) == 5 && Display(item).price == 0
  {
  }

  /** Outside `SamePrecedence` the two prices can differ: with no selected
      variant, the total charges the product's price while the line shows
      the first variant's. */
  lemma ProductPriceOverVariantDiffers()
    ensures var item := Item(Obj(map["price" := Num(5), "variants" := Arr([Obj(map["Price" := Num(7)])])]), 1, Undefined, Undefined);
      LinePrice(item) == 5 && Display(item).price == 7
  {
    var item := Item(Obj(map["price" := Num(5), "variants" := Arr([Obj(map["Price" := Num(7)])])]), 1, Undefined, Undefined);
    assert Variants(item) == [Obj(map["Price" := Num(7)])];
    assert FindColor(Variants(item), Undefined) == Some(0);
  }

  /** `disabled={item.quantity <= 1}` on the minus button. */
  predicate DecrementDisabled(quantity: int) {
    quantity <= 1
  }

  /** `disabled={stock > 0 && item.quantity >= stock}` on the plus button,
      with `stock` coerced to a number by the comparison. */
  predicate IncrementDisabled(quantity: int, stock: Value) {
    var n := ToNumber(stock);
    n.Finite? && n.n > 0 && quantity >= n.n
  }

  /** A click the minus button lets through never takes a quantity below 1. */
  lemma DecrementKeepsPositive(quantity: int)
    ensures !DecrementDisabled(quantity) <==> quantity - 1 >= 1
  {
  }

  /** With a positive stock, a click the plus button lets through never
      exceeds it; with no positive stock (0, missing, non-numeric) the plus
      button is never disabled. */
  lemma IncrementRespectsStock(quantity: int, stock: Value)
    ensures ToNumber(stock).Finite? && ToNumber(stock).n > 0 ==>
      (!IncrementDisabled(quantity, stock) <==> quantity + 1 <= ToNumber(stock).n)
    ensures !(ToNumber(stock).Finite? && ToNumber(stock).n > 0) ==> !IncrementDisabled(quantity, stock)
  {
  }

  /** What the line's buttons ask of the cart store. */
  datatype Request = UpdateQuantity(id: Value, quantity: int) | Remove(id: Value)

  /** The minus button: nothing when disabled. */
  function Decrement(item: Item): (r: Option<Request>)
    ensures r.None? <==> item.quantity <= 1
    ensures r.Some? ==> r.value == UpdateQuantity(ProductId(item), item.quantity - 1) && r.value.quantity >= 1
  {
    if DecrementDisabled(item.quantity) then None else Some(UpdateQuantity(ProductId(item), item.quantity - 1))
  }

  /** The plus button: nothing when disabled by the displayed stock. */
  function Increment(item: Item): (r: Option<Request>)
    ensures r.None? <==> IncrementDisabled(item.quantity, Display(item).stock)
    ensures r.Some? ==> r.value == UpdateQuantity(ProductId(item), item.quantity + 1)
  {
    if IncrementDisabled(item.quantity, Display(item).stock) then None
    else Some(UpdateQuantity(ProductId(item), item.quantity + 1))
  }

  /** The page shows its empty state exactly when there are no items. */
  predicate ShowsEmptyState(items: seq<Item>) {
    |items| == 0
  }

  /** `disabled={totalPrice === 0}` as written: a NaN total is not `=== 0`. */
  predicate CheckoutDisabledAsWritten(items: seq<Item>) {
    TotalPriceAsWritten(items) == Finite(0)
  }

  /** The checkout button, disabled when the (corrected) total is 0. */
  predicate CheckoutDisabled(items: seq<Item>) {
    TotalPrice(items) == 0
  }

  /** As written, a product whose price is a non-numeric string makes the
      total NaN and leaves the checkout button enabled; with the price
      counted as 0 the total is 0 and the button is disabled. */
  lemma NonNumericPriceMakesTotalNaN()
    ensures var items := [Item(Obj(map["price" := Str("abc")]), 1, Undefined, Undefined)];
      && TotalPriceAsWritten(items) == NaN
      && !CheckoutDisabledAsWritten(items)
      && TotalPrice(items) == 0
      && CheckoutDisabled(items)
  {
    var item := Item(Obj(map["price" := Str("abc")]), 1, Undefined, Undefined);
    assert Text.Trim("abc") == "abc" by {
      TrimNoSpace("abc");
    }
    assert !AllDigits("abc") by {
      assert !IsDigit("abc"[0]);
    }
    assert ToNumber(Str("abc")) == NaN;
    assert Get(item.selectedVariant, "Price") == Undefined;
    assert Get(item.product, "price") == Str("abc");
    assert LinePriceAsWritten(item) == NaN;
    assert LinePrice(item) == 0;
    assert [item][..0] == [];
    assert TotalPriceAsWritten([item]) == Add(Finite(0), Mul(NaN, Finite(1)));
    assert TotalPrice([item]) == 0 + 0 * 1;
  }

  /** A non-empty cart of lines with positive prices and quantities can be
      checked out. */
  lemma {:induction false} PositiveCartCanCheckOut(items: seq<Item>)
    requires |items| > 0
    requires forall i :: 0 <= i < |items| ==> LinePrice(items[i]) > 0 && items[i].quantity > 0
    ensures TotalPrice(items) > 0 && !CheckoutDisabled(items)
    decreases |items|
  {
    if |items| > 1 {
      PositiveCartCanCheckOut(items[..|items| - 1]);
    }
  }

  /** Where "Proceed to checkout" leads: signed-in shoppers go straight to
      checkout, others to sign-in with checkout as the place to return to. */
  function CheckoutRoute(isAuthenticated: bool): (r: string)
    ensures isAuthenticated ==> r == "/checkout"
    ensures !isAuthenticated ==> r == "/auth?from=/checkout"
  {
    if isAuthenticated then "/checkout" else "/auth?from=/checkout"
  }
}

=== FILE: chatbot.dfy ===
/** The shop's rule-based chat assistant (`components/Chatbox.tsx`): the
    entities and intent read from a message, the little context carried from
    one message to the next, and the reply chosen. Messages are taken as
    already lower-cased; `includes` is `Text.Contains`, and each regular
    expression is the disjunction of its alternatives. */
module Chatbot {
  import opened Optional
  import opened Text
  import opened Lists

  /** The products a message can mention. */
  datatype Entity = IPhone16Pro | IPhone16 | IPhone15 | AirPods | AppleWatch

  /** The intents, `General` when no pattern matches. */
  datatype Intent =
    | Price | Color | Compare | Features | Installment | Promotion | Recommend
    | Camera | Battery | Delivery | Warranty | TradeIn | Purchase | General

  /** One alternative of an intent's pattern: a phrase anywhere in the
      message, or `first.*second` — `second` after `first` with no line
      break between them, as `.` matches no line terminator. */
  datatype Alternative = Word(w: string) | Then(first: string, second: string)

  /** An intent's pattern; the confidence is in percent. */
  datatype Rule = Rule(alternatives: seq<Alternative>, intent: Intent, confidence: nat)

  /** What the engine remembers between messages. */
  datatype Context = Context(lastEntity: Option<Entity>, lastIntent: Option<Intent>)

  /** What `analyzeIntent` returns. */
  datatype Analysis = Analysis(intent: Intent, entities: seq<Entity>, confidence: nat)

  /** The replies `generateResponse` can give. */
  datatype Reply =
    | BuyPro | BuySixteen | BuyWhich
    | ShippingNote | WarrantyNote | TradeInNote | InstallmentNote
    | PricePro | PriceSixteen
    | ColorsPro | ColorsSixteen | ColorsWhich
    | BatteryPro | BatteryAll
    | SpecsPro
    | ForGamers | ForCreators
    | Hello
    | NotUnderstood

  const Fresh: Context := Context(None, None)

  /** The characters JavaScript's `.` does not match. */
  predicate LineTerminator(c: char) {
    c == '\n' || c == '\r' || c == '\U{2028}' || c == '\U{2029}'
  }

  /** `first.*second` matches somewhere in `msg`. */
  predicate MatchesThen(msg: string, first: string, second: string) {
    exists i, j :: 0 <= i <= j <= |msg| && OccursAt(msg, first, i) && i + |first| <= j && OccursAt(msg, second, j) &&
      forall k :: i + |first| <= k < j ==> !LineTerminator(msg[k])
  }

  predicate MatchesAlternative(msg: string, a: Alternative) {
    match a
    case Word(w) => Contains(msg, w)
    case Then(first, second) => MatchesThen(msg, first, second)
  }

  /** `pattern.test(msg)`. */
  predicate Matches(msg: string, rule: Rule) {
    exists k :: 0 <= k < |rule.alternatives| && MatchesAlternative(msg, rule.alternatives[k])
  }

  /** The patterns, in the order they are tried. */
  const Rules: seq<Rule> := [
    Rule([Word("gi\U{E1}"), Word("bao nhi\U{EA}u"), Word("ti\U{1EC1}n"), Word("cost"), Word("price"),
          Word("\U{111}\U{1EAF}t kh\U{F4}ng")], Price, 95),
    Rule([Word("m\U{E0}u"), Word("color"), Word("m\U{1EA7}u"), Word("ngo\U{1EA1}i h\U{EC}nh"),
          Word("b\U{1EA3}ng m\U{E0}u")], Color, 95),
    Rule([Word("so s\U{E1}nh"), Word("kh\U{E1}c g\U{EC}"), Word("t\U{1ED1}t h\U{1A1}n"), Word("compare"),
          Word("vs")], Compare, 90),
    Rule([Word("t\U{ED}nh n\U{103}ng"), Word("feature"), Word("th\U{F4}ng s\U{1ED1}"), Word("specs"),
          Word("m\U{E0}n h\U{EC}nh"), Word("chip"), Word("ram")], Features, 90),
    Rule([Word("tr\U{1EA3} g\U{F3}p"), Word("g\U{F3}p"), Word("h\U{E0}ng th\U{E1}ng"), Word("installment")],
         Installment, 95),
    Rule([Word("khuy\U{1EBF}n m\U{E3}i"), Word("gi\U{1EA3}m gi\U{E1}"), Word("sale"), Word("\U{1B0}u \U{111}\U{E3}i"),
          Word("qu\U{E0}")], Promotion, 90),
    Rule([Word("t\U{1B0} v\U{1EA5}n"), Word("khuy\U{EA}n"), Word("n\U{EA}n mua"), Word("l\U{1EF1}a ch\U{1ECD}n")],
         Recommend, 80),
    Rule([Word("camera"), Word("ch\U{1EE5}p \U{1EA3}nh"), Word("quay phim"), Word("zoom")], Camera, 90),
    Rule([Word("pin"), Word("battery"), Word("s\U{1EA1}c"), Word("charging"), Word("dung l\U{1B0}\U{1EE3}ng")],
         Battery, 90),
    Rule([Word("ship"), Word("giao h\U{E0}ng"), Word("bao l\U{E2}u"), Word("\U{111}\U{1ECB}a ch\U{1EC9}"),
          Word("c\U{1EED}a h\U{E0}ng")], Delivery, 90),
    Rule([Word("b\U{1EA3}o h\U{E0}nh"), Word("l\U{1ED7}i"), Word("h\U{1ECF}ng"), Word("warranty"), Word("s\U{1EED}a")],
         Warranty, 90),
    Rule([Word("thu c\U{169}"), Word("\U{111}\U{1ED5}i m\U{1EDB}i"), Word("trade in"), Word("l\U{EA}n \U{111}\U{1EDD}i")],
         TradeIn, 90),
    Rule([Word("mu\U{1ED1}n mua"), Word("\U{111}\U{1EB7}t h\U{E0}ng"), Word("ch\U{1ED1}t"), Word("order"), Word("buy"),
          Word("mua"), Word("l\U{1EA5}y m\U{E1}y"), Word("mua ngay"), Word("gi\U{E1} ch\U{1ED1}t"),
          Word("cho m\U{EC}nh \U{111}\U{1EB7}t"), Then("c\U{F3} s\U{1EB5}n", "l\U{1EA5}y")], Purchase, 95)
  ]

  /** The confidence when no pattern matches. */
  const GeneralConfidence: nat := 50

  /** The first pattern at or after `from` that matches. */
  function FirstMatch(msg: string, from: nat): (r: Option<nat>)
    requires from <= |Rules|
    ensures r.Some? ==> from <= r.value < |Rules| && Matches(msg, Rules[r.value])
    ensures r.Some? ==> forall k :: from <= k < r.value ==> !Matches(msg, Rules[k])
    ensures r.None? ==> forall k :: from <= k < |Rules| ==> !Matches(msg, Rules[k])
    decreases |Rules| - from
  {
    if from == |Rules| then None
    else if Matches(msg, Rules[from]) then Some(from)
    else FirstMatch(msg, from + 1)
  }

  /** The intent of a message and its confidence: those of the first
      pattern that matches, `General` at 50 when none does. */
  function Classify(msg: string): (r: (Intent, nat))
    ensures r.0 == General <==> forall k :: 0 <= k < |Rules| ==> !Matches(msg, Rules[k])
    ensures r.0 != General ==>
      exists k :: 0 <= k < |Rules| && Matches(msg, Rules[k]) &&
        (forall j :: 0 <= j < k ==> !Matches(msg, Rules[j])) && r == (Rules[k].intent, Rules[k].confidence)
    ensures r.1 == GeneralConfidence <==> r.0 == General
  {
    match FirstMatch(msg, 0)
    case Some(k) => (Rules[k].intent, Rules[k].confidence)
    case None => (General, GeneralConfidence)
  }

  /** A message that matches a pattern gets that pattern's intent when no
      earlier pattern matches. */
  lemma ClassifyFirst(msg: string, k: nat)
    requires k < |Rules| && Matches(msg, Rules[k])
    requires forall j :: 0 <= j < k ==> !Matches(msg, Rules[j])
    ensures Classify(msg) == (Rules[k].intent, Rules[k].confidence)
  {
    var r := FirstMatch(msg, 0);
    assert r.Some? && r.value == k;
  }

  /** Any phrase of the first pattern makes the intent `Price`. */
  lemma PricePhraseWins(msg: string, w: string)
    requires Word(w) in Rules[0].alternatives && Contains(msg, w)
    ensures Classify(msg) == (Price, 95)
  {
    var k :| 0 <= k < |Rules[0].alternatives| && Rules[0].alternatives[k] == Word(w);
    assert MatchesAlternative(msg, Rules[0].alternatives[k]);
    ClassifyFirst(msg, 0);
  }

  /** The purchase alternative "giá chốt" never decides the intent: every
      message containing it contains "giá", and the price pattern is tried
      first. */
  lemma GiaChotReadsAsPrice(msg: string)
    requires Contains(msg, "gi\U{E1} ch\U{1ED1}t")
    ensures Classify(msg) == (Price, 95)
  {
    var t := "gi\U{E1} ch\U{1ED1}t";
    ContainsPrefix(msg, t, 3);
    assert t[..3] == "gi\U{E1}";
    assert Rules[0].alternatives[0] == Word("gi\U{E1}");
    PricePhraseWins(msg, "gi\U{E1}");
  }

  /** The phone model named, at most one, the Pro phrases first. */
  function Phone(msg: string): (r: Option<Entity>)
    ensures r.Some? ==> r.value in {IPhone16Pro, IPhone16, IPhone15}
    ensures r == Some(IPhone16Pro) <==> Contains(msg, "iphone 16 pro") || Contains(msg, "pro max") || Contains(msg, "16pm")
    ensures r == Some(IPhone16) <==> r != Some(IPhone16Pro) && (Contains(msg, "iphone 16") || Contains(msg, "plus"))
    ensures r == Some(IPhone15) <==> r != Some(IPhone16Pro) && r != Some(IPhone16) && Contains(msg, "iphone 15")
  {
    if Contains(msg, "iphone 16 pro") || Contains(msg, "pro max") || Contains(msg, "16pm") then Some(IPhone16Pro)
    else if Contains(msg, "iphone 16") || Contains(msg, "plus") then Some(IPhone16)
    else if Contains(msg, "iphone 15") then Some(IPhone15)
    else None
  }

  predicate IsPhone(e: Entity) {
    e == IPhone16Pro || e == IPhone16 || e == IPhone15
  }

  /** The entities a message names: its phone model first, then AirPods and
      the Watch, each detected on its own. */
  function Entities(msg: string): (es: seq<Entity>)
    ensures forall i, j :: 0 <= i < |es| && 0 <= j < |es| && IsPhone(es[i]) && IsPhone(es[j]) ==> i == j
    ensures forall i :: 0 < i < |es| ==> !IsPhone(es[i])
    ensures Phone(msg).Some? <==> |es| > 0 && IsPhone(es[0])
    ensures Phone(msg).Some? ==> es[0] == Phone(msg).value
    ensures forall e :: IsPhone(e) ==> (e in es <==> Phone(msg) == Some(e))
    ensures AirPods in es <==> Contains(msg, "airpods") || Contains(msg, "tai nghe")
    ensures AppleWatch in es <==> Contains(msg, "watch") || Contains(msg, "\U{111}\U{1ED3}ng h\U{1ED3}")
  {
    (match Phone(msg) case Some(p) => [p] case None => []) +
    (if Contains(msg, "airpods") || Contains(msg, "tai nghe") then [AirPods] else []) +
    (if Contains(msg, "watch") || Contains(msg, "\U{111}\U{1ED3}ng h\U{1ED3}") then [AppleWatch] else [])
  }

  /** `analyzeIntent`: the trimmed message's entities, or the remembered one
      when it names none; its intent; and the updated context. */
  function Analyze(ctx: Context, message: string): (r: (Analysis, Context))
    ensures Entities(Trim(message)) != [] ==> r.0.entities == Entities(Trim(message))
    ensures Entities(Trim(message)) == [] && ctx.lastEntity.Some? ==> r.0.entities == [ctx.lastEntity.value]
    ensures Entities(Trim(message)) == [] && ctx.lastEntity.None? ==> r.0.entities == []
    ensures (r.0.intent, r.0.confidence) == Classify(Trim(message))
    ensures r.1.lastIntent == Some(r.0.intent)
    ensures r.0.entities != [] ==> r.1.lastEntity == Some(r.0.entities[0])
    ensures r.0.entities == [] ==> r.1.lastEntity == ctx.lastEntity
  {
    var msg := Trim(message);
    var found := Entities(msg);
    var entities := if found == [] && ctx.lastEntity.Some? then [ctx.lastEntity.value] else found;
    var (intent, confidence) := Classify(msg);
    var last := if entities != [] then Some(entities[0]) else ctx.lastEntity;
    (Analysis(intent, entities, confidence), Context(last, Some(intent)))
  }

  /** The words a greeting starts with. */
  const Greetings: seq<string> := ["hi", "hello", "ch\U{E0}o", "xin ch\U{E0}o", "hey", "alo"]

  /** `/^(hi|hello|chào|xin chào|hey|alo)/i.test(msg)`. */
  predicate IsGreeting(msg: string) {
    exists k :: 0 <= k < |Greetings| && OccursAt(msg, Greetings[k], 0)
  }

  /** The message asks about the Pro Max, by entity or by phrase. */
  predicate AboutPro(a: Analysis, msg: string) {
    IPhone16Pro in a.entities || Contains(msg, "pro max")
  }

  /** The advice question is about gaming. */
  predicate ForGaming(msg: string) {
    Contains(msg, "game") || Contains(msg, "ch\U{1EE7} game")
  }

  /** The advice question is about filming and streaming. */
  predicate ForFilming(msg: string) {
    Contains(msg, "livestream") || Contains(msg, "quay") || Contains(msg, "tiktok")
  }

  /** The reply when no branch applies: a greeting back when the message
      starts with a greeting, the fallback otherwise. */
  function Fallback(msg: string): (r: Reply)
    ensures r in {Hello, NotUnderstood}
    ensures r == Hello <==> IsGreeting(msg)
  {
    if IsGreeting(msg) then Hello else NotUnderstood
  }

  const KnowledgeDelivery: string :=
    "\U{1F4E6} **Th\U{F4}ng tin giao h\U{E0}ng:**\n\U{2022} N\U{1ED9}i th\U{E0}nh HN/HCM: Nh\U{1EAD}n h\U{E0}ng trong 2h.\n\U{2022} To\U{E0}n qu\U{1ED1}c: 2-4 ng\U{E0}y qua GHTK/Viettel Post.\n\U{2022} Ph\U{ED} ship: \U{110}\U{1ED3}ng gi\U{E1} 30k, free ship \U{111}\U{1A1}n >1tr."

  const KnowledgeWarranty: string :=
    "\U{1F6E1}\U{FE0F} **Ch\U{ED}nh s\U{E1}ch b\U{1EA3}o h\U{E0}nh:**\n\U{2022} 12 th\U{E1}ng ch\U{ED}nh h\U{E3}ng Apple VN.\n\U{2022} 1 \U{111}\U{1ED5}i 1 trong 30 ng\U{E0}y n\U{1EBF}u ph\U{E1}t hi\U{1EC7}n l\U{1ED7}i ph\U{1EA7}n c\U{1EE9}ng t\U{1EEB} NSX.\n\U{2022} H\U{1ED7} tr\U{1EE3} ph\U{1EA7}n m\U{1EC1}m tr\U{1ECD}n \U{111}\U{1EDD}i m\U{E1}y."

  const KnowledgeInstallment: string :=
    "\U{1F4B3} **Tr\U{1EA3} g\U{F3}p \U{1B0}u \U{111}\U{E3}i:**\n\U{2022} 0% l\U{E3}i su\U{1EA5}t qua th\U{1EBB} t\U{ED}n d\U{1EE5}ng (25 ng\U{E2}n h\U{E0}ng).\n\U{2022} Tr\U{1EA3} g\U{F3}p duy\U{1EC7}t h\U{1ED3} s\U{1A1} online trong 15p.\n\U{2022} Ch\U{1EC9} c\U{1EA7}n CCCD g\U{1EAF}n chip."

  const KnowledgeTradeIn: string :=
    "\U{267B}\U{FE0F} **Thu c\U{169} \U{111}\U{1ED5}i m\U{1EDB}i:**\n\U{2022} Thu mua m\U{1ECD}i d\U{F2}ng iPhone/Android c\U{169}.\n\U{2022} Tr\U{1EE3} gi\U{E1} th\U{EA}m 1-2 tri\U{1EC7}u khi l\U{EA}n \U{111}\U{1EDD}i iPhone 16.\n\U{2022} Th\U{1EE7} t\U{1EE5}c b\U{F9} ch\U{EA}nh l\U{1EC7}ch ho\U{1EB7}c tr\U{1EA3} g\U{F3}p ph\U{1EA7}n c\U{F2}n l\U{1EA1}i."

  // The texts and suggestions of the other replies.

  const BuyProText: string :=
    "Tuy\U{1EC7}t v\U{1EDD}i! **iPhone 16 Pro Max** l\U{E0} \U{111}\U{1EC9}nh cao c\U{F4}ng ngh\U{1EC7} hi\U{1EC7}n nay. B\U{1EA1}n mu\U{1ED1}n m\U{EC}nh h\U{1ED7} tr\U{1EE3} **\U{111}\U{1EB7}t h\U{E0}ng online** giao si\U{EA}u t\U{1ED1}c 2h hay mu\U{1ED1}n gh\U{E9} showroom tr\U{1EA3}i nghi\U{1EC7}m \"si\U{EA}u ph\U{1EA9}m\" n\U{E0}y? \U{1F6CD}\U{FE0F}"
  const BuyProSuggestions: seq<string> :=
    ["\U{110}\U{1EB7}t h\U{E0}ng online ngay", "T\U{EC}m c\U{1EED}a h\U{E0}ng g\U{1EA7}n nh\U{1EA5}t", "T\U{1B0} v\U{1EA5}n tr\U{1EA3} g\U{F3}p 0%"]

  const BuySixteenText: string :=
    "iPhone 16 b\U{1EA3}n ti\U{EA}u chu\U{1EA9}n \U{111}ang r\U{1EA5}t \"hot\". B\U{1EA1}n mu\U{1ED1}n \U{111}\U{1EB7}t m\U{E0}u n\U{E0}o \U{111}\U{1EC3} m\U{EC}nh gi\U{1EEF} h\U{E0}ng cho b\U{1EA1}n ngay? \U{2728}"
  const BuySixteenSuggestions: seq<string> :=
    ["Ch\U{1ECD}n m\U{E0}u Ultramarine", "L\U{E0}m th\U{1EE7} t\U{1EE5}c mua ngay", "C\U{F3} qu\U{E0} t\U{1EB7}ng g\U{EC} kh\U{F4}ng?"]

  const BuyWhichText: string :=
    "R\U{1EA5}t vui khi b\U{1EA1}n quan t\U{E2}m! B\U{1EA1}n \U{111}ang mu\U{1ED1}n \"ch\U{1ED1}t\" model n\U{E0}o? M\U{EC}nh khuy\U{EA}n b\U{1EA1}n n\U{EA}n ch\U{1ECD}n **iPhone 16 Pro Max** \U{111}\U{1EC3} c\U{F3} tr\U{1EA3}i nghi\U{1EC7}m t\U{1ED1}t nh\U{1EA5}t! \U{1F34E}"
  const BuyWhichSuggestions: seq<string> :=
    ["Ch\U{1ED1}t 16 Pro Max", "Xem iPhone 16 th\U{1B0}\U{1EDD}ng", "Ph\U{1EE5} ki\U{1EC7}n Apple"]

  const ShippingNoteSuggestions: seq<string> :=
    ["B\U{1EA3}o h\U{E0}nh th\U{1EBF} n\U{E0}o?", "C\U{F3} tr\U{1EA3} g\U{F3}p kh\U{F4}ng?", "\U{110}\U{1ECB}a ch\U{1EC9} \U{1EDF} \U{111}\U{E2}u?"]

  const WarrantyNoteSuggestions: seq<string> :=
    ["Ch\U{1EAF}c ch\U{1EAF}n h\U{E0}ng ch\U{ED}nh h\U{E3}ng?", "C\U{1EA7}n mang theo g\U{EC}?", "\U{110}\U{1ED5}i tr\U{1EA3} ra sao?"]

  const TradeInNoteSuggestions: seq<string> :=
    ["iPhone 13 \U{111}\U{1ED5}i l\U{EA}n \U{111}\U{1B0}\U{1EE3}c bao nhi\U{EA}u?", "Th\U{1EE7} t\U{1EE5}c th\U{1EBF} n\U{E0}o?", "C\U{F3} l\U{1EA5}y m\U{E1}y lu\U{F4}n kh\U{F4}ng?"]

  const InstallmentNoteSuggestions: seq<string> :=
    ["L\U{E3}i su\U{1EA5}t 0% th\U{1EAD}t kh\U{F4}ng?", "Tr\U{1EA3} tr\U{1B0}\U{1EDB}c 0\U{111} \U{111}\U{1B0}\U{1EE3}c kh\U{F4}ng?", "C\U{1EA7}n gi\U{1EA5}y t\U{1EDD} g\U{EC}?"]

  const PriceProText: string :=
    "\U{1F4B0} **Gi\U{E1} iPhone 16 Pro Max (Ni\U{EA}m y\U{1EBF}t):**\n\n\U{2022} 256GB: **34.990.000\U{111}**\n\U{2022} 512GB: **40.990.000\U{111}**\n\U{2022} 1TB: **46.990.000\U{111}**\n\n\U{1F381} *\U{1AF}u \U{111}\U{E3}i:* Gi\U{1EA3}m th\U{EA}m 2 tri\U{1EC7}u khi Thu c\U{169} \U{111}\U{1ED5}i m\U{1EDB}i v\U{E0} gi\U{1EA3}m 500k qua c\U{1ED5}ng thanh to\U{E1}n!"
  const PriceProSuggestions: seq<string> :=
    ["T\U{ED}nh gi\U{E1} tr\U{1EA3} g\U{F3}p", "Xem c\U{E1}c m\U{E0}u", "So s\U{E1}nh Specs"]

  const PriceSixteenText: string :=
    "**iPhone 16 Series gi\U{E1} c\U{1EF1}c t\U{1ED1}t:**\n\n\U{2022} iPhone 16: Ch\U{1EC9} t\U{1EEB} **22.990.000\U{111}**\n\U{2022} iPhone 16 Plus: Ch\U{1EC9} t\U{1EEB} **25.990.000\U{111}**\n\nB\U{1EA1}n mu\U{1ED1}n m\U{EC}nh b\U{E1}o gi\U{E1} c\U{1EE5} th\U{1EC3} theo dung l\U{1B0}\U{1EE3}ng kh\U{F4}ng? \U{1F308}"
  const PriceSixteenSuggestions: seq<string> :=
    ["B\U{1EA3}ng m\U{E0}u m\U{1EDB}i 16", "Pin d\U{F9}ng bao l\U{E2}u?", "Mua k\U{E8}m ph\U{1EE5} ki\U{1EC7}n"]

  const ColorsProText: string :=
    "\U{1F3A8} **B\U{1EA3}ng m\U{E0}u iPhone 16 Pro Max c\U{1EF1}c sang:**\n\n\U{2022} **Titan Sa M\U{1EA1}c (Desert Titanium):** M\U{E0}u HOT nh\U{1EA5}t, thanh l\U{1ECB}ch v\U{E0} quy\U{1EC1}n l\U{1EF1}c.\n\U{2022} **Titan T\U{1EF1} Nhi\U{EA}n:** \U{110}\U{1EB3}ng c\U{1EA5}p, b\U{1EC1}n b\U{1EC9} qua th\U{1EDD}i gian.\n\U{2022} **Titan Tr\U{1EAF}ng & Titan \U{110}en:** Hai m\U{E0}u c\U{1A1} b\U{1EA3}n kh\U{F4}ng bao gi\U{1EDD} l\U{1ED7}i m\U{1ED1}t.\n\nB\U{1EA1}n th\U{ED}ch s\U{1EF1} n\U{1ED5}i b\U{1EAD}t c\U{1EE7}a Titan Sa M\U{1EA1}c hay v\U{1EBB} t\U{1ED1}i gi\U{1EA3}n c\U{1EE7}a Titan \U{110}en?"
  const ColorsProSuggestions: seq<string> :=
    ["\U{110}\U{1EB7}t Titan Sa M\U{1EA1}c", "Xem Titan T\U{1EF1} Nhi\U{EA}n", "Gi\U{E1} b\U{1EA3}n Titan \U{110}en"]

  const ColorsSixteenText: string :=
    "\U{1F308} **B\U{1EA3}ng m\U{E0}u iPhone 16/16 Plus:**\n\n\U{2022} **Ultramarine:** Xanh d\U{1B0}\U{1A1}ng \U{111}\U{1EAD}m m\U{1EDB}i l\U{1EA1}, c\U{1EF1}c k\U{1EF3} b\U{1EAF}t m\U{1EAF}t.\n\U{2022} **Teal:** Xanh l\U{1EE5}c d\U{1ECB}u nh\U{1EB9}.\n\U{2022} **Pink:** H\U{1ED3}ng pastel.\n\U{2022} **White & Black:** T\U{1ED1}i gi\U{1EA3}n.\n\nB\U{1EA1}n th\U{1EA5}y m\U{E0}u n\U{E0}o h\U{1EE3}p v\U{1EDB}i m\U{EC}nh nh\U{1EA5}t?"
  const ColorsSixteenSuggestions: seq<string> :=
    ["L\U{1EA5}y m\U{E0}u Ultramarine", "Xem m\U{E0}u Pink", "T\U{ED}nh tr\U{1EA3} g\U{F3}p"]

  const ColorsWhichText: string :=
    "B\U{1EA1}n mu\U{1ED1}n m\U{EC}nh t\U{1B0} v\U{1EA5}n m\U{E0}u s\U{1EAF}c cho d\U{F2}ng m\U{E1}y n\U{E0}o? iPhone 16 Pro Max sang tr\U{1ECD}ng hay iPhone 16 tr\U{1EBB} trung? \U{1F3A8}"
  const ColorsWhichSuggestions: seq<string> :=
    ["M\U{E0}u 16 Pro Max", "M\U{E0}u 16 th\U{1B0}\U{1EDD}ng"]

  const BatteryProText: string :=
    "\U{1F50B} **Pin iPhone 16 Pro Max \U{111}\U{1EC9}nh nh\U{1EA5}t l\U{1ECB}ch s\U{1EED}:**\n\nTh\U{1EDD}i l\U{1B0}\U{1EE3}ng xem video l\U{EA}n \U{111}\U{1EBF}n **33 gi\U{1EDD}**, tho\U{1EA3}i m\U{E1}i s\U{1EED} d\U{1EE5}ng h\U{1A1}n 2 ng\U{E0}y v\U{1EDB}i c\U{E1}c t\U{E1}c v\U{1EE5} th\U{F4}ng th\U{1B0}\U{1EDD}ng. S\U{1EA1}c MagSafe c\U{169}ng nhanh h\U{1A1}n (l\U{EA}n \U{111}\U{1EBF}n 25W)."
  const BatteryProSuggestions: seq<string> :=
    ["S\U{1EA1}c 2h \U{111}\U{1EA7}y kh\U{F4}ng?", "Mua c\U{1EE7} s\U{1EA1}c 30W", "Pin b\U{1EA3}n th\U{1B0}\U{1EDD}ng th\U{EC} sao?"]

  const BatteryAllText: string :=
    "D\U{F2}ng iPhone 16 n\U{103}m nay \U{111}\U{1EC1}u \U{111}\U{1B0}\U{1EE3}c c\U{1EA3}i ti\U{1EBF}n pin \U{111}\U{E1}ng k\U{1EC3}, trung b\U{EC}nh t\U{103}ng 2-4 ti\U{1EBF}ng s\U{1EED} d\U{1EE5}ng so v\U{1EDB}i iPhone 15. B\U{1EA1}n y\U{EA}n t\U{E2}m d\U{F9}ng c\U{1EA3} ng\U{E0}y nh\U{E9}! \U{1F50B}"
  const BatteryAllSuggestions: seq<string> :=
    ["So s\U{E1}nh pin c\U{1EE5} th\U{1EC3}", "S\U{1EA1}c nhanh bao l\U{E2}u?"]

  const SpecsProText: string :=
    "\U{1F4F8} **H\U{1EC7} th\U{1ED1}ng Camera & T\U{ED}nh n\U{103}ng 16 Pro Max:**\n\n\U{2022} **Camera ch\U{ED}nh 48MP Fusion:** Ch\U{1EE5}p \U{1EA3}nh kh\U{F4}ng \U{111}\U{1ED9} tr\U{1EC5}.\n\U{2022} **Telephoto 5x:** Zoom xa c\U{1EF1}c n\U{E9}t (\U{111}\U{1ED9}c quy\U{1EC1}n d\U{F2}ng Pro).\n\U{2022} **N\U{FA}t Camera Control:** Tr\U{1B0}\U{1EE3}t \U{111}\U{1EC3} zoom, nh\U{1EA5}n \U{111}\U{1EC3} ch\U{1EE5}p nh\U{1B0} m\U{E1}y \U{1EA3}nh c\U{1A1}.\n\U{2022} **Chip A18 Pro:** Chi\U{1EBF}n m\U{1ECD}i game AAA m\U{1B0}\U{1EE3}t m\U{E0}.\n\U{2022} **M\U{E0}n h\U{EC}nh 6.9 inch:** Kh\U{1ED5}ng l\U{1ED3} v\U{1EDB}i vi\U{1EC1}n m\U{1ECF}ng nh\U{1EA5}t t\U{1EEB} tr\U{1B0}\U{1EDB}c \U{111}\U{1EBF}n nay."
  const SpecsProSuggestions: seq<string> :=
    ["Xem video m\U{1EAB}u", "\U{110}\U{1EAD}p h\U{1ED9}p 16 Pro Max", "Gi\U{E1} b\U{1EA3}n 256GB"]

  const ForGamersText: string :=
    "\U{1F3AE} **D\U{E0}nh cho Game th\U{1EE7}:**\nKh\U{F4}ng g\U{EC} qua \U{111}\U{1B0}\U{1EE3}c **iPhone 16 Pro Max**. Chip A18 Pro c\U{F3} Ray Tracing nhanh h\U{1A1}n 20%, m\U{E0}n h\U{EC}nh 6.9 inch c\U{1EF1}c l\U{1EDB}n v\U{E0} t\U{1EA3}n nhi\U{1EC7}t graphene m\U{1EDB}i gi\U{FA}p m\U{E1}y m\U{E1}t h\U{1A1}n khi leo rank!"
  const ForGamersSuggestions: seq<string> :=
    ["\U{110}\U{1EB7}t c\U{1ECD}c ngay", "Gi\U{E1} b\U{1EA3}n 256GB", "Tay c\U{1EA7}m ch\U{1A1}i game"]

  const ForCreatorsText: string :=
    "\U{1F3AC} **D\U{E0}nh cho Content Creator:**\nB\U{1EA1}n n\U{EA}n ch\U{1ECD}n d\U{F2}ng Pro \U{111}\U{1EC3} c\U{F3} t\U{ED}nh n\U{103}ng **Audio Mix** (t\U{E1}ch ti\U{1EBF}ng \U{1ED3}n studio) v\U{E0} quay phim **4K 120fps**. Ch\U{1EA5}t l\U{1B0}\U{1EE3}ng phim nh\U{1B0} m\U{E1}y \U{111}i\U{1EC7}n \U{1EA3}nh chuy\U{EA}n nghi\U{1EC7}p lu\U{F4}n! \U{1F3A5}"
  const ForCreatorsSuggestions: seq<string> :=
    ["T\U{1B0} v\U{1EA5}n mic \U{111}i k\U{E8}m", "Th\U{1EBB} nh\U{1EDB} l\U{1B0}u tr\U{1EEF}", "Gi\U{E1} 512GB"]

  const HelloText: string :=
    "Ch\U{E0}o b\U{1EA1}n! M\U{EC}nh l\U{E0} AI t\U{1B0} v\U{1EA5}n chuy\U{EA}n s\U{E2}u c\U{1EE7}a Apple Store \U{1F44B}\n\nB\U{1EA1}n c\U{1EA7}n h\U{1ED7} tr\U{1EE3} g\U{EC} v\U{1EC1} **iPhone 16**, **Tr\U{1EA3} g\U{F3}p 0%**, hay **Thu c\U{169} \U{111}\U{1ED5}i m\U{1EDB}i** kh\U{F4}ng? M\U{EC}nh lu\U{F4}n s\U{1EB5}n s\U{E0}ng!"
  const HelloSuggestions: seq<string> :=
    ["iPhone 16 Pro c\U{F3} g\U{EC} m\U{1EDB}i?", "T\U{ED}nh gi\U{E1} iPhone 16", "\U{110}\U{1ECB}a ch\U{1EC9} c\U{1EED}a h\U{E0}ng"]

  const NotUnderstoodText: string :=
    "Xin l\U{1ED7}i, m\U{EC}nh ch\U{1B0}a hi\U{1EC3}u r\U{F5} y\U{EA}u c\U{1EA7}u. B\U{1EA1}n c\U{F3} th\U{1EC3} h\U{1ECF}i v\U{1EC1}:\n\n\U{2022} **Gi\U{E1}** c\U{E1}c d\U{F2}ng m\U{E1}y\n\U{2022} Chi ti\U{1EBF}t **Pin & Camera**\n\U{2022} Th\U{1EE7} t\U{1EE5}c **Tr\U{1EA3} g\U{F3}p/Thu c\U{169}**\n\U{2022} Ch\U{ED}nh s\U{E1}ch **Ship h\U{E0}ng 2h**\n\nHo\U{1EB7}c \U{111}\U{1EC3} l\U{1EA1}i s\U{1ED1} \U{111}i\U{1EC7}n tho\U{1EA1}i \U{111}\U{1EC3} nh\U{E2}n vi\U{EA}n g\U{1ECD}i l\U{1EA1}i t\U{1B0} v\U{1EA5}n nh\U{E9}! \U{FFFD}"
  const NotUnderstoodSuggestions: seq<string> :=
    ["Gi\U{E1} iPhone 16 Pro", "Ship h\U{E0}ng 2h", "Tr\U{1EA3} g\U{F3}p 0%"]

  /** Every text the assistant replies with: the info of the knowledge
      base's four entries, then the text of each other reply. */
  datatype Script = Script(
    delivery: string, warranty: string, installment: string, tradeIn: string,
    buyPro: string, buySixteen: string, buyWhich: string,
    pricePro: string, priceSixteen: string,
    colorsPro: string, colorsSixteen: string, colorsWhich: string,
    batteryPro: string, batteryAll: string, specsPro: string,
    forGamers: string, forCreators: string, hello: string, notUnderstood: string)

  /** The component's script. */
  const Texts: Script := Script(
    KnowledgeDelivery, KnowledgeWarranty, KnowledgeInstallment, KnowledgeTradeIn,
    BuyProText, BuySixteenText, BuyWhichText,
    PriceProText, PriceSixteenText,
    ColorsProText, ColorsSixteenText, ColorsWhichText,
    BatteryProText, BatteryAllText, SpecsProText,
    ForGamersText, ForCreatorsText, HelloText, NotUnderstoodText)

  /** The text of a reply in a script. */
  function TextOf(s: Script, r: Reply): string {
    match r
    case ShippingNote => s.delivery
    case WarrantyNote => s.warranty
    case TradeInNote => s.tradeIn
    case InstallmentNote => s.installment
    case BuyPro => s.buyPro
    case BuySixteen => s.buySixteen
    case BuyWhich => s.buyWhich
    case PricePro => s.pricePro
    case PriceSixteen => s.priceSixteen
    case ColorsPro => s.colorsPro
    case ColorsSixteen => s.colorsSixteen
    case ColorsWhich => s.colorsWhich
    case BatteryPro => s.batteryPro
    case BatteryAll => s.batteryAll
    case SpecsPro => s.specsPro
    case ForGamers => s.forGamers
    case ForCreators => s.forCreators
    case Hello => s.hello
    case NotUnderstood => s.notUnderstood
  }

  /** The suggestions offered with a reply. */
  function Suggestions(r: Reply): seq<string> {
    match r
    case BuyPro => BuyProSuggestions
    case BuySixteen => BuySixteenSuggestions
    case BuyWhich => BuyWhichSuggestions
    case ShippingNote => ShippingNoteSuggestions
    case WarrantyNote => WarrantyNoteSuggestions
    case TradeInNote => TradeInNoteSuggestions
    case InstallmentNote => InstallmentNoteSuggestions
    case PricePro => PriceProSuggestions
    case PriceSixteen => PriceSixteenSuggestions
    case ColorsPro => ColorsProSuggestions
    case ColorsSixteen => ColorsSixteenSuggestions
    case ColorsWhich => ColorsWhichSuggestions
    case BatteryPro => BatteryProSuggestions
    case BatteryAll => BatteryAllSuggestions
    case SpecsPro => SpecsProSuggestions
    case ForGamers => ForGamersSuggestions
    case ForCreators => ForCreatorsSuggestions
    case Hello => HelloSuggestions
    case NotUnderstood => NotUnderstoodSuggestions
  }

  /** `generateResponse`, given the analysis of the message: the first
      branch that applies — purchase before all else, the four knowledge
      base answers, price, colour, battery, specifications, advice — then a
      greeting, then the fallback. The greeting and the Pro Max phrase are
      matched against the message as typed, not trimmed. */
  function Answer(a: Analysis, message: string): (r: Reply)
    ensures a.intent == Purchase && AboutPro(a, message) ==> r == BuyPro
    ensures a.intent == Purchase && !AboutPro(a, message) && IPhone16 in a.entities ==> r == BuySixteen
    ensures a.intent == Purchase && !AboutPro(a, message) && IPhone16 !in a.entities ==> r == BuyWhich
    ensures a.intent == Delivery ==> r == ShippingNote
    ensures a.intent == Warranty ==> r == WarrantyNote
    ensures a.intent == TradeIn ==> r == TradeInNote
    ensures a.intent == Installment ==> r == InstallmentNote
    ensures a.intent == Price && AboutPro(a, message) ==> r == PricePro
    ensures a.intent == Price && !AboutPro(a, message) && IPhone16 in a.entities ==> r == PriceSixteen
    ensures a.intent == Price && !AboutPro(a, message) && IPhone16 !in a.entities ==> r == Fallback(message)
    ensures a.intent == Color && AboutPro(a, message) ==> r == ColorsPro
    ensures a.intent == Color && !AboutPro(a, message) && IPhone16 in a.entities ==> r == ColorsSixteen
    ensures a.intent == Color && !AboutPro(a, message) && IPhone16 !in a.entities ==> r == ColorsWhich
    ensures a.intent == Battery && AboutPro(a, message) ==> r == BatteryPro
    ensures a.intent == Battery && !AboutPro(a, message) ==> r == BatteryAll
    ensures a.intent in {Features, Camera} && AboutPro(a, message) ==> r == SpecsPro
    ensures a.intent in {Features, Camera} && !AboutPro(a, message) ==> r == Fallback(message)
    ensures a.intent == Recommend && ForGaming(message) ==> r == ForGamers
    ensures a.intent == Recommend && !ForGaming(message) && ForFilming(message) ==> r == ForCreators
    ensures a.intent == Recommend && !ForGaming(message) && !ForFilming(message) ==> r == Fallback(message)
    ensures a.intent in {General, Compare, Promotion} ==> r == Fallback(message)
  {
    var pro := AboutPro(a, message);
    var sixteen := IPhone16 in a.entities;
    if a.intent == Purchase then (if pro then BuyPro else if sixteen then BuySixteen else BuyWhich)
    else if a.intent == Delivery then ShippingNote
    else if a.intent == Warranty then WarrantyNote
    else if a.intent == TradeIn then TradeInNote
    else if a.intent == Installment then InstallmentNote
    else if a.intent == Price && pro then PricePro
    else if a.intent == Price && sixteen then PriceSixteen
    else if a.intent == Color then (if pro then ColorsPro else if sixteen then ColorsSixteen else ColorsWhich)
    else if a.intent == Battery then (if pro then BatteryPro else BatteryAll)
    else if (a.intent == Features || a.intent == Camera) && pro then SpecsPro
    else if a.intent == Recommend && ForGaming(message) then ForGamers
    else if a.intent == Recommend && ForFilming(message) then ForCreators
    else Fallback(message)
  }

  /** The delivery, warranty, trade-in and instalment questions are
      answered with the knowledge base's text for them, word for word,
      whatever the rest of the script says. */
  lemma KnowledgeAnswersQuoteTheBase(s: Script, a: Analysis, message: string)
    ensures a.intent == Delivery ==> TextOf(s, Answer(a, message)) == s.delivery
    ensures a.intent == Warranty ==> TextOf(s, Answer(a, message)) == s.warranty
    ensures a.intent == TradeIn ==> TextOf(s, Answer(a, message)) == s.tradeIn
    ensures a.intent == Installment ==> TextOf(s, Answer(a, message)) == s.installment
  {
    var r := Answer(a, message);
    assert a.intent == Delivery ==> r == ShippingNote;
    assert a.intent == Warranty ==> r == WarrantyNote;
    assert a.intent == TradeIn ==> r == TradeInNote;
    assert a.intent == Installment ==> r == InstallmentNote;
  }

  /** A message nothing applies to gets the fallback text. */
  lemma FallbackReply(s: Script, a: Analysis, message: string)
    requires a.intent in {General, Compare, Promotion} && !IsGreeting(message)
    ensures TextOf(s, Answer(a, message)) == s.notUnderstood
  {
    assert Answer(a, message) == NotUnderstood;
  }

  /** ... and the fallback's three suggestions. */
  lemma FallbackSuggestions(a: Analysis, message: string)
    requires a.intent in {General, Compare, Promotion} && !IsGreeting(message)
    ensures Suggestions(Answer(a, message)) == NotUnderstoodSuggestions && |NotUnderstoodSuggestions| == 3
  {
    assert Answer(a, message) == NotUnderstood;
  }

  /** A follow-up that names no product is about the product named before:
      after asking about the iPhone 16 Pro, "how much?" gets the Pro Max
      price list. */
  lemma FollowUpKeepsProduct(ctx: Context, first: string, second: string)
    requires Entities(Trim(first)) != [] && Entities(Trim(second)) == []
    ensures Analyze(Analyze(ctx, first).1, second).0.entities == [Entities(Trim(first))[0]]
    ensures var a := Analyze(Analyze(ctx, first).1, second).0;
      Entities(Trim(first))[0] == IPhone16Pro && Classify(Trim(second)).0 == Price ==> Answer(a, second) == PricePro
  {
    var ctx1 := Analyze(ctx, first).1;
    assert ctx1.lastEntity == Some(Entities(Trim(first))[0]);
  }

  /** A price question that names no model, at the start of a conversation,
      is not answered with a price: it is greeted or not understood. */
  lemma PriceWithoutModelIsNotAnswered(message: string)
    requires Entities(Trim(message)) == [] && !Contains(message, "pro max")
    requires Classify(Trim(message)).0 == Price
    ensures Answer(Analyze(Fresh, message).0, message) in {Hello, NotUnderstood}
  {
  }

  /** A message worth answering: not blank once trimmed. Sending a blank
      one does nothing at all. */
  predicate Spoken(message: string) {
    Trim(message) != ""
  }

  /** The context a conversation leaves behind, without the replies: each
      message that is not blank analysed in turn. */
  function Remembered(ctx: Context, messages: seq<string>): Context
    decreases |messages|
  {
    if messages == [] then ctx
    else if !Spoken(messages[0]) then Remembered(ctx, messages[1..])
    else Remembered(Analyze(ctx, messages[0]).1, messages[1..])
  }

  /** A conversation: each message that is not blank answered in the
      context the previous ones left; blank ones are skipped. */
  function Converse(ctx: Context, messages: seq<string>): (r: (seq<Reply>, Context))
    ensures |r.0| == |Filter(messages, Spoken)|
    ensures messages != [] && Spoken(messages[0]) ==> r.0[0] == Answer(Analyze(ctx, messages[0]).0, messages[0])
    ensures Filter(messages, Spoken) == [] ==> r == ([], ctx)
    ensures r.1 == Remembered(ctx, messages)
    ensures ctx.lastEntity.Some? ==> r.1.lastEntity.Some?
    decreases |messages|
  {
    if messages == [] then ([], ctx)
    else
      FilterCons(messages, Spoken);
      if !Spoken(messages[0]) then Converse(ctx, messages[1..])
      else
        var (a, next) := Analyze(ctx, messages[0]);
        var (rest, last) := Converse(next, messages[1..]);
        ([Answer(a, messages[0])] + rest, last)
  }

  /** The intent remembered after a conversation is that of its last
      message that is not blank. */
  lemma ConverseRemembersLastIntent(ctx: Context, messages: seq<string>)
    ensures var said := Filter(messages, Spoken);
      said != [] ==> Converse(ctx, messages).1.lastIntent == Some(Classify(Trim(said[|said| - 1])).0)
  {
    RememberedLastIntent(ctx, messages);
  }

  lemma {:induction false} RememberedLastIntent(ctx: Context, messages: seq<string>)
    ensures var said := Filter(messages, Spoken);
      said != [] ==> Remembered(ctx, messages).lastIntent == Some(Classify(Trim(said[|said| - 1])).0)
    ensures Filter(messages, Spoken) == [] ==> Remembered(ctx, messages) == ctx
    decreases |messages|
  {
    if messages != [] {
      var m := messages[0];
      var said := Filter(messages, Spoken);
      var tail := Filter(messages[1..], Spoken);
      FilterCons(messages, Spoken);
      if Spoken(m) {
        var next := Analyze(ctx, m).1;
        assert said == [m] + tail;
        RememberedLastIntent(next, messages[1..]);
        if tail == [] {
          assert said[|said| - 1] == m;
          AnalyzeSetsIntent(ctx, m);
        } else {
          assert said[|said| - 1] == tail[|tail| - 1];
        }
      } else {
        assert said == tail;
        RememberedLastIntent(ctx, messages[1..]);
      }
    }
  }

  /** One message leaves the context remembering its intent. */
  lemma AnalyzeSetsIntent(ctx: Context, message: string)
    ensures Analyze(ctx, message).1.lastIntent == Some(Classify(Trim(message)).0)
  {
  }

  /** A blank message anywhere in a conversation changes nothing: not the
      replies, not the context left behind. */
  lemma {:induction false} BlankMessageIgnored(ctx: Context, before: seq<string>, m: string, after: seq<string>)
    requires !Spoken(m)
    ensures Converse(ctx, before + [m] + after) == Converse(ctx, before + after)
    decreases |before|
  {
    if before == [] {
      assert before + [m] + after == [m] + after;
      assert ([m] + after)[1..] == after;
      assert before + after == after;
    } else {
      var b := before[0];
      assert (before + [m] + after)[0] == b && (before + after)[0] == b;
      assert (before + [m] + after)[1..] == before[1..] + [m] + after;
      assert (before + after)[1..] == before[1..] + after;
      if Spoken(b) {
        BlankMessageIgnored(Analyze(ctx, b).1, before[1..], m, after);
      } else {
        BlankMessageIgnored(ctx, before[1..], m, after);
      }
    }
  }

  /** The entity a message names first, if any. */
  function Named(message: string): Option<Entity> {
    var found := Entities(Trim(message));
    if found != [] then Some(found[0]) else None
  }

  /** The entity a context is left remembering, defined from the end: the
      last one named, or the starting one when none is. */
  function LastNamed(initial: Option<Entity>, named: seq<Option<Entity>>): Option<Entity>
    decreases |named|
  {
    if named == [] then initial
    else if named[|named| - 1].Some? then named[|named| - 1]
    else LastNamed(initial, named[..|named| - 1])
  }

  /** Reading the first message on its own, then the rest, gives the same. */
  lemma {:induction false} LastNamedCons(initial: Option<Entity>, n: Option<Entity>, rest: seq<Option<Entity>>)
    ensures LastNamed(initial, [n] + rest) == LastNamed(LastNamed(initial, [n]), rest)
    decreases |rest|
  {
    if rest == [] {
      assert [n] + rest == [n];
    } else {
      var all := [n] + rest;
      var front := rest[..|rest| - 1];
      assert all[..|all| - 1] == [n] + front;
      assert all[|all| - 1] == rest[|rest| - 1];
      LastNamedCons(initial, n, front);
    }
  }

  /** One message leaves the context remembering the entity it names, or
      what it remembered before. */
  lemma AnalyzeRemembers(ctx: Context, message: string)
    ensures Analyze(ctx, message).1.lastEntity == LastNamed(ctx.lastEntity, [Named(message)])
  {
    assert [Named(message)][..0] == [];
  }

  /** A blank message names nothing. */
  lemma BlankNamesNothing(message: string)
    requires !Spoken(message)
    ensures Named(message) == None
  {
    assert Entities("") == [];
  }

  /** The remembered entity after a conversation is the last one a message
      named, and the starting one if none did; blank messages name none. */
  lemma ContextRemembersLastNamed(ctx: Context, messages: seq<string>)
    ensures Converse(ctx, messages).1.lastEntity == LastNamed(ctx.lastEntity, Map(messages, Named))
  {
    RememberedLastNamed(ctx, messages);
  }

  lemma {:induction false} RememberedLastNamed(ctx: Context, messages: seq<string>)
    ensures Remembered(ctx, messages).lastEntity == LastNamed(ctx.lastEntity, Map(messages, Named))
    decreases |messages|
  {
    if messages != [] {
      var m := messages[0];
      MapCons(messages, Named);
      LastNamedCons(ctx.lastEntity, Named(m), Map(messages[1..], Named));
      if Spoken(m) {
        AnalyzeRemembers(ctx, m);
        RememberedLastNamed(Analyze(ctx, m).1, messages[1..]);
      } else {
        BlankNamesNothing(m);
        assert [Named(m)][..0] == [];
        RememberedLastNamed(ctx, messages[1..]);
      }
    }
  }
}

=== FILE: checkout.dfy ===
/** Placing an order (`handleSubmit` of `app/checkout/page.tsx`). The
    handler's effects are recorded as a trace of events, in the order they
    happen; the two API calls are oracles whose outcome is a parameter. */
module Checkout {
  import opened Optional
  import opened Text
  import opened Js
  import opened Api

  /** The signed-in user as the page sees it. */
  datatype User = User(id: Value, email: Value)

  /** The shipping form. */
  datatype Shipping = Shipping(fullName: string, phone: string, address: string, city: string, note: string)

  /** What the handler does, in order. */
  datatype Event =
    | LoadingOn
    | CallCheckout(order: Value)
    | CallSendMail(mail: Value)
    | ClearCart
    | ToastSuccess
    | Navigate(path: string)
    | ToastError(message: string)
    | LoadingOff

  /** The payment method selected when the page opens. */
  const DefaultPaymentMethod: string := "cod"

  /** The values of the three payment radio buttons. */
  const PaymentMethods: seq<string> := ["cod", "bank", "momo"]

  const OrderFailed: string := "Kh\U{F4}ng th\U{1EC3} \U{111}\U{1EB7}t h\U{E0}ng. Vui l\U{F2}ng th\U{1EED} l\U{1EA1}i."

  /** The address line sent with the order: address and city separated by
      a comma, then the note in parentheses when there is one. */
  function FullAddress(info: Shipping): (r: string)
    ensures |r| == |info.address| + 2 + |info.city| + (if info.note == "" then 0 else |info.note| + 3)
    ensures r[..|info.address| + 2 + |info.city|] == info.address + ", " + info.city
    ensures info.note == "" ==> r == info.address + ", " + info.city
    ensures info.note != "" ==> r[|info.address| + 2 + |info.city|..] == " (" + info.note + ")"
  {
    var head := info.address + ", " + info.city;
    var r := head + (if info.note != "" then " (" + info.note + ")" else "");
    assert r[..|head|] == head;
    r
  }

  /** For a given address and city, different notes give different
      address lines, so the note is never lost. */
  lemma FullAddressKeepsNote(a: Shipping, b: Shipping)
    requires a.address == b.address && a.city == b.city
    requires FullAddress(a) == FullAddress(b)
    ensures a.note == b.note
  {
    var n := |a.address| + 2 + |a.city|;
    var ra := FullAddress(a);
    if a.note != "" && b.note != "" {
      var ta := ra[n..];
      assert ta[2..|ta| - 1] == a.note;
      assert ta[2..|ta| - 1] == b.note;
    }
  }

  /** The order payload: the cart items unchanged, the cart total, and
      the shipping, payment and user details, under the backend's keys. */
  function OrderPayload(user: User, items: seq<Value>, total: int, info: Shipping, payment: string): (r: Value)
    ensures r.Obj? && r.fields.Keys ==
      {"user_id", "items", "total_amount", "shipping_address", "phone", "payment_method", "recipient_name", "email"}
    ensures Get(r, "items") == Arr(items) && Get(r, "total_amount") == Num(total)
    ensures Get(r, "user_id") == user.id && Get(r, "email") == user.email
    ensures Get(r, "shipping_address") == Str(FullAddress(info))
    ensures Get(r, "phone") == Str(info.phone) && Get(r, "recipient_name") == Str(info.fullName)
    ensures Get(r, "payment_method") == Str(payment)
  {
    Obj(map[
      "user_id" := user.id,
      "items" := Arr(items),
      "total_amount" := Num(total),
      "shipping_address" := Str(FullAddress(info)),
      "phone" := Str(info.phone),
      "payment_method" := Str(payment),
      "recipient_name" := Str(info.fullName),
      "email" := user.email])
  }

  /** The order id quoted in the confirmation mail:
      `result.order_id || result.id || 'N/A'`. */
  function MailOrderId(result: Value): (r: Value)
    ensures Truthy(r) || r == Str("N/A")
    ensures Truthy(Get(result, "order_id")) ==> r == Get(result, "order_id")
    ensures !Truthy(Get(result, "order_id")) && Truthy(Get(result, "id")) ==> r == Get(result, "id")
    ensures !Truthy(Get(result, "order_id")) && !Truthy(Get(result, "id")) ==> r == Str("N/A")
  {
    var vs := [Get(result, "order_id"), Get(result, "id")];
    assert vs[0] == Get(result, "order_id") && vs[1] == Get(result, "id");
    Coalesce(vs, Str("N/A"))
  }

  /** The confirmation mail payload. */
  function MailPayload(user: User, result: Value, items: seq<Value>, total: int): (r: Value)
    ensures r.Obj? && r.fields.Keys == {"email", "order_id", "total_amount", "items"}
    ensures Get(r, "email") == user.email && Get(r, "order_id") == MailOrderId(result)
    ensures Get(r, "total_amount") == Num(total) && Get(r, "items") == Arr(items)
  {
    Obj(map[
      "email" := user.email,
      "order_id" := MailOrderId(result),
      "total_amount" := Num(total),
      "items" := Arr(items)])
  }

  /** `handleSubmit`. `placed` is how `checkoutApi` settles and `mailed`
      how `sendMailApi` settles. Reading `result.order_id` of a null result
      throws inside the mail's own `try`, so no mail is sent; a failing mail
      is swallowed either way. */
  function Submit(
    user: Option<User>, items: seq<Value>, total: int, info: Shipping, payment: string,
    placed: Outcome, mailed: Outcome): (t: seq<Event>)
    ensures user.None? ==> t == []
    ensures user.Some? && placed.Throws? ==>
      t == [LoadingOn, CallCheckout(OrderPayload(user.value, items, total, info, payment)),
            ToastError(ErrorText(placed.message, OrderFailed)), LoadingOff]
    ensures user.Some? && placed.Returns? && !Present(placed.data) ==>
      t == [LoadingOn, CallCheckout(OrderPayload(user.value, items, total, info, payment)),
            ClearCart, ToastSuccess, Navigate("/profile"), LoadingOff]
    ensures user.Some? && placed.Returns? && Present(placed.data) ==>
      t == [LoadingOn, CallCheckout(OrderPayload(user.value, items, total, info, payment)),
            CallSendMail(MailPayload(user.value, placed.data, items, total)),
            ClearCart, ToastSuccess, Navigate("/profile"), LoadingOff]
  {
    match user
    case None => []
    case Some(u) =>
      var call := CallCheckout(OrderPayload(u, items, total, info, payment));
      match placed
      case Throws(m) => [LoadingOn, call, ToastError(ErrorText(m, OrderFailed)), LoadingOff]
      case Returns(result) =>
        if Access(result, "order_id").None? then
          [LoadingOn, call, ClearCart, ToastSuccess, Navigate("/profile"), LoadingOff]
        else
          [LoadingOn, call, CallSendMail(MailPayload(u, result, items, total)),
           ClearCart, ToastSuccess, Navigate("/profile"), LoadingOff]
  }

  /** The cart is cleared exactly when the order call succeeds, and then
      only after that call. */
  lemma ClearCartOnlyAfterOrder(
    user: Option<User>, items: seq<Value>, total: int, info: Shipping, payment: string,
    placed: Outcome, mailed: Outcome)
    ensures var t := Submit(user, items, total, info, payment, placed, mailed);
      ClearCart in t <==> user.Some? && placed.Returns?
    ensures var t := Submit(user, items, total, info, payment, placed, mailed);
      user.Some? ==> t[1].CallCheckout? && ClearCart !in t[..2]
  {
    var t := Submit(user, items, total, info, payment, placed, mailed);
    if user.Some? {
      var call := CallCheckout(OrderPayload(user.value, items, total, info, payment));
      if placed.Throws? {
        assert t == [LoadingOn, call, ToastError(ErrorText(placed.message, OrderFailed)), LoadingOff];
      } else if Present(placed.data) {
        var mail := CallSendMail(MailPayload(user.value, placed.data, items, total));
        assert t == [LoadingOn, call, mail, ClearCart, ToastSuccess, Navigate("/profile"), LoadingOff];
      } else {
        assert t == [LoadingOn, call, ClearCart, ToastSuccess, Navigate("/profile"), LoadingOff];
      }
    }
  }

  /** Success shows the success toast and goes to the profile page as the
      last step before the loading flag is cleared; failure does neither. */
  lemma SuccessGoesToProfile(
    user: Option<User>, items: seq<Value>, total: int, info: Shipping, payment: string,
    placed: Outcome, mailed: Outcome)
    ensures var t := Submit(user, items, total, info, payment, placed, mailed);
      user.Some? && placed.Returns? ==> ToastSuccess in t && t[|t| - 2] == Navigate("/profile")
    ensures var t := Submit(user, items, total, info, payment, placed, mailed);
      placed.Throws? ==> ToastSuccess !in t && (forall p :: Navigate(p) !in t)
  {
    var t := Submit(user, items, total, info, payment, placed, mailed);
    if user.Some? {
      var call := CallCheckout(OrderPayload(user.value, items, total, info, payment));
      if placed.Throws? {
        assert t == [LoadingOn, call, ToastError(ErrorText(placed.message, OrderFailed)), LoadingOff];
      } else if Present(placed.data) {
        var mail := CallSendMail(MailPayload(user.value, placed.data, items, total));
        assert t == [LoadingOn, call, mail, ClearCart, ToastSuccess, Navigate("/profile"), LoadingOff];
      } else {
        assert t == [LoadingOn, call, ClearCart, ToastSuccess, Navigate("/profile"), LoadingOff];
      }
    }
  }

  /** A failing confirmation mail changes nothing. `Submit` takes the mail
      call's outcome as a parameter and never reads it, because the page
      wraps `sendMailApi` in its own `try` whose `catch` only logs; this
      lemma records that reading of the code rather than proving a
      separate fact. */
  lemma MailFailureDoesNotBlock(
    user: Option<User>, items: seq<Value>, total: int, info: Shipping, payment: string,
    placed: Outcome, mailed1: Outcome, mailed2: Outcome)
    ensures Submit(user, items, total, info, payment, placed, mailed1)
         == Submit(user, items, total, info, payment, placed, mailed2)
  {
  }

  /** When the order call succeeds but returns no data (an OK response that
      is not JSON), no mail is sent and the order still succeeds. */
  lemma NullResultSkipsMail(user: User, items: seq<Value>, total: int, info: Shipping, payment: string, mailed: Outcome)
    ensures var t := Submit(Some(user), items, total, info, payment, Returns(Null), mailed);
      t == [LoadingOn, CallCheckout(OrderPayload(user, items, total, info, payment)),
            ClearCart, ToastSuccess, Navigate("/profile"), LoadingOff]
  {
  }

  /** The loading flag is set once at the start and cleared once at the
      end, on every path where there is a user. */
  lemma LoadingBracketsSubmit(
    user: User, items: seq<Value>, total: int, info: Shipping, payment: string,
    placed: Outcome, mailed: Outcome)
    ensures var t := Submit(Some(user), items, total, info, payment, placed, mailed);
      forall i :: 0 <= i < |t| ==> (t[i] == LoadingOn <==> i == 0) && (t[i] == LoadingOff <==> i == |t| - 1)
  {
    var t := Submit(Some(user), items, total, info, payment, placed, mailed);
    {
      var call := CallCheckout(OrderPayload(user, items, total, info, payment));
      if placed.Throws? {
        assert t == [LoadingOn, call, ToastError(ErrorText(placed.message, OrderFailed)), LoadingOff];
      } else if Present(placed.data) {
        var mail := CallSendMail(MailPayload(user, placed.data, items, total));
        assert t == [LoadingOn, call, mail, ClearCart, ToastSuccess, Navigate("/profile"), LoadingOff];
      } else {
        assert t == [LoadingOn, call, ClearCart, ToastSuccess, Navigate("/profile"), LoadingOff];
      }
    }
  }

  /** `disabled={isLoading}` on the submit button, after the events of a
      handler run so far (the button starts enabled): the last `LoadingOn`
      or `LoadingOff` decides, and without either the button is enabled. */
  function SubmitDisabled(done: seq<Event>): (r: bool)
    ensures done != [] && done[|done| - 1] == LoadingOn ==> r
    ensures done != [] && done[|done| - 1] == LoadingOff ==> !r
    ensures LoadingOn !in done ==> !r
    decreases |done|
  {
    if done == [] then false
    else if done[|done| - 1] == LoadingOn then true
    else if done[|done| - 1] == LoadingOff then false
    else SubmitDisabled(done[..|done| - 1])
  }

  /** Once `LoadingOn` opens a run, the button stays disabled until a
      `LoadingOff`. */
  lemma {:induction false} OnUntilOff(t: seq<Event>, k: nat)
    requires 0 < k <= |t| && t[0] == LoadingOn
    requires forall j :: 0 < j < k ==> t[j] != LoadingOff
    ensures SubmitDisabled(t[..k])
    decreases k
  {
    if k > 1 && t[k - 1] != LoadingOn {
      OnUntilOff(t, k - 1);
      assert t[..k][..k - 1] == t[..k - 1];
    }
  }

  /** The submit button is disabled at every point inside a run of the
      handler, so a second order cannot be started while one is in flight,
      and it is enabled again once the run ends, whatever the outcome. */
  lemma SubmitDisabledWhileInFlight(
    user: User, items: seq<Value>, total: int, info: Shipping, payment: string,
    placed: Outcome, mailed: Outcome)
    ensures var t := Submit(Some(user), items, total, info, payment, placed, mailed);
      (forall k :: 0 < k < |t| ==> SubmitDisabled(t[..k])) && !SubmitDisabled(t)
  {
    var t := Submit(Some(user), items, total, info, payment, placed, mailed);
    LoadingBracketsSubmit(user, items, total, info, payment, placed, mailed);
    assert t[0] == LoadingOn && t[|t| - 1] == LoadingOff;
    forall k | 0 < k < |t|
      ensures SubmitDisabled(t[..k])
    {
      OnUntilOff(t, k);
    }
  }
}

=== FILE: class_names.dfy ===
/** The class-name helper of the admin dashboard (`app/admin/page.tsx`):
    `cn(...inputs)` keeps the truthy inputs and joins them with spaces. */
module ClassNames {
  import opened Text
  import opened Js
  import opened Lists

  /** The inputs `cn` keeps, in their order. */
  function Kept(inputs: seq<Value>): (r: seq<Value>)
    ensures forall i :: 0 <= i < |r| ==> Truthy(r[i]) && r[i] in inputs
    ensures forall i :: 0 <= i < |inputs| && Truthy(inputs[i]) ==> inputs[i] in r
  {
    Filter(inputs, Truthy)
  }

  /** `inputs.filter(Boolean).join(' ')`. */
  function Cn(inputs: seq<Value>): string {
    Join(Map(Kept(inputs), ToStr), " ")
  }

  /** No inputs, or only falsy ones, give the empty string. */
  lemma CnOfFalsy(inputs: seq<Value>)
    requires forall i :: 0 <= i < |inputs| ==> !Truthy(inputs[i])
    ensures Cn(inputs) == ""
  {
    FilterNone(inputs, Truthy);
  }

  /** `cn` read one input at a time: a falsy input adds nothing, a truthy
      one is printed in front of the rest, with one space between when the
      rest is not empty. */
  lemma CnCons(v: Value, rest: seq<Value>)
    ensures !Truthy(v) ==> Cn([v] + rest) == Cn(rest)
    ensures Truthy(v) && Kept(rest) == [] ==> Cn([v] + rest) == ToStr(v)
    ensures Truthy(v) && Kept(rest) != [] ==> Cn([v] + rest) == ToStr(v) + " " + Cn(rest)
  {
    FilterConcat([v], rest, Truthy);
    var tail := Map(Kept(rest), ToStr);
    if Truthy(v) {
      assert Kept([v]) == [v];
      assert Map(Kept([v] + rest), ToStr) == [ToStr(v)] + tail;
      if Kept(rest) != [] {
        JoinCons(ToStr(v), tail, " ");
      }
    } else {
      assert Kept([v]) == [];
      assert Kept([v] + rest) == Kept(rest);
    }
  }

  /** With class names free of spaces, splitting the result on spaces gives
      back exactly the kept inputs, in order: each pair is separated by one
      space and nothing is reordered or merged. */
  lemma CnSplitsBack(inputs: seq<Value>)
    requires exists i :: 0 <= i < |inputs| && Truthy(inputs[i])
    requires forall i :: 0 <= i < |inputs| && Truthy(inputs[i]) ==> inputs[i].Str? && ' ' !in inputs[i].s
    ensures Split(Cn(inputs), ' ') == Map(Kept(inputs), ToStr)
  {
    var kept := Kept(inputs);
    var parts := Map(kept, ToStr);
    var i :| 0 <= i < |inputs| && Truthy(inputs[i]);
    assert inputs[i] in kept;
    forall j | 0 <= j < |parts|
      ensures ' ' !in parts[j]
    {
      assert kept[j] in inputs;
    }
    assert " " == [' '];
    SplitJoin(parts, ' ');
  }

  /** A truthy value other than an array never prints as the empty string. */
  lemma TruthyPrintsSomething(v: Value)
    requires Truthy(v) && !v.Arr?
    ensures ToStr(v) != ""
  {
    if v.Num? {
      assert |NatToString(if v.n < 0 then -v.n else v.n)| >= 1;
    }
  }

  /** Without array inputs, `cn` gives the empty string only when every
      input is falsy. */
  lemma CnEmptyOnlyWhenAllFalsy(inputs: seq<Value>)
    requires forall i :: 0 <= i < |inputs| ==> !inputs[i].Arr?
    ensures Cn(inputs) == "" <==> forall i :: 0 <= i < |inputs| ==> !Truthy(inputs[i])
  {
    if forall i :: 0 <= i < |inputs| ==> !Truthy(inputs[i]) {
      CnOfFalsy(inputs);
    }
    if exists i :: 0 <= i < |inputs| && Truthy(inputs[i]) {
      var i :| 0 <= i < |inputs| && Truthy(inputs[i]);
      var kept := Kept(inputs);
      assert inputs[i] in kept;
      assert kept[0] in inputs;
      TruthyPrintsSomething(kept[0]);
      var parts := Map(kept, ToStr);
      assert parts[0] != "";
      if |parts| > 1 {
        assert Join(parts, " ") == parts[0] + " " + Join(parts[1..], " ");
      }
    }
  }
}

=== FILE: js.dfy ===
/** JavaScript's dynamic values as the storefront meets them in API payloads
    and component state, and the coercions its components apply to them:
    truthiness, `a || b || c`, property reads, `Number(...)`, `String(...)`
    and `===`. Numbers are integers (VND amounts, quantities, ids, status
    codes); a fractional number is outside the model. */
module Js {
  import opened Optional
  import opened Text

  datatype Value =
    | Undefined
    | Null
    | Bool(b: bool)
    | Num(n: int)
    | Str(s: string)
    | Arr(elems: seq<Value>)
    | Obj(fields: map<string, Value>)

  /** JS truthiness: `undefined`, `null`, `false`, `0` and `''` are falsy;
      every array and object, even an empty one, is truthy. */
  predicate Truthy(v: Value) {
    match v
    case Undefined => false
    case Null => false
    case Bool(b) => b
    case Num(n) => n != 0
    case Str(s) => s != ""
    case _ => true
  }

  /** `a || b`: `a` when it is truthy, otherwise `b` whatever `b` is. */
  function Or(a: Value, b: Value): Value {
    if Truthy(a) then a else b
  }

  /** Index of the first truthy value of `vs`, if there is one. */
  function FirstTruthy(vs: seq<Value>): (r: Option<nat>)
    ensures r.Some? ==> r.value < |vs| && Truthy(vs[r.value])
    ensures r.Some? ==> forall j :: 0 <= j < r.value ==> !Truthy(vs[j])
    ensures r.None? ==> forall j :: 0 <= j < |vs| ==> !Truthy(vs[j])
    decreases |vs|
  {
    if |vs| == 0 then None
    else if Truthy(vs[0]) then Some(0)
    else match FirstTruthy(vs[1..])
      case None => None
      case Some(i) => Some(i + 1)
  }

  /** The chain `vs[0] || vs[1] || ... || last`: the first truthy operand,
      or the last operand when none of the others is truthy. */
  function Coalesce(vs: seq<Value>, last: Value): (r: Value)
    ensures Truthy(r) || r == last
    ensures (forall j :: 0 <= j < |vs| ==> !Truthy(vs[j])) ==> r == last
    ensures forall i :: 0 <= i < |vs| && Truthy(vs[i]) && (forall j :: 0 <= j < i ==> !Truthy(vs[j])) ==> r == vs[i]
  {
    match FirstTruthy(vs)
    case Some(i) => vs[i]
    case None => last
  }

  /** `v?.k`: a property read that never throws. A missing key, any
      property of a primitive, and any property of null or undefined read as
      undefined. A plain `v.k` throws on null or undefined; where that throw
      changes what a page does, the model reads with `Access` instead. */
  function Get(v: Value, k: string): (r: Value)
  {
    match v
    case Obj(m) => if k in m then m[k] else Undefined
    case _ => Undefined
  }

  /** Strict `v.k`: on null or undefined it throws a TypeError (None). */
  function Access(v: Value, k: string): (r: Option<Value>)
    ensures r.None? <==> v == Null || v == Undefined
    ensures r.Some? ==> r.value == Get(v, k)
  {
    if v == Null || v == Undefined then None else Some(Get(v, k))
  }

  /** `{ ...v, [k]: x }`: the spread object with one field replaced. */
  function With(v: Value, k: string, x: Value): (r: Value)
    ensures r.Obj? && r.fields.Keys == (if v.Obj? then v.fields.Keys else {}) + {k}
    ensures Get(r, k) == x
    ensures forall j :: j != k ==> Get(r, j) == Get(v, j)
  {
    var m := if v.Obj? then v.fields else map[];
    Obj(m[k := x])
  }

  /** Neither undefined nor null: what `?.` lets through. */
  predicate Present(v: Value) {
    v != Undefined && v != Null
  }

  /** `v?.toString()`: undefined for null and undefined, else the string. */
  function ToStringOpt(v: Value): (r: Value)
    ensures !Present(v) ==> r == Undefined
    ensures Present(v) ==> r == Str(ToStr(v))
  {
    if Present(v) then Str(ToStr(v)) else Undefined
  }

  /** `a === b`. Primitives compare by value; arrays and objects compare by
      identity, which the model does not track, so they are never equal. */
  predicate StrictEq(a: Value, b: Value) {
    a == b && !a.Arr? && !a.Obj?
  }

  /** `v == s` for a string `s` (loose equality): a number or boolean is
      compared with the number the string reads as, an array or object with
      its string form; null and undefined equal no string. */
  predicate LooseEqString(v: Value, s: string) {
    match v
    case Undefined => false
    case Null => false
    case Bool(b) => StringToNumber(s) == Finite(if b then 1 else 0)
    case Num(n) => StringToNumber(s) == Finite(n)
    case Str(t) => t == s
    case Arr(_) => ToStr(v) == s
    case Obj(_) => s == "[object Object]"
  }

  /** A JS number as the model sees it: an integer or NaN. */
  datatype Numeric = Finite(n: int) | NaN {

    /** Falsy for 0 and for NaN. */
    predicate Truthy() {
      Finite? && n != 0
    }

    /** `x || 0`. */
    function OrZero(): int {
      if Finite? then n else 0
    }
  }

  /** `a + b`; NaN absorbs. */
  function Add(a: Numeric, b: Numeric): Numeric {
    if a.Finite? && b.Finite? then Finite(a.n + b.n) else NaN
  }

  /** `a * b`; NaN absorbs. */
  function Mul(a: Numeric, b: Numeric): Numeric {
    if a.Finite? && b.Finite? then Finite(a.n * b.n) else NaN
  }

  predicate IsDigit(c: char) {
    '0' <= c <= '9'
  }

  predicate AllDigits(s: string) {
    forall i :: 0 <= i < |s| ==> IsDigit(s[i])
  }

  /** The value of a decimal digit string. */
  function DigitsValue(s: string): nat
    requires AllDigits(s)
    decreases |s|
  {
    if |s| == 0 then 0
    else DigitsValue(s[..|s| - 1]) * 10 + (s[|s| - 1] as int - '0' as int)
  }

  /** The decimal numeral of `n`, as `String(n)` prints it. */
  function NatToString(n: nat): (r: string)
    ensures |r| >= 1 && AllDigits(r)
    ensures DigitsValue(r) == n
    decreases n
  {
    if n < 10 then [('0' as int + n) as char]
    else
      var head := NatToString(n / 10);
      var r := head + [('0' as int + n % 10) as char];
      assert r[..|r| - 1] == head;
      r
  }

  /** `String(n)` for an integer. */
  function IntToString(n: int): string {
    if n < 0 then "-" + NatToString(-n) else NatToString(n)
  }

  /** The value of an already trimmed numeral: the empty string is 0, an
      optionally signed run of decimal digits is its value, anything else
      is NaN. */
  function Numeral(t: string): Numeric {
    if t == "" then Finite(0)
    else if |t| > 1 && t[0] == '-' && AllDigits(t[1..]) then Finite(-(DigitsValue(t[1..]) as int))
    else if |t| > 1 && t[0] == '+' && AllDigits(t[1..]) then Finite(DigitsValue(t[1..]))
    else if AllDigits(t) then Finite(DigitsValue(t))
    else NaN
  }

  /** `Number(s)` for a string: surrounding white space is ignored and the
      rest is read as a numeral. */
  function StringToNumber(s: string): Numeric {
    Numeral(Trim(s))
  }

  /** `String(v)`: arrays print their elements joined by commas, with null
      and undefined elements printed as empty strings. */
  function ToStr(v: Value): (r: string)
    decreases v
  {
    match v
    case Undefined => "undefined"
    case Null => "null"
    case Bool(b) => if b then "true" else "false"
    case Num(n) => IntToString(n)
    case Str(s) => s
    case Arr(es) =>
      Join(seq(|es|, i requires 0 <= i < |es| =>
        if es[i] == Null || es[i] == Undefined then "" else ToStr(es[i])), ",")
    case Obj(_) => "[object Object]"
  }

  /** `Number(v)`, partial: NaN where JavaScript gives NaN, and also for
      fractional numerals, which the integer model leaves out. */
  function ToNumber(v: Value): (r: Numeric)
    ensures v == Undefined ==> r == NaN
    ensures v == Null || v == Str("") ==> r == Finite(0)
  {
    match v
    case Undefined => NaN
    case Null => Finite(0)
    case Bool(b) => Finite(if b then 1 else 0)
    case Num(n) => Finite(n)
    case Str(s) => StringToNumber(s)
    case Arr(_) => StringToNumber(ToStr(v))
    case Obj(_) => NaN
  }

  /** A string with no white space is its own trim. */
  lemma TrimNoSpace(s: string)
    requires forall i :: 0 <= i < |s| ==> !IsSpace(s[i])
    ensures Trim(s) == s
  {
  }

  /** An unsigned run of digits is read as its decimal value. */
  lemma NumeralOfDigits(t: string)
    requires |t| >= 1 && AllDigits(t)
    ensures Numeral(t) == Finite(DigitsValue(t))
  {
    assert IsDigit(t[0]);
  }

  /** A run of digits has no white space to trim. */
  lemma TrimDigits(t: string)
    requires AllDigits(t)
    ensures Trim(t) == t
  {
    assert forall i :: 0 <= i < |t| ==> IsDigit(t[i]);
    TrimNoSpace(t);
  }

  /** `Number` reads a printed natural number back. */
  lemma NumberOfPrintedNat(n: nat)
    ensures StringToNumber(NatToString(n)) == Finite(n)
  {
    var t := NatToString(n);
    TrimDigits(t);
    NumeralOfDigits(t);
  }

  /** No decimal digit is white space. */
  lemma DigitIsNotSpace(c: char)
    requires IsDigit(c)
    ensures !IsSpace(c)
  {
  }

  /** `Number` reads a printed negative number back. */
  lemma NumberOfPrintedNegative(n: int)
    requires n < 0
    ensures StringToNumber(IntToString(n)) == Finite(n)
  {
    var d := NatToString(-n);
    var t := "-" + d;
    assert t == IntToString(n);
    assert |t| > 1 && t[0] == '-' && t[1..] == d;
    forall i | 0 <= i < |t|
      ensures !IsSpace(t[i])
    {
      if i > 0 {
        assert t[i] == d[i - 1];
        DigitIsNotSpace(d[i - 1]);
      }
    }
    TrimNoSpace(t);
    assert Numeral(t) == Finite(-(DigitsValue(d) as int));
  }

  /** `Number(String(n)) === n`: reading back a printed integer gives it back. */
  lemma NumberOfPrintedInt(n: int)
    ensures ToNumber(Str(IntToString(n))) == Finite(n)
  {
    var t := IntToString(n);
    assert ToNumber(Str(t)) == StringToNumber(t);
    if n < 0 {
      NumberOfPrintedNegative(n);
    } else {
      NumberOfPrintedNat(n);
    }
  }

  /** A numeral written from `Num(n)` is the same number for `Number`. */
  lemma NumberOfStringOfNum(n: int)
    ensures ToNumber(Str(ToStr(Num(n)))) == ToNumber(Num(n))
  {
    NumberOfPrintedInt(n);
  }
}

=== FILE: lists.dfy ===
/** The array operations the admin screens and the order list use:
    `filter` and `map`, with the facts every "only the matching elements
    change" claim rests on. */
module Lists {
  import opened Optional

  /** `s.filter(p)`: the elements satisfying `p`, in their original order. */
  function Filter<T>(s: seq<T>, p: T -> bool): (r: seq<T>)
    ensures |r| <= |s|
    ensures forall i :: 0 <= i < |r| ==> r[i] in s && p(r[i])
    ensures forall i :: 0 <= i < |s| && p(s[i]) ==> s[i] in r
    decreases |s|
  {
    if |s| == 0 then []
    else (if p(s[0]) then [s[0]] else []) + Filter(s[1..], p)
  }

  /** Filtering a non-empty list: its head if it passes, then the filtered tail. */
  lemma FilterCons<T>(s: seq<T>, p: T -> bool)
    requires |s| > 0
    ensures Filter(s, p) == (if p(s[0]) then [s[0]] else []) + Filter(s[1..], p)
  {
  }

  /** Filtering distributes over concatenation, so the kept elements stay in order. */
  lemma {:induction false} FilterConcat<T>(a: seq<T>, b: seq<T>, p: T -> bool)
    ensures Filter(a + b, p) == Filter(a, p) + Filter(b, p)
    decreases |a|
  {
    if |a| == 0 {
      assert a + b == b;
    } else {
      assert (a + b)[0] == a[0];
      assert (a + b)[1..] == a[1..] + b;
      FilterConcat(a[1..], b, p);
    }
  }

  /** Filtering keeps the whole list when every element passes. */
  lemma {:induction false} FilterAll<T>(s: seq<T>, p: T -> bool)
    requires forall i :: 0 <= i < |s| ==> p(s[i])
    ensures Filter(s, p) == s
    decreases |s|
  {
    if |s| > 0 {
      FilterAll(s[1..], p);
      assert [s[0]] + s[1..] == s;
    }
  }

  /** Filtering drops the whole list when no element passes. */
  lemma {:induction false} FilterNone<T>(s: seq<T>, p: T -> bool)
    requires forall i :: 0 <= i < |s| ==> !p(s[i])
    ensures Filter(s, p) == []
    decreases |s|
  {
    if |s| > 0 {
      FilterNone(s[1..], p);
    }
  }

  /** Removing the elements that fail `keep` from `before + [p] + after`,
      where only `p` fails, leaves `before + after`. */
  lemma {:induction false} FilterDropsOne<T>(before: seq<T>, p: T, after: seq<T>, keep: T -> bool)
    requires forall i :: 0 <= i < |before| ==> keep(before[i])
    requires forall i :: 0 <= i < |after| ==> keep(after[i])
    requires !keep(p)
    ensures Filter(before + [p] + after, keep) == before + after
  {
    var front := before + [p];
    FilterAll(before, keep);
    FilterNone([p], keep);
    FilterConcat(before, [p], keep);
    assert Filter(front, keep) == before + [];
    FilterAll(after, keep);
    FilterConcat(front, after, keep);
    assert Filter(front + after, keep) == (before + []) + after;
    assert before + [] == before;
  }

  /** `s.map(f)`. */
  function Map<A, B>(s: seq<A>, f: A -> B): (r: seq<B>)
    ensures |r| == |s|
    ensures forall i :: 0 <= i < |s| ==> r[i] == f(s[i])
  {
    seq(|s|, i requires 0 <= i < |s| => f(s[i]))
  }

  /** A mapped list is its mapped head, then its mapped tail. */
  lemma MapCons<A, B>(s: seq<A>, f: A -> B)
    requires |s| > 0
    ensures Map(s, f) == [f(s[0])] + Map(s[1..], f)
  {
    var r := [f(s[0])] + Map(s[1..], f);
    assert forall i :: 0 <= i < |s| ==> Map(s, f)[i] == r[i];
  }

  /** All the values of a list of options, or None when one is missing:
      how one throwing callback fails a whole `map`. */
  function AllSome<T>(xs: seq<Option<T>>): (r: Option<seq<T>>)
    ensures r.Some? <==> forall i :: 0 <= i < |xs| ==> xs[i].Some?
    ensures r.Some? ==> |r.value| == |xs| && forall i :: 0 <= i < |xs| ==> xs[i] == Some(r.value[i])
    decreases |xs|
  {
    if |xs| == 0 then Some([])
    else
      var tail := AllSome(xs[1..]);
      assert forall i :: 1 <= i < |xs| ==> xs[1..][i - 1] == xs[i];
      if xs[0].None? || tail.None? then None
      else Some([xs[0].value] + tail.value)
  }

  /** Some element satisfies `p`: `s.some(p)`. */
  predicate Any<T>(s: seq<T>, p: T -> bool) {
    exists i :: 0 <= i < |s| && p(s[i])
  }

  /** An element of `s` satisfies `p` exactly when one before the last
      does or the last one does. */
  lemma AnySnoc<T>(s: seq<T>, p: T -> bool)
    requires |s| > 0
    ensures Any(s, p) <==> Any(s[..|s| - 1], p) || p(s[|s| - 1])
  {
    var front := s[..|s| - 1];
    if Any(front, p) {
      var i :| 0 <= i < |front| && p(front[i]);
      assert front[i] == s[i];
    }
    if Any(s, p) && !p(s[|s| - 1]) {
      var i :| 0 <= i < |s| && p(s[i]);
      assert i < |front| && front[i] == s[i];
    }
  }
}

=== FILE: optional.dfy ===
/** The optional value used throughout the model: an absent query parameter,
    a missing token, a search that found nothing. */
module Optional {

  datatype Option<+T> = None | Some(value: T) {

    /** The carried value, or `default` when there is none. */
    function GetOr(default: T): T {
      match this
      case Some(v) => v
      case None => default
    }
  }
}

=== FILE: orders.dfy ===
/** The customer's order history (`app/orders/page.tsx`). Orders come from
    the backend in several shapes, so every field is resolved by trying a
    list of alternative keys: `getVal` for numbers, `getStr` for strings,
    and `||` chains for the rest. */
module Orders {
  import opened Optional
  import opened Text
  import opened Lists
  import opened Js
  import opened Api

  // ---------------------------------------------------------------------
  // getVal and getStr
  // ---------------------------------------------------------------------

  /** What `getVal`'s first pass accepts: present, not the empty string,
      and not numerically zero. NaN is not zero, so a non-numeric string is
      accepted and yields NaN. */
  predicate NonZero(v: Value) {
    Present(v) && v != Str("") && ToNumber(v) != Finite(0)
  }

  /** Index of the first key whose value in `obj` satisfies `p`. */
  function FirstKey(obj: Value, keys: seq<string>, p: Value -> bool): (r: Option<nat>)
    ensures r.Some? ==> r.value < |keys| && p(Get(obj, keys[r.value]))
    ensures r.Some? ==> forall j :: 0 <= j < r.value ==> !p(Get(obj, keys[j]))
    ensures r.None? ==> forall j :: 0 <= j < |keys| ==> !p(Get(obj, keys[j]))
    decreases |keys|
  {
    if |keys| == 0 then None
    else if p(Get(obj, keys[0])) then Some(0)
    else match FirstKey(obj, keys[1..], p)
      case None => None
      case Some(i) => Some(i + 1)
  }

  /** The first key satisfying `p` is the one after all those that do not. */
  lemma FirstKeyAt(obj: Value, keys: seq<string>, p: Value -> bool, i: nat)
    requires i < |keys| && p(Get(obj, keys[i]))
    requires forall j :: 0 <= j < i ==> !p(Get(obj, keys[j]))
    ensures FirstKey(obj, keys, p) == Some(i)
  {
  }

  /** The value `getVal(obj, keys)` returns, stated key by key: the number of
      the first non-zero entry; failing that, the number of the first present
      entry; failing that, 0. */
  function ResolveNumber(obj: Value, keys: seq<string>): Numeric {
    match FirstKey(obj, keys, NonZero)
    case Some(i) => ToNumber(Get(obj, keys[i]))
    case None =>
      match FirstKey(obj, keys, Present)
      case Some(i) => ToNumber(Get(obj, keys[i]))
      case None => Finite(0)
  }

  /** One pass of `getVal` or `getStr`: the keys tried in order until one
      whose value passes `p`. */
  method FindKey(obj: Value, keys: seq<string>, p: Value -> bool) returns (r: Option<nat>)
    ensures r == FirstKey(obj, keys, p)
  {
    var i := 0;
    while i < |keys|
      invariant 0 <= i <= |keys|
      invariant forall j :: 0 <= j < i ==> !p(Get(obj, keys[j]))
    {
      if p(Get(obj, keys[i])) {
        FirstKeyAt(obj, keys, p, i);
        return Some(i);
      }
      i := i + 1;
    }
    return None;
  }

  /** `getVal`, with its two passes over the keys. */
  method GetVal(obj: Value, keys: seq<string>) returns (r: Numeric)
    ensures r == ResolveNumber(obj, keys)
    ensures r == Finite(0) <==> forall i :: 0 <= i < |keys| ==> !NonZero(Get(obj, keys[i]))
  {
    var first := FindKey(obj, keys, NonZero);
    if first.Some? {
      return ToNumber(Get(obj, keys[first.value]));
    }
    FallbackIsZero(obj, keys);
    var second := FindKey(obj, keys, Present);
    if second.Some? {
      return ToNumber(Get(obj, keys[second.value]));
    }
    return Finite(0);
  }

  /** `getVal`'s second pass can only ever produce 0: every present value it
      reaches was passed over by the first pass, so it is `''` or a value
      that reads as 0. */
  lemma FallbackIsZero(obj: Value, keys: seq<string>)
    requires forall i :: 0 <= i < |keys| ==> !NonZero(Get(obj, keys[i]))
    ensures ResolveNumber(obj, keys) == Finite(0)
  {
    match FirstKey(obj, keys, Present)
    case None =>
    case Some(i) =>
      assert !NonZero(Get(obj, keys[i]));
  }

  /** A truthy string with something other than white space in it. */
  predicate Filled(v: Value) {
    Truthy(v) && v.Str? && !Blank(v.s)
  }

  /** `v && typeof v === 'string' && v.trim() !== ''` is `Filled`. */
  lemma FilledIffTrimmed(v: Value)
    ensures Filled(v) <==> Truthy(v) && v.Str? && Trim(v.s) != ""
  {
    if v.Str? {
      TrimEmptyIffBlank(v.s);
    }
  }

  /** `getStr`: the first entry that is a string with something other than
      white space in it, else `''`. */
  method GetStr(obj: Value, keys: seq<string>) returns (r: string)
    ensures FirstKey(obj, keys, Filled).Some? ==> Str(r) == Get(obj, keys[FirstKey(obj, keys, Filled).value])
    ensures r == "" <==> forall i :: 0 <= i < |keys| ==> !Filled(Get(obj, keys[i]))
  {
    var i := 0;
    while i < |keys|
      invariant 0 <= i <= |keys|
      invariant forall j :: 0 <= j < i ==> !Filled(Get(obj, keys[j]))
    {
      var v := Get(obj, keys[i]);
      if Filled(v) {
        FirstKeyAt(obj, keys, Filled, i);
        return v.s;
      }
      i := i + 1;
    }
    return "";
  }

  // ---------------------------------------------------------------------
  // Order fields
  // ---------------------------------------------------------------------

  const TotalKeys: seq<string> :=
    ["total_amount", "TotalAmount", "TotalPrice", "total_price", "total", "Total", "amount", "Amount"]

  const ItemPriceKeys: seq<string> :=
    ["price", "Price", "UnitPrice", "unit_price", "price_unit", "amount", "Amount"]

  const ProductPriceKeys: seq<string> := ["PriceProduct", "price", "Price", "Price_Product"]

  const DefaultRecipient: string := "Kh\U{E1}ch h\U{E0}ng"

  /** The order's total as shown: `getVal` over the total's key variants. */
  method OrderTotal(order: Value) returns (r: Numeric)
    ensures r == ResolveNumber(order, TotalKeys)
    ensures r == Finite(0) <==> forall i :: 0 <= i < |TotalKeys| ==> !NonZero(Get(order, TotalKeys[i]))
  {
    r := GetVal(order, TotalKeys);
  }

  /** `order.id || order.IdOrder || order.order_id || ''`. */
  function OrderId(order: Value): (r: Value)
    ensures Truthy(r) || r == Str("")
    ensures Truthy(Get(order, "id")) ==> r == Get(order, "id")
    ensures !Truthy(Get(order, "id")) && Truthy(Get(order, "IdOrder")) ==> r == Get(order, "IdOrder")
    ensures !Truthy(Get(order, "id")) && !Truthy(Get(order, "IdOrder")) && Truthy(Get(order, "order_id"))
      ==> r == Get(order, "order_id")
    ensures !Truthy(Get(order, "id")) && !Truthy(Get(order, "IdOrder")) && !Truthy(Get(order, "order_id"))
      ==> r == Str("")
  {
    var vs := [Get(order, "id"), Get(order, "IdOrder"), Get(order, "order_id")];
    assert vs[0] == Get(order, "id") && vs[1] == Get(order, "IdOrder") && vs[2] == Get(order, "order_id");
    Coalesce(vs, Str(""))
  }

  /** The recipient's name, preferring the nested address object, then the
      flat variants, and "Khách hàng" when there is none. */
  function RecipientName(order: Value): (r: Value)
    ensures Truthy(r)
    ensures Truthy(Get(Get(order, "address"), "FullName")) ==> r == Get(Get(order, "address"), "FullName")
    ensures !Truthy(Get(Get(order, "address"), "FullName")) && Truthy(Get(order, "FullName"))
      ==> r == Get(order, "FullName")
    ensures (!Truthy(Get(Get(order, "address"), "FullName")) && !Truthy(Get(order, "FullName"))
      && Truthy(Get(order, "fullname"))) ==> r == Get(order, "fullname")
    ensures (!Truthy(Get(Get(order, "address"), "FullName")) && !Truthy(Get(order, "FullName"))
      && !Truthy(Get(order, "fullname")) && Truthy(Get(order, "recipient_name"))) ==> r == Get(order, "recipient_name")
    ensures (!Truthy(Get(Get(order, "address"), "FullName")) && !Truthy(Get(order, "FullName"))
      && !Truthy(Get(order, "fullname")) && !Truthy(Get(order, "recipient_name"))
      && Truthy(Get(order, "RecipientName"))) ==> r == Get(order, "RecipientName")
    ensures (!Truthy(Get(Get(order, "address"), "FullName")) && !Truthy(Get(order, "FullName"))
      && !Truthy(Get(order, "fullname")) && !Truthy(Get(order, "recipient_name"))
      && !Truthy(Get(order, "RecipientName"))) ==> r == Str(DefaultRecipient)
  {
    var vs := [Get(Get(order, "address"), "FullName"), Get(order, "FullName"), Get(order, "fullname"),
               Get(order, "recipient_name"), Get(order, "RecipientName")];
    assert vs[0] == Get(Get(order, "address"), "FullName") && vs[1] == Get(order, "FullName") && vs[2] == Get(order, "fullname");
    assert vs[3] == Get(order, "recipient_name") && vs[4] == Get(order, "RecipientName");
    Coalesce(vs, Str(DefaultRecipient))
  }

  /** The phone number shown: the nested address's `Phone`, then the flat
      `Phone`, `phone`, `recipient_phone` and `PhoneNumber`, the first that
      is truthy, else `''`. */
  function PhoneOf(order: Value): (r: Value)
    ensures Truthy(r) || r == Str("")
    ensures Truthy(Get(Get(order, "address"), "Phone")) ==> r == Get(Get(order, "address"), "Phone")
    ensures !Truthy(Get(Get(order, "address"), "Phone")) && Truthy(Get(order, "Phone"))
      ==> r == Get(order, "Phone")
    ensures (!Truthy(Get(Get(order, "address"), "Phone")) && !Truthy(Get(order, "Phone"))
      && Truthy(Get(order, "phone"))) ==> r == Get(order, "phone")
    ensures (!Truthy(Get(Get(order, "address"), "Phone")) && !Truthy(Get(order, "Phone"))
      && !Truthy(Get(order, "phone")) && Truthy(Get(order, "recipient_phone"))) ==> r == Get(order, "recipient_phone")
    ensures (!Truthy(Get(Get(order, "address"), "Phone")) && !Truthy(Get(order, "Phone"))
      && !Truthy(Get(order, "phone")) && !Truthy(Get(order, "recipient_phone")))
      ==> r == Or(Get(order, "PhoneNumber"), Str(""))
  {
    var vs := [Get(Get(order, "address"), "Phone"), Get(order, "Phone"), Get(order, "phone"),
               Get(order, "recipient_phone"), Get(order, "PhoneNumber")];
    assert vs[0] == Get(Get(order, "address"), "Phone") && vs[1] == Get(order, "Phone") && vs[2] == Get(order, "phone");
    assert vs[3] == Get(order, "recipient_phone") && vs[4] == Get(order, "PhoneNumber");
    Coalesce(vs, Str(""))
  }

  /** The address shown. When `address` is itself a string it is shown as
      is, since a string has no `Address` property. */
  function AddressOf(order: Value): (r: Value)
    ensures Truthy(r) || r == Str("")
    ensures Truthy(Get(Get(order, "address"), "Address")) ==> r == Get(Get(order, "address"), "Address")
    ensures !Truthy(Get(Get(order, "address"), "Address")) && Truthy(Get(order, "Address"))
      ==> r == Get(order, "Address")
    ensures (!Truthy(Get(Get(order, "address"), "Address")) && !Truthy(Get(order, "Address"))
      && Truthy(Get(order, "address"))) ==> r == Get(order, "address")
    ensures Get(order, "address").Str? && !Truthy(Get(order, "Address")) && Truthy(Get(order, "address"))
      ==> r == Get(order, "address")
    ensures (!Truthy(Get(Get(order, "address"), "Address")) && !Truthy(Get(order, "Address"))
      && !Truthy(Get(order, "address"))) ==> r == Or(Get(order, "shipping_address"), Str(""))
  {
    var vs := [Get(Get(order, "address"), "Address"), Get(order, "Address"), Get(order, "address"),
               Get(order, "shipping_address")];
    assert vs[0] == Get(Get(order, "address"), "Address") && vs[1] == Get(order, "Address") && vs[2] == Get(order, "address");
    assert vs[3] == Get(order, "shipping_address");
    Coalesce(vs, Str(""))
  }

  /** One entry of the status table. */
  datatype StatusInfo = StatusInfo(text: string, color: string)

  /** The status table, entries 0 to 4. */
  function StatusTable(code: nat): StatusInfo
    requires code < 5
  {
    [StatusInfo("\U{110}ang x\U{1EED} l\U{FD}", "text-yellow-600"),
     StatusInfo("\U{110}ang giao h\U{E0}ng", "text-blue-600"),
     StatusInfo("\U{110}\U{E3} giao h\U{E0}ng", "text-purple-600"),
     StatusInfo("Ho\U{E0}n th\U{E0}nh", "text-green-600"),
     StatusInfo("\U{110}\U{E3} h\U{1EE7}y", "text-red-600")][code]
  }

  /** `order.Status`, else `order.status`, else 0: a key counts when it is
      not undefined, even if it holds null, 0 or `''`. */
  function StatusValue(order: Value): (r: Value)
    ensures Get(order, "Status") != Undefined ==> r == Get(order, "Status")
    ensures Get(order, "Status") == Undefined && Get(order, "status") != Undefined ==> r == Get(order, "status")
    ensures Get(order, "Status") == Undefined && Get(order, "status") == Undefined ==> r == Num(0)
  {
    if Get(order, "Status") != Undefined then Get(order, "Status")
    else if Get(order, "status") != Undefined then Get(order, "status")
    else Num(0)
  }

  /** Unlike an `||` chain, a defined but falsy `Status` wins: an order
      whose `Status` is 0 shows as processing even when its lower-case
      `status` says it was delivered, and a null `Status` selects no entry
      at all and falls back to processing too. */
  lemma FalsyStatusWins(order: Value)
    requires Get(order, "Status") == Num(0) || Get(order, "Status") == Null
    ensures StatusEntry(StatusValue(order)) == StatusTable(0)
  {
    assert ToStr(Num(0)) == "0";
    assert ToStr(Null) == "null";
  }

  /** The status table code a status value selects, if any. The table is
      indexed like any JS object, by the value's string form, so `3` and
      `'3'` select the same entry. */
  function StatusCode(v: Value): (r: Option<nat>)
    ensures r.Some? ==> r.value < 5 && ToStr(v) == IntToString(r.value)
    ensures r.None? ==> forall c :: 0 <= c < 5 ==> ToStr(v) != IntToString(c)
  {
    var key := ToStr(v);
    if key == "0" then Some(0)
    else if key == "1" then Some(1)
    else if key == "2" then Some(2)
    else if key == "3" then Some(3)
    else if key == "4" then Some(4)
    else None
  }

  /** `STATUS_MAP[statusValue] || STATUS_MAP[0]`. */
  function StatusEntry(v: Value): (r: StatusInfo)
    ensures StatusCode(v).Some? ==> r == StatusTable(StatusCode(v).value)
    ensures StatusCode(v).None? ==> r == StatusTable(0)
  {
    match StatusCode(v)
    case Some(c) => StatusTable(c)
    case None => StatusTable(0)
  }

  /** The status label: the backend's own `status_text` when it sends one. */
  function StatusLabel(order: Value): (r: Value)
    ensures Truthy(Get(order, "status_text")) ==> r == Get(order, "status_text")
    ensures !Truthy(Get(order, "status_text")) ==> r == Str(StatusEntry(StatusValue(order)).text)
  {
    Or(Get(order, "status_text"), Str(StatusEntry(StatusValue(order)).text))
  }

  /** An order with neither `Status` nor `status` shows entry 0. */
  lemma MissingStatusIsProcessing(order: Value)
    requires Get(order, "Status") == Undefined && Get(order, "status") == Undefined
    ensures StatusEntry(StatusValue(order)) == StatusTable(0)
  {
    assert ToStr(Num(0)) == "0";
  }

  /** The number and the numeral of a code select the same entry. */
  lemma NumberAndNumeralAgree(c: nat)
    requires c < 5
    ensures StatusEntry(Num(c)) == StatusEntry(Str(IntToString(c))) == StatusTable(c)
  {
    assert IntToString(c) == [('0' as int + c) as char];
  }

  /** Whether the "order completed" badge shows: status value 3 or `'3'`,
      or a `status` that reads "DELIVERED" in upper case. */
  predicate Completed(order: Value) {
    var sv := StatusValue(order);
    StrictEq(sv, Num(3)) || StrictEq(sv, Str("3")) || Upper(ToStr(Get(order, "status"))) == "DELIVERED"
  }

  /** A completed badge shown because of status 3 sits next to the
      "Hoàn thành" label (unless the backend sends its own status text). */
  lemma CompletedByCodeIsDone(order: Value)
    requires StrictEq(StatusValue(order), Num(3)) || StrictEq(StatusValue(order), Str("3"))
    requires !Truthy(Get(order, "status_text"))
    ensures Completed(order)
    ensures StatusLabel(order) == Str("Ho\U{E0}n th\U{E0}nh")
  {
    assert ToStr(Num(3)) == "3";
  }

  /** A textual status "delivered" shows the completed badge, yet the label
      falls back to entry 0, "Đang xử lý". */
  lemma DeliveredTextShowsBadgeWithProcessingLabel()
    ensures var order := Obj(map["status" := Str("delivered")]);
      Completed(order) && StatusLabel(order) == Str(StatusTable(0).text)
  {
    var order := Obj(map["status" := Str("delivered")]);
    assert Upper("delivered") == "DELIVERED";
    assert StatusCode(Str("delivered")).None?;
  }

  // ---------------------------------------------------------------------
  // Order items
  // ---------------------------------------------------------------------

  /** `order.items || order.order_items || order.Items || order.order_details || []`. */
  function ItemsList(order: Value): (r: Value)
    ensures Truthy(r) || r == Arr([])
    ensures Truthy(Get(order, "items")) ==> r == Get(order, "items")
    ensures !Truthy(Get(order, "items")) && Truthy(Get(order, "order_items")) ==> r == Get(order, "order_items")
    ensures !Truthy(Get(order, "items")) && !Truthy(Get(order, "order_items")) && Truthy(Get(order, "Items"))
      ==> r == Get(order, "Items")
    ensures (!Truthy(Get(order, "items")) && !Truthy(Get(order, "order_items")) && !Truthy(Get(order, "Items")))
      ==> r == Or(Get(order, "order_details"), Arr([]))
  {
    var vs := [Get(order, "items"), Get(order, "order_items"), Get(order, "Items"), Get(order, "order_details")];
    assert vs[0] == Get(order, "items") && vs[1] == Get(order, "order_items");
    assert vs[2] == Get(order, "Items") && vs[3] == Get(order, "order_details");
    Coalesce(vs, Arr([]))
  }

  /** The unit price of an item: the item's own price variants, else its
      product's, else 0. A NaN from either `getVal` is falsy and skipped. */
  function ItemPrice(item: Value): (r: int)
    ensures ResolveNumber(item, ItemPriceKeys).Truthy() ==> r == ResolveNumber(item, ItemPriceKeys).n
    ensures !ResolveNumber(item, ItemPriceKeys).Truthy()
      && ResolveNumber(Or(Get(item, "product"), Obj(map[])), ProductPriceKeys).Truthy()
      ==> r == ResolveNumber(Or(Get(item, "product"), Obj(map[])), ProductPriceKeys).n
    ensures r != 0 ==> (ResolveNumber(item, ItemPriceKeys).Truthy()
      || ResolveNumber(Or(Get(item, "product"), Obj(map[])), ProductPriceKeys).Truthy())
  {
    var own := ResolveNumber(item, ItemPriceKeys);
    var fromProduct := ResolveNumber(Or(Get(item, "product"), Obj(map[])), ProductPriceKeys);
    if own.Truthy() then own.n else if fromProduct.Truthy() then fromProduct.n else 0
  }

  /** The items listed under an order: those whose price is positive. */
  function VisibleItems(list: Value): (r: seq<Value>)
    ensures list.Arr? ==> r == Filter(list.elems, (it: Value) => ItemPrice(it) > 0)
    ensures forall i :: 0 <= i < |r| ==> ItemPrice(r[i]) > 0
    ensures forall it :: it in r ==> ItemPrice(it) > 0
    ensures list.Arr? ==> forall i :: 0 <= i < |list.elems| && ItemPrice(list.elems[i]) > 0 ==> list.elems[i] in r
    ensures !list.Arr? ==> r == []
  {
    if list.Arr? then Filter(list.elems, (it: Value) => ItemPrice(it) > 0) else []
  }

  /** The keys an item's quantity is read from, in order. */
  const QuantityKeys: seq<string> := ["quantity", "Quantity", "SL"]

  /** `Number(item.quantity || item.Quantity || item.SL || 1)`. */
  function ItemQuantity(item: Value): (r: Numeric)
    ensures Truthy(Get(item, "quantity")) ==> r == ToNumber(Get(item, "quantity"))
    ensures !Truthy(Get(item, "quantity")) && Truthy(Get(item, "Quantity")) ==> r == ToNumber(Get(item, "Quantity"))
    ensures !Truthy(Get(item, "quantity")) && !Truthy(Get(item, "Quantity")) && Truthy(Get(item, "SL"))
      ==> r == ToNumber(Get(item, "SL"))
    ensures !Truthy(Get(item, "quantity")) && !Truthy(Get(item, "Quantity")) && !Truthy(Get(item, "SL"))
      ==> r == Finite(1)
  {
    var vs := [Get(item, "quantity"), Get(item, "Quantity"), Get(item, "SL")];
    assert vs[0] == Get(item, "quantity") && vs[1] == Get(item, "Quantity") && vs[2] == Get(item, "SL");
    ToNumber(Coalesce(vs, Num(1)))
  }

  /** The `||` chain over the quantity keys reads the same key as the
      key-by-key search `getVal` uses, with truthiness as the test: the
      quantity is the number of the first truthy key, else 1. */
  lemma QuantityIsFirstTruthyKey(item: Value)
    ensures FirstKey(item, QuantityKeys, Truthy).Some? ==>
      ItemQuantity(item) == ToNumber(Get(item, QuantityKeys[FirstKey(item, QuantityKeys, Truthy).value]))
    ensures FirstKey(item, QuantityKeys, Truthy).None? ==> ItemQuantity(item) == Finite(1)
  {
    var k := FirstKey(item, QuantityKeys, Truthy);
    if k.Some? {
      var i := k.value;
      assert i == 0 || i == 1 || i == 2;
      if i == 1 {
        assert !Truthy(Get(item, QuantityKeys[0]));
      } else if i == 2 {
        assert !Truthy(Get(item, QuantityKeys[0])) && !Truthy(Get(item, QuantityKeys[1]));
      }
    } else {
      assert !Truthy(Get(item, QuantityKeys[0])) && !Truthy(Get(item, QuantityKeys[1])) && !Truthy(Get(item, QuantityKeys[2]));
    }
  }

  /** The amount on an item's line: quantity times unit price. */
  function LineAmount(item: Value): (r: Numeric)
    ensures ItemQuantity(item).Finite? ==> r == Finite(ItemQuantity(item).n * ItemPrice(item))
    ensures ItemQuantity(item).NaN? ==> r == NaN
  {
    Mul(ItemQuantity(item), Finite(ItemPrice(item)))
  }

  /** `result.data || []`, the order list the page keeps. Reading `data`
      of a null or undefined result throws (None). */
  function FetchedOrders(result: Value): (r: Option<Value>)
    ensures r.None? <==> result == Null || result == Undefined
    ensures r.Some? && Truthy(Get(result, "data")) ==> r.value == Get(result, "data")
    ensures r.Some? && !Truthy(Get(result, "data")) ==> r.value == Arr([])
  {
    match Access(result, "data")
    case None => None
    case Some(d) => Some(Or(d, Arr([])))
  }

  /** The orders page reads only `{ data }`: on any reply but an array it
      keeps what the admin pages' `ListPayload` keeps, but a bare array,
      which the admin pages take as the list itself, shows no orders here. */
  lemma FetchedOrdersAgainstListPayload(result: Value)
    ensures !result.Arr? ==> FetchedOrders(result) == ListPayload(result)
    ensures result.Arr? ==> FetchedOrders(result) == Some(Arr([])) && ListPayload(result) == Some(result)
  {
  }

  /** The page's error text after a failed load, and its toast. */
  const LoadError: string :=
    "Kh\U{F4}ng th\U{1EC3} t\U{1EA3}i danh s\U{E1}ch \U{111}\U{1A1}n h\U{E0}ng. Vui l\U{F2}ng th\U{1EED} l\U{1EA1}i."
  const LoadToast: string := "L\U{1ED7}i khi t\U{1EA3}i \U{111}\U{1A1}n h\U{E0}ng"

  /** Where the sign-in redirect of the orders page returns to. */
  const SignInRoute: string := "/auth?from=/orders"

  /** How `fetchOrders` settles. */
  datatype Load =
    | Skipped                            // no token: nothing is requested
    | SignInAgain(route: string)         // 401: token dropped, back to sign-in
    | Shown(orders: Value)               // the list, with the error cleared
    | Failed(error: string, toast: string) // the list left as it was

  /** `fetchOrders`: the request goes out only with a token. A 401 sends the
      user back to sign in; any other failure, a network error, a malformed
      body, or a null document whose `data` cannot be read, lands in the
      `catch` and shows the load error with its toast. The body is read as
      JSON whatever its content type. */
  function FetchOrders(token: Option<string>, x: Exchange): (r: Load)
    ensures token.None? || token.value == "" <==> r == Skipped
    ensures r.Failed? ==> r == Failed(LoadError, LoadToast)
    ensures r.SignInAgain? <==> r != Skipped && x.Got? && !x.res.ok && x.res.status == 401
    ensures r.SignInAgain? ==> r.route == SignInRoute
    ensures r.Shown? <==> (r != Skipped && x.Got? && x.res.ok && x.res.json.Parsed?
      && FetchedOrders(x.res.json.doc).Some?)
    ensures r.Shown? ==> r.orders == FetchedOrders(x.res.json.doc).value
    ensures (r != Skipped && x.Got? && x.res.ok && x.res.json.Parsed? && !Present(x.res.json.doc))
      ==> r == Failed(LoadError, LoadToast)
    ensures r != Skipped && x.NoResponse? ==> r.Failed?
  {
    if token.None? || token.value == "" then Skipped
    else match x
      case NoResponse(_) => Failed(LoadError, LoadToast)
      case Got(res) =>
        if !res.ok then (if res.status == 401 then SignInAgain(SignInRoute) else Failed(LoadError, LoadToast))
        else match res.json
          case Malformed(_) => Failed(LoadError, LoadToast)
          case Parsed(doc) =>
            match FetchedOrders(doc)
            case None => Failed(LoadError, LoadToast)
            case Some(list) => Shown(list)
  }
}

=== FILE: product_modal.dfy ===
/** The add/edit product dialog (`components/ProductModal.tsx`): the form it
    prefills, its two-step state machine, the checks on submit, the payload
    and what the handler does. The form is a JS object, so its fields are
    dynamic values; the inputs themselves only ever write strings. */
module ProductModal {
  import opened Optional
  import opened Text
  import opened Lists
  import opened Js
  import opened Api
  import opened Toast
  import AdminProducts

  /** The form state. */
  datatype Form = Form(
    id: Value,
    name: Value,
    description: Value,
    category: Value,
    color: Value,
    price: Value,
    stock: Value,
    imgPath: Value)

  /** The dialog: the step shown and the form. */
  datatype Modal = Modal(step: nat, form: Form)

  /** What `handleSubmit` does, in order. */
  datatype Event =
    | LoadingOn
    | CallAdd(payload: Value)
    | CallUpdate(id: Value, payload: Value)
    | Show(notice: Notice)
    | Succeeded
    | Closed
    | LoadingOff

  const Phone: string := "\U{110}i\U{1EC7}n tho\U{1EA1}i"
  const NameRequired: string := "Vui l\U{F2}ng nh\U{1EAD}p t\U{EA}n s\U{1EA3}n ph\U{1EA9}m"
  const PriceInvalid: string := "Vui l\U{F2}ng nh\U{1EAD}p gi\U{E1} b\U{E1}n h\U{1EE3}p l\U{1EC7}"
  const StockInvalid: string := "Vui l\U{F2}ng nh\U{1EAD}p s\U{1ED1} l\U{1B0}\U{1EE3}ng t\U{1ED3}n kho h\U{1EE3}p l\U{1EC7}"
  const Updated: string := "C\U{1EAD}p nh\U{1EAD}t s\U{1EA3}n ph\U{1EA9}m th\U{E0}nh c\U{F4}ng"
  const Added: string := "Th\U{EA}m s\U{1EA3}n ph\U{1EA9}m m\U{1EDB}i th\U{E0}nh c\U{F4}ng"

  /** The empty form: category "1" (phones), every other field blank. */
  const BlankForm: Form := Form(Str(""), Str(""), Str(""), Str("1"), Str(""), Str(""), Str(""), Str(""))

  /** `v ? v.toString() : ''`. */
  function TextIfTruthy(v: Value): (r: Value)
    ensures Truthy(v) ==> r == Str(ToStr(v))
    ensures !Truthy(v) ==> r == Str("")
  {
    if Truthy(v) then Str(ToStr(v)) else Str("")
  }

  // ---------------------------------------------------------------------
  // Prefill and steps
  // ---------------------------------------------------------------------

  /** The prefill effect as written: it reads `id`, `name`, `description`,
      `category`, `price`, `stock` and `image` of the product it is given. */
  function Prefill(product: Value): (f: Form)
    ensures !Truthy(product) ==> f == BlankForm
    ensures Truthy(product) ==> f.color == Str("")
    ensures Truthy(product) ==> (f.category == Str("1") <==> Get(product, "category") == Str(Phone))
    ensures Truthy(product) && Get(product, "category") != Str(Phone) ==> f.category == Str("2")
    ensures Truthy(product) && !Truthy(Get(product, "price")) ==> f.price == Str("")
    ensures Truthy(product) && !Truthy(Get(product, "stock")) ==> f.stock == Str("")
    ensures Truthy(product) && Present(Get(product, "id")) ==> f.id == Str(ToStr(Get(product, "id")))
    ensures Truthy(product) && !Present(Get(product, "id")) ==> f.id == Str("")
    ensures Truthy(product) && Truthy(Get(product, "name")) ==> f.name == Get(product, "name")
    ensures Truthy(product) && !Truthy(Get(product, "name")) ==> f.name == Str("")
    ensures Truthy(product) && Truthy(Get(product, "description")) ==> f.description == Get(product, "description")
    ensures Truthy(product) && !Truthy(Get(product, "description")) ==> f.description == Str("")
    ensures Truthy(product) && Truthy(Get(product, "price")) ==> f.price == Str(ToStr(Get(product, "price")))
    ensures Truthy(product) && Truthy(Get(product, "stock")) ==> f.stock == Str(ToStr(Get(product, "stock")))
    ensures Truthy(product) && Truthy(Get(product, "image")) ==> f.imgPath == Get(product, "image")
    ensures Truthy(product) && !Truthy(Get(product, "image")) ==> f.imgPath == Str("")
  {
    if Truthy(product) then
      Form(
        Or(ToStringOpt(Get(product, "id")), Str("")),
        Or(Get(product, "name"), Str("")),
        Or(Get(product, "description"), Str("")),
        if StrictEq(Get(product, "category"), Str(Phone)) then Str("1") else Str("2"),
        Str(""),
        TextIfTruthy(Get(product, "price")),
        TextIfTruthy(Get(product, "stock")),
        Or(Get(product, "image"), Str("")))
    else BlankForm
  }

  /** Opening (or reopening) the dialog: the prefilled form on step 1. */
  function Open(product: Value): (m: Modal)
    ensures m.step == 1 && m.form == Prefill(product)
  {
    Modal(1, Prefill(product))
  }

  /** `handleNext`: step 2 only with a name that is not blank once trimmed.
      A name that is not a string makes `trim` throw, and nothing happens. */
  function Next(m: Modal): (r: (Modal, Option<Notice>))
    ensures r.0.form == m.form
    ensures m.form.name.Str? && Trim(m.form.name.s) != "" ==> r == (Modal(2, m.form), None)
    ensures m.form.name.Str? && Trim(m.form.name.s) == "" ==> r == (m, Some(Failure(NameRequired)))
    ensures !m.form.name.Str? ==> r == (m, None)
  {
    if !m.form.name.Str? then (m, None)
    else if Trim(m.form.name.s) == "" then (m, Some(Failure(NameRequired)))
    else (Modal(2, m.form), None)
  }

  /** `handlePrev`: back to step 1, form untouched. */
  function Prev(m: Modal): (r: Modal)
    ensures r.step == 1 && r.form == m.form
  {
    m.(step := 1)
  }

  /** From step 1, going forward and back again returns to where the dialog
      was; a blank name never leaves step 1. */
  lemma NextThenPrev(m: Modal)
    requires m.step == 1
    ensures Prev(Next(m).0) == m
    ensures m.form.name.Str? && Blank(m.form.name.s) ==> Next(m).0.step == 1
  {
    if m.form.name.Str? && Blank(m.form.name.s) {
      TrimEmptyIffBlank(m.form.name.s);
    }
  }

  // ---------------------------------------------------------------------
  // Submit
  // ---------------------------------------------------------------------

  /** `!Price || Number(Price) <= 0`. NaN compares false, so a price that
      is not a numeral is not rejected here; the number input only ever
      holds a numeral or the empty string. */
  predicate PriceRejected(v: Value) {
    !Truthy(v) || (ToNumber(v).Finite? && ToNumber(v).n <= 0)
  }

  /** `!Stock || Number(Stock) < 0`. */
  predicate StockRejected(v: Value) {
    !Truthy(v) || (ToNumber(v).Finite? && ToNumber(v).n < 0)
  }

  /** The toast a rejected form shows: the price is checked before the stock. */
  function Rejection(f: Form): (r: Option<string>)
    ensures PriceRejected(f.price) ==> r == Some(PriceInvalid)
    ensures !PriceRejected(f.price) && StockRejected(f.stock) ==> r == Some(StockInvalid)
    ensures r.None? <==> !PriceRejected(f.price) && !StockRejected(f.stock)
  {
    if PriceRejected(f.price) then Some(PriceInvalid)
    else if StockRejected(f.stock) then Some(StockInvalid)
    else None
  }

  /** A stock of "0" passes validation: the string is truthy and not below 0. */
  lemma ZeroStockAccepted()
    ensures !StockRejected(Str("0"))
  {
    NumberOfStringOfNum(0);
  }

  /** A blank or zero price is refused. */
  lemma BlankOrZeroPriceRejected(f: Form)
    requires f.price == Str("") || f.price == Str("0")
    ensures Rejection(f) == Some(PriceInvalid)
  {
    if f.price == Str("0") {
      NumberOfStringOfNum(0);
    }
  }

  /** A number as it travels in a JSON body: `JSON.stringify` writes NaN as null. */
  function OnWire(x: Numeric): (r: Value)
    ensures x.Finite? ==> r == Num(x.n)
    ensures x.NaN? ==> r == Null
  {
    match x
    case Finite(n) => Num(n)
    case NaN => Null
  }

  /** `Number(v)` as it travels in a JSON body. */
  function Wire(v: Value): (r: Value)
    ensures ToNumber(v).Finite? ==> r == Num(ToNumber(v).n)
    ensures ToNumber(v).NaN? ==> r == Null
  {
    OnWire(ToNumber(v))
  }

  /** `{ ...formData, Price: Number(Price), Stock: Number(Stock),
      IdCategory: Number(IdCategory) }`: the form's eight fields, with the
      three numeric ones converted and the others unchanged. */
  function Payload(f: Form): (r: Value)
    ensures r.Obj? && r.fields.Keys ==
      {"IdProduct", "NameProduct", "Description", "IdCategory", "Color", "Price", "Stock", "ImgPath"}
    ensures Get(r, "IdProduct") == f.id && Get(r, "NameProduct") == f.name && Get(r, "Description") == f.description
    ensures Get(r, "Color") == f.color && Get(r, "ImgPath") == f.imgPath
    ensures Get(r, "Price") == Wire(f.price)
    ensures Get(r, "Stock") == Wire(f.stock)
    ensures Get(r, "IdCategory") == Wire(f.category)
  {
    var m := map[
      "IdProduct" := f.id,
      "NameProduct" := f.name,
      "Description" := f.description,
      "IdCategory" := Wire(f.category),
      "Color" := f.color,
      "Price" := Wire(f.price),
      "Stock" := Wire(f.stock),
      "ImgPath" := f.imgPath];
    assert m.Keys == {"IdProduct", "NameProduct", "Description", "IdCategory", "Color", "Price", "Stock", "ImgPath"};
    Obj(m)
  }

  /** A form that passes the checks sends a positive price and a stock of at
      least 0, or null where the field was not a numeral. */
  lemma AcceptedPayloadIsInRange(f: Form)
    requires Rejection(f).None?
    ensures Get(Payload(f), "Price") == Null || (Get(Payload(f), "Price").Num? && Get(Payload(f), "Price").n > 0)
    ensures Get(Payload(f), "Stock") == Null || (Get(Payload(f), "Stock").Num? && Get(Payload(f), "Stock").n >= 0)
  {
  }

  /** The call `handleSubmit` makes for an accepted form. */
  function Call(product: Value, f: Form): (e: Event)
    ensures Truthy(product) <==> e.CallUpdate?
    ensures e.CallUpdate? ==> e == CallUpdate(f.id, Payload(f))
    ensures e.CallAdd? ==> e == CallAdd(Payload(f))
  {
    if Truthy(product) then CallUpdate(f.id, Payload(f)) else CallAdd(Payload(f))
  }

  /** `handleSubmit` with an update call that exists: `outcome` is how the
      update or the add call settles. */
  function Submit(product: Value, f: Form, outcome: Outcome): (t: seq<Event>)
    ensures Rejection(f).Some? ==> t == [Show(Failure(Rejection(f).value))]
    ensures Rejection(f).None? && outcome.Returns? ==>
      t == [LoadingOn, Call(product, f), Show(Success(if Truthy(product) then Updated else Added)),
            Succeeded, Closed, LoadingOff]
    ensures Rejection(f).None? && outcome.Throws? ==>
      t == [LoadingOn, Call(product, f), Show(Failure(ErrorText(outcome.message, SomethingWrong))), LoadingOff]
  {
    match Rejection(f)
    case Some(msg) => [Show(Failure(msg))]
    case None =>
      match outcome
      case Returns(_) =>
        [LoadingOn, Call(product, f), Show(Success(if Truthy(product) then Updated else Added)),
         Succeeded, Closed, LoadingOff]
      case Throws(m) => [LoadingOn, Call(product, f), Show(Failure(ErrorText(m, SomethingWrong))), LoadingOff]
  }

  /** `handleSubmit` as written. `lib/api.ts` exports no `updateProductApi`,
      so the imported name is undefined and calling it throws a TypeError
      whose text (`missing`) the runtime chooses; only the add path reaches
      the API, and there it behaves as the corrected handler. */
  function SubmitAsWritten(product: Value, f: Form, added: Outcome, missing: string): (t: seq<Event>)
    ensures Rejection(f).Some? ==> t == [Show(Failure(Rejection(f).value))]
    ensures Rejection(f).None? && Truthy(product) ==>
      t == [LoadingOn, Show(Failure(ErrorText(missing, SomethingWrong))), LoadingOff]
    ensures !Truthy(product) ==> t == Submit(product, f, added)
  {
    match Rejection(f)
    case Some(msg) => [Show(Failure(msg))]
    case None =>
      if Truthy(product) then [LoadingOn, Show(Failure(ErrorText(missing, SomethingWrong))), LoadingOff]
      else Submit(product, f, added)
  }

  /** As written, saving an edited product never succeeds and never reaches
      the API, whatever the form holds. */
  lemma EditNeverSucceedsAsWritten(product: Value, f: Form, added: Outcome, missing: string)
    requires Truthy(product)
    ensures Succeeded !in SubmitAsWritten(product, f, added, missing)
    ensures forall id, p :: CallUpdate(id, p) !in SubmitAsWritten(product, f, added, missing)
  {
  }

  /** The parent is told of success, and the dialog closes, exactly when the
      form passes the checks and the call succeeds; a rejected form makes no
      call at all. */
  lemma SuccessOnlyAfterCall(product: Value, f: Form, outcome: Outcome)
    ensures Succeeded in Submit(product, f, outcome) <==> Rejection(f).None? && outcome.Returns?
    ensures Closed in Submit(product, f, outcome) <==> Rejection(f).None? && outcome.Returns?
    ensures Rejection(f).Some? ==>
      forall e :: e in Submit(product, f, outcome) ==> !e.CallAdd? && !e.CallUpdate? && e != LoadingOn
  {
  }

  // ---------------------------------------------------------------------
  // Editing from the product table
  // ---------------------------------------------------------------------

  /** A variant as the JS object the table holds. */
  function VariantObject(v: AdminProducts.Variant): (r: Value)
    ensures Get(r, "Color") == v.color && Get(r, "Price") == v.price
    ensures Get(r, "Stock") == v.stock && Get(r, "ImgPath") == v.imgPath
  {
    Obj(map["IdProductVar" := v.idVar, "Color" := v.color, "Price" := v.price, "Stock" := v.stock, "ImgPath" := v.imgPath])
  }

  /** The object the product table hands the dialog when editing: the
      fields of its `ProductForm`. */
  function EditedProduct(pf: AdminProducts.ProductForm): (r: Value)
    ensures Truthy(r)
    ensures Get(r, "IdProduct") == Str(pf.id) && Get(r, "NameProduct") == pf.name
    ensures Get(r, "Decription") == pf.description && Get(r, "IdCategory") == pf.category
    ensures forall k :: k in {"id", "name", "description", "category", "price", "stock", "image"} ==> Get(r, k) == Undefined
  {
    Obj(map[
      "IdProduct" := Str(pf.id),
      "IdCategory" := pf.category,
      "NameProduct" := pf.name,
      "Decription" := pf.description,
      "variants" := Arr(Map(pf.variants, VariantObject))])
  }

  /** As written, the edit form opens blank but for the category "2", so
      the product's own name is lost and the first step refuses to advance. */
  lemma EditPrefillIsBlankAsWritten(pf: AdminProducts.ProductForm)
    ensures Prefill(EditedProduct(pf)) == BlankForm.(category := Str("2"))
    ensures Next(Open(EditedProduct(pf))) == (Open(EditedProduct(pf)), Some(Failure(NameRequired)))
  {
    var p := EditedProduct(pf);
    assert Get(p, "id") == Undefined && Get(p, "name") == Undefined;
    assert Get(p, "description") == Undefined && Get(p, "category") == Undefined;
    assert Get(p, "price") == Undefined && Get(p, "stock") == Undefined && Get(p, "image") == Undefined;
    assert Trim("") == "";
  }

  /** The prefill for the object the table hands over: its own keys, with
      price, stock, colour and image taken from its first variant. */
  function PrefillForEdit(product: Value): (f: Form)
    ensures !Truthy(product) ==> f == BlankForm
    ensures Truthy(product) && Present(Get(product, "IdProduct")) && ToStr(Get(product, "IdProduct")) != "" ==>
      f.id == Str(ToStr(Get(product, "IdProduct")))
    ensures Truthy(product) && Truthy(Get(product, "NameProduct")) ==> f.name == Get(product, "NameProduct")
    ensures Truthy(product) && Truthy(Get(product, "Decription")) ==> f.description == Get(product, "Decription")
    ensures Truthy(product) ==> (f.category == Str("2") <==> ToNumber(Get(product, "IdCategory")) == Finite(2))
  {
    if Truthy(product) then
      var vs := Get(product, "variants");
      var first := if vs.Arr? && |vs.elems| > 0 && Truthy(vs.elems[0]) then vs.elems[0] else Obj(map[]);
      Form(
        Or(ToStringOpt(Get(product, "IdProduct")), Str("")),
        Or(Get(product, "NameProduct"), Str("")),
        Or(Get(product, "Decription"), Str("")),
        if ToNumber(Get(product, "IdCategory")) == Finite(2) then Str("2") else Str("1"),
        Or(Get(first, "Color"), Str("")),
        TextIfTruthy(Get(first, "Price")),
        TextIfTruthy(Get(first, "Stock")),
        Or(Get(first, "ImgPath"), Str("")))
    else BlankForm
  }

  /** With the corrected prefill, a product with an id and a non-blank name
      opens with both, and the first step advances. */
  lemma EditPrefillKeepsProduct(pf: AdminProducts.ProductForm)
    requires pf.id != "" && pf.name.Str? && Trim(pf.name.s) != ""
    ensures PrefillForEdit(EditedProduct(pf)).id == Str(pf.id)
    ensures PrefillForEdit(EditedProduct(pf)).name == pf.name
    ensures Next(Modal(1, PrefillForEdit(EditedProduct(pf)))).0.step == 2
  {
    var p := EditedProduct(pf);
    assert ToStr(Get(p, "IdProduct")) == pf.id;
    assert Truthy(pf.name);
    var f := PrefillForEdit(p);
    assert f.name == pf.name;
    assert Next(Modal(1, f)) == (Modal(2, f), None);
  }
}

=== FILE: profile.dfy ===
/** The account page (`app/profile/page.tsx`): the status and payment
    labels of past orders, the short order code, the greeting, and how a
    fetched profile fills the form. */
module Profile {
  import opened Optional
  import opened Text
  import opened Js
  import Checkout

  /** A status label and its colour class. */
  datatype StatusInfo = StatusInfo(text: string, color: string)

  /** The colour of a status the page does not know. */
  const Muted: string := "text-muted-foreground"

  /** The statuses with their own label. */
  const KnownStatuses: seq<string> := ["pending", "confirmed", "shipping", "delivered", "cancelled"]

  /** `getStatusText`: a known status gets its label and colour; any other
      is shown as it is, muted. */
  function StatusText(status: string): (r: StatusInfo)
    ensures r.color == Muted <==> status !in KnownStatuses
    ensures status !in KnownStatuses ==> r.text == status
    ensures status in KnownStatuses ==> r.text != status
  {
    match status
    case "pending" => StatusInfo("Ch\U{1EDD} x\U{E1}c nh\U{1EAD}n", "text-yellow-500")
    case "confirmed" => StatusInfo("\U{110}\U{E3} x\U{E1}c nh\U{1EAD}n", "text-blue-500")
    case "shipping" => StatusInfo("\U{110}ang giao h\U{E0}ng", "text-purple-500")
    case "delivered" => StatusInfo("\U{110}\U{E3} giao h\U{E0}ng", "text-green-500")
    case "cancelled" => StatusInfo("\U{110}\U{E3} h\U{1EE7}y", "text-red-500")
    case _ => StatusInfo(status, Muted)
  }

  /** The five known statuses have five different labels. */
  lemma StatusLabelsDistinct()
    ensures forall i, j :: 0 <= i < j < |KnownStatuses| ==>
      StatusText(KnownStatuses[i]).text != StatusText(KnownStatuses[j]).text
  {
  }

  /** `getPaymentMethodText`: the three checkout methods get a label; any
      other method is shown as it is. */
  function PaymentMethodText(payment: string): (r: string)
    ensures payment !in Checkout.PaymentMethods ==> r == payment
    ensures payment in Checkout.PaymentMethods ==> r != payment && r != ""
  {
    match payment
    case "cod" => "Thanh to\U{E1}n khi nh\U{1EAD}n h\U{E0}ng"
    case "bank" => "Chuy\U{1EC3}n kho\U{1EA3}n ng\U{E2}n h\U{E0}ng"
    case "momo" => "V\U{ED} MoMo"
    case _ => payment
  }

  /** Every method the checkout page can submit, the default included, is
      shown with its own label, and the three labels differ. */
  lemma CheckoutMethodsAreLabelled()
    ensures forall i :: 0 <= i < |Checkout.PaymentMethods| ==>
      PaymentMethodText(Checkout.PaymentMethods[i]) != Checkout.PaymentMethods[i]
    ensures PaymentMethodText(Checkout.DefaultPaymentMethod) != Checkout.DefaultPaymentMethod
    ensures forall i, j :: 0 <= i < j < |Checkout.PaymentMethods| ==>
      PaymentMethodText(Checkout.PaymentMethods[i]) != PaymentMethodText(Checkout.PaymentMethods[j])
  {
  }

  /** The order code shown: `id.slice(0, 8).toUpperCase()`. */
  function OrderCode(id: string): (r: string)
    ensures |r| == if |id| < 8 then |id| else 8
    ensures forall i :: 0 <= i < |r| ==> r[i] == UpperChar(id[i])
  {
    Upper(Take(id, 8))
  }

  /** Only the first eight characters of an id matter, and showing a code
      again changes nothing. */
  lemma OrderCodeOfPrefix(id: string, rest: string)
    requires |id| >= 8
    ensures OrderCode(id + rest) == OrderCode(id)
    ensures OrderCode(OrderCode(id)) == OrderCode(id)
  {
    var a := OrderCode(id + rest);
    var b := OrderCode(id);
    assert forall i :: 0 <= i < 8 ==> (id + rest)[i] == id[i];
    assert a == b;
    var c := OrderCode(b);
    forall i | 0 <= i < 8
      ensures c[i] == b[i]
    {
      assert c[i] == UpperChar(b[i]);
    }
  }

  /** The name greeted: `full_name || email.split('@')[0]`, nothing when
      there is neither. */
  function Greeting(fullName: string, email: Option<string>): (r: string)
    ensures fullName != "" ==> r == fullName
    ensures fullName == "" && email.Some? ==> '@' !in r && |r| <= |email.value| && r == email.value[..|r|]
    ensures fullName == "" && email.Some? && '@' in email.value ==> email.value[|r|] == '@'
    ensures fullName == "" && email.None? ==> r == ""
  {
    if fullName != "" then fullName
    else match email
      case Some(e) => BeforeFirst(e, '@')
      case None => ""
  }

  /** The profile form. */
  datatype ProfileForm = ProfileForm(fullName: Value, phone: Value, address: Value)

  /** Whether `fetchProfile` fills the form: a user is signed in, the
      error, if any, is the "no row" code PGRST116, and a row came back. */
  predicate Fills(signedIn: bool, data: Value, error: Value) {
    signedIn && !(Truthy(error) && !StrictEq(Get(error, "code"), Str("PGRST116"))) && Truthy(data)
  }

  /** `fetchProfile`: the form is filled from the row, with missing, null
      or empty fields as ''; in every other case (no user, an error that is
      logged, no row) it is left as it was. */
  function FetchProfile(signedIn: bool, data: Value, error: Value, current: ProfileForm): (r: ProfileForm)
    ensures !Fills(signedIn, data, error) ==> r == current
    ensures Fills(signedIn, data, error) ==>
      (Truthy(Get(data, "full_name")) ==> r.fullName == Get(data, "full_name")) &&
      (!Truthy(Get(data, "full_name")) ==> r.fullName == Str("")) &&
      (Truthy(Get(data, "phone")) ==> r.phone == Get(data, "phone")) &&
      (!Truthy(Get(data, "phone")) ==> r.phone == Str("")) &&
      (Truthy(Get(data, "address")) ==> r.address == Get(data, "address")) &&
      (!Truthy(Get(data, "address")) ==> r.address == Str(""))
  {
    if Fills(signedIn, data, error) then
      ProfileForm(
        Or(Get(data, "full_name"), Str("")),
        Or(Get(data, "phone"), Str("")),
        Or(Get(data, "address"), Str("")))
    else current
  }

  /** A fetched row never leaves a null or undefined field in the form. */
  lemma FetchedProfileHasNoNulls(data: Value, error: Value)
    requires Fills(true, data, error)
    ensures var r := FetchProfile(true, data, error, ProfileForm(Null, Null, Null));
      Present(r.fullName) && Present(r.phone) && Present(r.address)
  {
  }
}

=== FILE: text.dfy ===
/** String operations of JavaScript's `String.prototype` that the storefront
    relies on: `includes`, `trim`, ASCII `toLowerCase`/`toUpperCase`,
    `split` on one character, `join`, and `slice(0, n)`. */
module Text {
  import opened Optional

  /** `t` occurs in `s` starting at index `i`. */
  predicate OccursAt(s: string, t: string, i: int) {
    0 <= i && i + |t| <= |s| && s[i..i + |t|] == t
  }

  /** `s.includes(t)`, searched left to right: the empty string occurs
      everywhere, nothing longer than `s` occurs in it, and `s` includes
      its own suffixes. */
  predicate Contains(s: string, t: string)
    decreases |s|
  {
    if |t| > |s| then false
    else if s[..|t|] == t then true
    else Contains(s[1..], t)
  }

  /** The left-to-right search finds `t` exactly when it occurs at some index. */
  lemma {:induction false} ContainsIffOccurs(s: string, t: string)
    ensures Contains(s, t) <==> exists i :: OccursAt(s, t, i)
    decreases |s|
  {
    if |t| > |s| {
    } else if s[..|t|] == t {
      assert OccursAt(s, t, 0);
    } else {
      ContainsIffOccurs(s[1..], t);
      if Contains(s[1..], t) {
        var i :| OccursAt(s[1..], t, i);
        assert s[1..][i..i + |t|] == s[i + 1..i + 1 + |t|];
        assert OccursAt(s, t, i + 1);
      }
      if exists i :: OccursAt(s, t, i) {
        var i :| OccursAt(s, t, i);
        assert i != 0;
        assert s[1..][i - 1..i - 1 + |t|] == s[i..i + |t|];
        assert OccursAt(s[1..], t, i - 1);
      }
    }
  }

  /** A string placed between two others is found in the result. */
  lemma ContainsInfix(a: string, t: string, b: string)
    ensures Contains(a + t + b, t)
  {
    var s := a + t + b;
    assert s[|a|..|a| + |t|] == t;
    assert OccursAt(s, t, |a|);
    ContainsIffOccurs(s, t);
  }

  /** Both pieces placed in `a + x + b + y` are found in it. */
  lemma ContainsBoth(a: string, x: string, b: string, y: string)
    ensures Contains(a + x + b + y, x) && Contains(a + x + b + y, y)
  {
    ContainsInfix(a, x, b + y);
    assert a + x + (b + y) == a + x + b + y;
    ContainsInfix(a + x + b, y, "");
    assert a + x + b + y + "" == a + x + b + y;
  }

  /** A string that includes `t` includes every prefix of `t`. */
  lemma ContainsPrefix(s: string, t: string, n: nat)
    requires n <= |t| && Contains(s, t)
    ensures Contains(s, t[..n])
  {
    ContainsIffOccurs(s, t);
    var i :| OccursAt(s, t, i);
    assert s[i..i + n] == t[..n];
    assert OccursAt(s, t[..n], i);
    ContainsIffOccurs(s, t[..n]);
  }

  /** Every string includes the empty string. */
  lemma ContainsEmpty(s: string)
    ensures Contains(s, "")
  {
  }

  /** The characters `String.prototype.trim` and `Number(string)` strip:
      white space, the line terminators, and the space separators. */
  predicate IsSpace(c: char) {
    || c == ' ' || c == '\t' || c == '\n' || c == '\r'
    || c == '\U{B}' || c == '\U{C}' || c == '\U{A0}' || c == '\U{FEFF}'
    || c == '\U{1680}' || ('\U{2000}' <= c <= '\U{200A}')
    || c == '\U{2028}' || c == '\U{2029}' || c == '\U{202F}'
    || c == '\U{205F}' || c == '\U{3000}'
  }

  /** Every character of `s` is white space (true of the empty string). */
  predicate Blank(s: string) {
    forall i :: 0 <= i < |s| ==> IsSpace(s[i])
  }

  /** `s` without its leading white space. */
  function TrimStart(s: string): (r: string)
    ensures |r| <= |s| && r == s[|s| - |r|..]
    ensures Blank(s[..|s| - |r|])
    ensures r == "" || !IsSpace(r[0])
    ensures Blank(s) ==> r == ""
    decreases |s|
  {
    if |s| > 0 && IsSpace(s[0]) then
      var r := TrimStart(s[1..]);
      var k := |s| - |r|;
      assert s[1..][k - 1..] == s[k..];
      assert forall i :: 0 <= i < k ==> IsSpace(s[..k][i]) by {
        forall i | 0 <= i < k
          ensures IsSpace(s[..k][i])
        {
          if i > 0 {
            assert s[..k][i] == s[1..][..k - 1][i - 1];
          }
        }
      }
      r
    else s
  }

  /** `s` without its trailing white space. */
  function TrimEnd(s: string): (r: string)
    ensures |r| <= |s| && r == s[..|r|]
    ensures Blank(s[|r|..])
    ensures r == "" || !IsSpace(r[|r| - 1])
    decreases |s|
  {
    if |s| > 0 && IsSpace(s[|s| - 1]) then
      var r := TrimEnd(s[..|s| - 1]);
      assert s[..|s| - 1][..|r|] == s[..|r|];
      assert forall i :: 0 <= i < |s| - |r| ==> IsSpace(s[|r|..][i]) by {
        forall i | 0 <= i < |s| - |r|
          ensures IsSpace(s[|r|..][i])
        {
          if i < |s| - 1 - |r| {
            assert s[|r|..][i] == s[..|s| - 1][|r|..][i];
          }
        }
      }
      r
    else s
  }

  /** `s.trim()`: a slice of `s` with only white space cut from either
      side, which neither starts nor ends with white space. */
  function Trim(s: string): (r: string)
  {
    TrimEnd(TrimStart(s))
  }

  /** `s.trim() === ''` holds exactly for strings made only of white space. */
  lemma TrimEmptyIffBlank(s: string)
    ensures Trim(s) == "" <==> Blank(s)
  {
    var u := TrimStart(s);
    if Trim(s) == "" {
      assert Blank(u[0..]) && u[0..] == u;
      assert u == "";
      assert s[..|s|] == s;
    }
  }

  /** ASCII `toLowerCase` of one character; other characters are kept. */
  function LowerChar(c: char): char {
    if 'A' <= c <= 'Z' then (c as int + 32) as char else c
  }

  /** ASCII `toUpperCase` of one character; other characters are kept. */
  function UpperChar(c: char): char {
    if 'a' <= c <= 'z' then (c as int - 32) as char else c
  }

  /** `s.toLowerCase()` restricted to the ASCII letters: no ASCII capital
      is left, every other character is kept, and each capital becomes its
      own small letter. */
  function Lower(s: string): (r: string)
    ensures |r| == |s|
    ensures forall i :: 0 <= i < |s| ==> r[i] == LowerChar(s[i])
  {
    seq(|s|, i requires 0 <= i < |s| => LowerChar(s[i]))
  }

  /** `s.toUpperCase()` restricted to the ASCII letters. */
  function Upper(s: string): (r: string)
    ensures |r| == |s|
    ensures forall i :: 0 <= i < |s| ==> r[i] == UpperChar(s[i])
  {
    seq(|s|, i requires 0 <= i < |s| => UpperChar(s[i]))
  }

  /** Lower-casing twice is lower-casing once. */
  lemma LowerIdempotent(s: string)
    ensures Lower(Lower(s)) == Lower(s)
  {
  }

  /** Index of the first `c` in `s`, as `s.indexOf(c)` (None for -1). */
  function IndexOf(s: string, c: char): (r: Option<nat>)
    ensures r.None? ==> c !in s
    ensures r.Some? ==> r.value < |s| && s[r.value] == c
    ensures r.Some? ==> forall j :: 0 <= j < r.value ==> s[j] != c
    decreases |s|
  {
    if |s| == 0 then None
    else if s[0] == c then Some(0)
    else match IndexOf(s[1..], c)
      case None => None
      case Some(i) => Some(i + 1)
  }

  /** `s.split(c)` for a one-character separator: always at least one part,
      and no part contains the separator. */
  function Split(s: string, c: char): (parts: seq<string>)
    ensures |parts| >= 1
    ensures forall i :: 0 <= i < |parts| ==> c !in parts[i]
    decreases |s|
  {
    match IndexOf(s, c)
    case None => [s]
    case Some(i) => [s[..i]] + Split(s[i + 1..], c)
  }

  /** `parts.join(sep)`. */
  function Join(parts: seq<string>, sep: string): string
    decreases |parts|
  {
    if |parts| == 0 then ""
    else if |parts| == 1 then parts[0]
    else parts[0] + sep + Join(parts[1..], sep)
  }

  /** Joining a non-empty head onto a non-empty tail puts exactly one
      separator between them. */
  lemma JoinCons(head: string, tail: seq<string>, sep: string)
    requires |tail| >= 1
    ensures Join([head] + tail, sep) == head + sep + Join(tail, sep)
  {
    assert ([head] + tail)[1..] == tail;
  }

  /** The first `c` of a string that starts with a `c`-free part is right after that part. */
  lemma IndexOfAfterFreePrefix(p: string, c: char, tail: string)
    requires c !in p
    ensures IndexOf(p + [c] + tail, c) == Some(|p|)
  {
    var s := p + [c] + tail;
    assert s[|p|] == c;
    assert s[..|p|] == p;
    assert forall j :: 0 <= j < |p| ==> s[j] == p[j];
    var k := IndexOf(s, c).value;
    assert k >= |p|;
    assert k <= |p|;
  }

  /** Joining the parts of a split restores the string. */
  lemma {:induction false} JoinSplit(s: string, c: char)
    ensures Join(Split(s, c), [c]) == s
    decreases |s|
  {
    match IndexOf(s, c)
    case None =>
    case Some(i) =>
      var rest := Split(s[i + 1..], c);
      JoinSplit(s[i + 1..], c);
      JoinCons(s[..i], rest, [c]);
      assert s == s[..i] + [c] + s[i + 1..];
  }

  /** Splitting a join restores the parts, provided no part contains the separator. */
  lemma {:induction false} SplitJoin(parts: seq<string>, c: char)
    requires |parts| >= 1
    requires forall i :: 0 <= i < |parts| ==> c !in parts[i]
    ensures Split(Join(parts, [c]), c) == parts
    decreases |parts|
  {
    if |parts| > 1 {
      var rest := parts[1..];
      JoinCons(parts[0], rest, [c]);
      assert [parts[0]] + rest == parts;
      var s := Join(parts, [c]);
      IndexOfAfterFreePrefix(parts[0], c, Join(rest, [c]));
      assert s[..|parts[0]|] == parts[0];
      assert s[|parts[0]| + 1..] == Join(rest, [c]);
      SplitJoin(rest, c);
    }
  }

  /** The part of `s` before the first `c` (all of `s` when there is none),
      as `s.split(c)[0]`. */
  function BeforeFirst(s: string, c: char): (r: string)
    ensures c !in r
    ensures |r| <= |s| && r == s[..|r|]
    ensures c in s ==> s[|r|] == c
  {
    JoinSplit(s, c);
    var parts := Split(s, c);
    if |parts| > 1 then
      JoinCons(parts[0], parts[1..], [c]);
      assert [parts[0]] + parts[1..] == parts;
      parts[0]
    else
      parts[0]
  }

  /** `s.slice(0, n)`. */
  function Take(s: string, n: nat): (r: string)
    ensures |r| == if |s| < n then |s| else n
    ensures r == s[..|r|]
  {
    if |s| <= n then s else s[..n]
  }
}

=== FILE: toast.dfy ===
/** The toasts the pages show, reduced to their kind and text. */
module Toast {
  /** `toast.success(text)` or `toast.error(text)`. */
  datatype Notice = Success(text: string) | Failure(text: string)

  /** The fallback error text the dialogs show when an error has no message. */
  const SomethingWrong: string := "C\U{F3} l\U{1ED7}i x\U{1EA3}y ra"
}

=== FILE: user_modal.dfy ===
/** The add/edit user dialog (`components/UserModal.tsx`): the form it
    prefills and what submitting it sends. Editing updates the user;
    adding goes through registration, which knows nothing of role or
    status. */
module UserModal {
  import opened Optional
  import opened Js
  import opened Api
  import opened Toast

  /** The form state. */
  datatype Form = Form(userName: Value, email: Value, password: Value, confirmation: Value, role: Value, status: Value)

  /** What `handleSubmit` does, in order. */
  datatype Event =
    | LoadingOn
    | CallUpdate(id: Value, data: Value)
    | CallRegister(data: Value)
    | Show(notice: Notice)
    | Succeeded
    | Closed
    | LoadingOff

  const Updated: string := "C\U{1EAD}p nh\U{1EAD}t ng\U{1B0}\U{1EDD}i d\U{F9}ng th\U{E0}nh c\U{F4}ng"
  const Added: string := "Th\U{EA}m ng\U{1B0}\U{1EDD}i d\U{F9}ng m\U{1EDB}i th\U{E0}nh c\U{F4}ng"

  /** The form for a new user. */
  const BlankForm: Form := Form(Str(""), Str(""), Str(""), Str(""), Str("user"), Str("active"))

  /** The prefill effect: the user's name, e-mail, role and status with
      their defaults, and never a password. */
  function Prefill(user: Value): (f: Form)
    ensures f.password == Str("") && f.confirmation == Str("")
    ensures !Truthy(user) ==> f == BlankForm
    ensures Truthy(user) && Truthy(Get(user, "name")) ==> f.userName == Get(user, "name")
    ensures Truthy(user) && Truthy(Get(user, "email")) ==> f.email == Get(user, "email")
    ensures Truthy(user) && Truthy(Get(user, "role")) ==> f.role == Get(user, "role")
    ensures Truthy(user) && Truthy(Get(user, "status")) ==> f.status == Get(user, "status")
    ensures Truthy(user) && !Truthy(Get(user, "name")) ==> f.userName == Str("")
    ensures Truthy(user) && !Truthy(Get(user, "email")) ==> f.email == Str("")
    ensures Truthy(user) && !Truthy(Get(user, "role")) ==> f.role == Str("user")
    ensures Truthy(user) && !Truthy(Get(user, "status")) ==> f.status == Str("active")
  {
    if Truthy(user) then
      Form(
        Or(Get(user, "name"), Str("")),
        Or(Get(user, "email"), Str("")),
        Str(""),
        Str(""),
        Or(Get(user, "role"), Str("user")),
        Or(Get(user, "status"), Str("active")))
    else BlankForm
  }

  /** The update body: the form's fields under the backend's lower-case
      names, with the password only when one was typed. */
  function EditPayload(f: Form): (r: Value)
    ensures r.Obj?
    ensures Truthy(f.password) ==> r.fields.Keys == {"name", "email", "role", "status", "password"}
    ensures !Truthy(f.password) ==> r.fields.Keys == {"name", "email", "role", "status"}
    ensures Get(r, "name") == f.userName && Get(r, "email") == f.email
    ensures Get(r, "role") == f.role && Get(r, "status") == f.status
    ensures Truthy(f.password) ==> Get(r, "password") == f.password
  {
    var base := map["name" := f.userName, "email" := f.email, "role" := f.role, "status" := f.status];
    if Truthy(f.password) then Obj(base["password" := f.password]) else Obj(base)
  }

  /** The registration body: exactly the name, e-mail and both passwords. */
  function RegisterPayload(f: Form): (r: Value)
    ensures r.Obj? && r.fields.Keys == {"UserName", "Email", "Password", "Password_confirmation"}
    ensures Get(r, "UserName") == f.userName && Get(r, "Email") == f.email
    ensures Get(r, "Password") == f.password && Get(r, "Password_confirmation") == f.confirmation
  {
    Obj(map[
      "UserName" := f.userName,
      "Email" := f.email,
      "Password" := f.password,
      "Password_confirmation" := f.confirmation])
  }

  /** Role and status chosen while adding a user are not sent. */
  lemma RegisterIgnoresRoleAndStatus(f: Form, role: Value, status: Value)
    ensures RegisterPayload(f.(role := role, status := status)) == RegisterPayload(f)
  {
  }

  /** `handleSubmit`: `outcome` is how the update or registration call settles. */
  function Submit(user: Value, f: Form, outcome: Outcome): (t: seq<Event>)
    ensures |t| >= 4 && t[0] == LoadingOn && t[|t| - 1] == LoadingOff
    ensures Truthy(user) ==> t[1] == CallUpdate(Get(user, "id"), EditPayload(f))
    ensures !Truthy(user) ==> t[1] == CallRegister(RegisterPayload(f))
    ensures outcome.Returns? ==> t[2..] == [Show(Success(if Truthy(user) then Updated else Added)), Succeeded, Closed, LoadingOff]
    ensures outcome.Throws? ==> t[2..] == [Show(Failure(ErrorText(outcome.message, SomethingWrong))), LoadingOff]
  {
    var call := if Truthy(user) then CallUpdate(Get(user, "id"), EditPayload(f)) else CallRegister(RegisterPayload(f));
    var after := match outcome
      case Returns(_) => [Show(Success(if Truthy(user) then Updated else Added)), Succeeded, Closed]
      case Throws(m) => [Show(Failure(ErrorText(m, SomethingWrong)))];
    [LoadingOn, call] + after + [LoadingOff]
  }

  /** The parent is told of success, and the dialog closes, exactly when the
      call succeeds, and only after that call. */
  lemma SuccessOnlyAfterCall(user: Value, f: Form, outcome: Outcome)
    ensures var t := Submit(user, f, outcome);
      (Succeeded in t <==> outcome.Returns?) && (Closed in t <==> outcome.Returns?)
    ensures var t := Submit(user, f, outcome);
      forall i :: 0 <= i < |t| && (t[i] == Succeeded || t[i] == Closed) ==> i > 1
  {
    var t := Submit(user, f, outcome);
    assert t[..2] + t[2..] == t;
  }

  /** Editing a user without typing a password never sends one, so the
      password the prefill leaves blank is never overwritten. */
  lemma EditWithoutPasswordKeepsIt(user: Value)
    requires Truthy(user)
    ensures "password" !in EditPayload(Prefill(user)).fields
  {
  }
}
